=== FILE: README.md ===
# AskRacha in Dafny

This project models the decision logic of AskRacha. AskRacha is a question-answering assistant for the Storacha documentation. It has two parts:

- **The Discord bot.** It reads its configuration from the environment and picks the question out of a message that mentions it. It checks the question and forwards it to the backend through an HTTP client that retries. It formats the answer and cuts it to Discord's length limit. It classifies errors into friendly replies, counts its metrics and backs off when it reconnects.
- **The Flask backend.** Its routes load web pages into a retrieval-augmented generation (RAG) engine, answer questions, report status, list documents and clear the vector store. Requests are rate limited per user through a Redis-backed limiter. A middleware and a decorator apply the limiter. A cross-platform user mapper gives web and Discord users their keys. The chat-context manager keeps each session's message window within a token budget by summarising older messages. A scheduler expires idle sessions.

The root-level `rag.py` is a smaller self-contained engine. It scrapes pages, scores documents by keyword hits plus word-set (Jaccard) similarity, and picks the best ones for a language model. It is modelled as well, as module `StorachaRag`.

Each source file becomes one Dafny module of pure functions over immutable datatypes. The clock, Redis, HTTP, the Discord client and the language models become parameters: a reply the call gives, or `None` when it raises. String handling follows Python: the `str.isspace` whitespace set, `strip`, `split()`, `split(c)`, `join`, slicing, `int()` and `float()`. That shared layer lives in `Text` and `Numerals`.

## Model

| member | source | states |
|---|---|---|
| MessageProcessor.RemoveMentions | askracha/bot/message_processor.py:83-84 | deleting mentions never lengthens the text |
| MessageProcessor.RemoveMentionsKeepsPlain | askracha/bot/message_processor.py:83-84 | the result is drawn from the input's characters, and every character other than `<`, `@`, `!`, `>` and digits survives, in order and with the same count |
| MessageProcessor.MentionIsRemoved | askracha/bot/message_processor.py:83-84 | a mention at the front of the text disappears whole and the rest follows unchanged |
| MessageProcessor.RemovalIsSinglePass | askracha/bot/message_processor.py:84 | for any digit ids, `<@` + a mention + `id>` comes out as the mention `<@id>` assembled from the pieces around the deleted one, because `re.sub` does not rescan |
| MessageProcessor.ExtractQuestionSpec | askracha/bot/message_processor.py:67-94 | no question exactly when the content is empty or only mentions and whitespace; otherwise the question is non-empty, trimmed and single-spaced, and keeps every visible character outside the mentions in order |
| MessageProcessor.OnlyMentionNoQuestion | askracha/bot/message_processor.py:77-91 | content made only of mentions gives no question |
| MessageProcessor.StripKeepsVisible | askracha/bot/message_processor.py:84 | stripping removes only whitespace |
| MessageProcessor.ValidExtractedQuestion | askracha/bot/message_processor.py:122-156 | for an extracted question, validity reduces to a length of 3 to 1000 and an ASCII letter or digit in the content outside the mentions |
| MessageProcessor.FormatResponse | askracha/bot/message_processor.py:96-120 | failure gives the trouble reply, an empty answer the rephrase reply, and otherwise the answer truncated to the limit |
| MessageProcessor.TruncateShortIsIdentity | askracha/bot/message_processor.py:168-169 | text within the limit comes back unchanged |
| MessageProcessor.ScanCutSpec | askracha/bot/message_processor.py:179-194 | the backward search finds the largest position in the window of at most 100 positions, and at no less than 80 % of the space, that starts a sentence ending; it cuts just after that ending, and finds nothing exactly when no such position exists |
| MessageProcessor.CutBodySpec | askracha/bot/message_processor.py:196-203 | the kept body is never longer than the prefix; with a cut, the cut follows the last sentence ending of the window and the body is the prefix up to it, right-stripped; without one, no window position holds an ending, and the body is the prefix without its last word (the prefix itself when it has at most one word) |
| MessageProcessor.TruncateLongSpec | askracha/bot/message_processor.py:168-206 | over-long text comes back within the limit and ends in the indicator, after the body kept from the first `limit - 57` characters |
| MessageProcessor.SmallLimitOverflows | askracha/bot/message_processor.py:168-206 | as written, for a positive limit below 57 an over-long text gets a reply longer than the limit |
| MessageProcessor.TruncateWithinLimit | askracha/bot/message_processor.py:168-206 | as intended: never longer than the limit, unchanged when within it, `truncate_response` itself for limits of at least 57, and a plain prefix below that |
| MessageProcessor.IndicatorLength | askracha/bot/message_processor.py:172 | the truncation indicator is 57 characters |
| Bot.ErrorKindOf | askracha/bot/bot.py:237-251 | an absent or empty error is generic; otherwise the lower-cased text is searched for "timeout", then "connection" or "unavailable", then "rate limit", in that order |
| Bot.TimeoutWins | askracha/bot/bot.py:244-249 | a timeout outranks every other keyword in the same message |
| Bot.GenericIsTroubleReply | askracha/bot/bot.py:239-251 | a generic failure gets the same words as the message processor's trouble reply |
| Bot.OnMessage | askracha/bot/bot.py:105-144 | the bot's own messages, other bots and messages without a mention are ignored; a missing or invalid question asks for clarification; anything else is handed over |
| Bot.BareMentionIsClarified | askracha/bot/bot.py:122-126 | a mention with nothing else in it is met with a request for a question |
| Bot.HandledQuestionIsClean | askracha/bot/bot.py:122-144 | a handed-over question is trimmed and single-spaced |
| Bot.CountMention | askracha/bot/bot.py:159-210 | an answered mention counts as a success, a cancelled one counts in neither column, every other one counts as a failure; every mention is counted as processed |
| Bot.CountAllTallies | askracha/bot/bot.py:146-212 | over any run of mentions the processed count grows by the run's length and the successes by the answered mentions; every processed mention is a success, a failure or a cancellation |
| Bot.BalancedWithoutCancellation | askracha/bot/bot.py:146-212 | without cancellations the processed count is exactly successes plus failures |
| Bot.Reconnect | askracha/bot/bot.py:290-306 | at the cap the bot gives up without counting; otherwise it counts the attempt and waits between 1 and 60 seconds |
| Bot.CounterBounded | askracha/bot/bot.py:290-306 | however often reconnect runs, the counter never passes the cap |
| Bot.DefaultBackoff | askracha/bot/bot.py:290-297 | from a fresh connection the waits are 2, 4, 8, 16 and 32 seconds, then the bot gives up |
| Bot.OnConnected | askracha/bot/bot.py:70-99 | `on_ready` and `on_resumed` reset the reconnect counter |
| BotConfig.Validate | askracha/bot/config.py:29-101 | the configuration is accepted exactly when every check passes, with each setting as read; otherwise the first failing check in source order is reported |
| BotConfig.ChecksRanked | askracha/bot/config.py:29-101 | the reported check is the failing one of lowest rank |
| BotConfig.AllPass | askracha/bot/config.py:29-101 | when no listed check fails, no check fails at all |
| BotConfig.OnlyTokenGivesDefaults | askracha/bot/config.py:45-84 | with only a token set, every other setting takes its default and passes |
| BotConfig.DefaultsPass | askracha/bot/config.py:45-84 | the default readings pass every check |
| BotConfig.TokenCheckedFirst | askracha/bot/config.py:40-42 | a missing token is reported before anything else |
| Numerals.NatToString | askracha/bot/discord_rate_limiter.py:64-72 | `str(n)` renders a natural number with no sign and no leading zero |
| Numerals.IntRoundTrip | askracha/bot/config.py:48-67 | rendering an integer and parsing it back with `int()` gives the integer |
| Numerals.ParseDigits | askracha/bot/config.py:48-67 | `int()` of a plain run of digits is the number they denote |
| Numerals.EnvInt | askracha/backend/rate_limit/rate_limiter.py:33-43 | `int(os.getenv(name, str(default)))` is the default when the variable is unset and fails where `int` raises |
| ApiClient.NormalizeUrl | askracha/bot/api_client.py:31 | the URL loses its trailing slashes and nothing else |
| ApiClient.NormalizeUrlIdempotent | askracha/bot/api_client.py:31 | normalising twice changes nothing more |
| ApiClient.MakeRequestAsWritten | askracha/bot/api_client.py:55-134 | the loop as written: every attempt before the last one made is retried, it stops early only on a reply that is not retried, its result is the one that last reply calls for (the body of a 200, the decode, status, timeout or connection error), a last attempt that is a 429 with a readable Retry-After always returns `None`, and it sleeps `delay * 2^attempt` or the Retry-After in between |
| ApiClient.MakeRequest | askracha/bot/api_client.py:55-134 | as intended: the same retries and stopping rule, a sleep between consecutive attempts and none after the last, and always the body of the final 200 or the exception its last reply calls for |
| ApiClient.AgreeUnlessLastRateLimited | askracha/bot/api_client.py:98-104 | the two loops agree whenever the last attempt is not rate limited |
| ApiClient.LastRateLimitFallsThrough | askracha/bot/api_client.py:98-104 | a 429 on the only attempt sleeps and then returns `None` |
| ApiClient.ClientErrorIsRetried | askracha/bot/api_client.py:114-134 | a 404 is retried like a server error, and the second attempt's body is returned after one backoff |
| ApiClient.QueryRag | askracha/bot/api_client.py:136-255 | a blank question is refused without a request; each exception kind and a reply that is not a dictionary get their own error message; a dictionary reply is read by `Interpret`: the answer and the score-free sources when `success` and `answer` are truthy, otherwise the backend's reason |
| ApiClient.BlankNeedsNoServer | askracha/bot/api_client.py:146-154 | a blank question gets the same answer whatever the server would have said |
| ApiClient.ScoresDropped | askracha/bot/api_client.py:167-180 | sources lose their `score` entry and nothing else: order, count and every other entry survive |
| ApiClient.ChatQuery | askracha/bot/api_client.py:270-305 | like `query_rag`, except that `response` may replace `answer`, `source_nodes` may replace `sources`, and sources become titled cards |
| ApiClient.ResponseOutranksAnswer | askracha/bot/api_client.py:281 | `response` is preferred to `answer` when both are present |
| ApiClient.CardsHaveTitles | askracha/bot/api_client.py:284-291 | every card has a non-empty title: the first truthy candidate, or "Untitled" |
| ApiClient.CreateChatSession | askracha/bot/api_client.py:257-268 | the id when the reply is successful and carries one, `None` otherwise |
| ApiClient.HealthCheck | askracha/bot/api_client.py:307-344 | healthy exactly when the reply has `success` or `answer`; an exception means unhealthy |
| ApiClient.UnsuccessfulButHealthy | askracha/bot/api_client.py:326 | a backend that answers at all, even unsuccessfully, counts as healthy |
| RateLimiter.ConfigFromEnv | askracha/backend/rate_limit/rate_limiter.py:33-43 | the configuration fails exactly when one of the four numeric variables is not an integer; otherwise the limit and key prefix are as read or defaulted, and an empty environment gives the defaults |
| RateLimiter.Sanitize | askracha/backend/rate_limit/rate_limiter.py:88-92 | every character outside `[a-zA-Z0-9_-@.]` becomes `_` and the length is kept |
| RateLimiter.SanitizeIdempotent | askracha/backend/rate_limit/rate_limiter.py:88-92 | sanitised ids use only key characters, and sanitising again changes nothing |
| RateLimiter.KeyInjectiveOnPlainIds | askracha/backend/rate_limit/rate_limiter.py:88-92 | ids made of key characters keep distinct keys |
| RateLimiter.SanitizeMerges | askracha/backend/rate_limit/rate_limiter.py:88-92 | any two ids of equal length that differ only where both characters become `_` (outside the key alphabet, or `_` itself) share one key |
| RateLimiter.SetEx | askracha/backend/rate_limit/rate_limiter.py:119-136 | `SETEX` stores a value until its time-to-live runs out and refuses a non-positive time-to-live |
| RateLimiter.Trunc | askracha/backend/rate_limit/rate_limiter.py:146 | `int()` of a float truncates toward zero |
| RateLimiter.Check | askracha/backend/rate_limit/rate_limiter.py:94-172 | an empty id is an error; a request is denied exactly when the store is up and holds a live stamp younger than the limit, and a denial writes nothing; an allowed request waits 0 and resets at now plus the limit; no other key changes |
| RateLimiter.DeniedExactly | askracha/backend/rate_limit/rate_limiter.py:144-153 | a live stamp younger than the limit gives a denial whose wait is `int(limit - elapsed)` and whose reset is the stamp plus the limit, with the store unchanged |
| RateLimiter.Record | askracha/backend/rate_limit/rate_limiter.py:119-163 | an allowed request writes its timestamp, or fails open when the write is refused |
| RateLimiter.Reset | askracha/backend/rate_limit/rate_limiter.py:174-198 | the key is deleted, and the result says whether a live key existed |
| RateLimiter.Status | askracha/backend/rate_limit/rate_limiter.py:200-243 | the pending wait under the default limit, or none |
| RateLimiter.DeniedWithinWindow | askracha/backend/rate_limit/rate_limiter.py:94-172 | after an allowed request, every later request within the limit is denied, the wait is counted from the recorded request, and the store keeps that stamp |
| RateLimiter.AllowedAfterWindow | askracha/backend/rate_limit/rate_limiter.py:130-143 | once the window has passed, the request is allowed again |
| RateLimiter.AllowedAfterReset | askracha/backend/rate_limit/rate_limiter.py:174-198 | after a reset the next request is allowed |
| RateLimiter.FailsOpen | askracha/backend/rate_limit/rate_limiter.py:155-172 | a store that is down lets every request through |
| RateLimiter.StatusMatchesCheck | askracha/backend/rate_limit/rate_limiter.py:200-243 | the status reports exactly the denial a default check would give at that moment, and never changes the store |
| RateLimiter.DeniedWaitBounded | askracha/backend/rate_limit/rate_limiter.py:144-153 | a denial never asks for more than the limit while the clock has not gone back |
| RateLimiter.DeniedWithZeroWait | askracha/backend/rate_limit/rate_limiter.py:144-153 | truncation can tell a still-denied user to wait zero seconds |
| UserMapper.UnifiedUserId | askracha/bot/cross_platform_user_mapper.py:30-48 | `auth:P:ID` for authenticated users and `anon:P:ID` for everyone else |
| UserMapper.RealIp | askracha/bot/cross_platform_user_mapper.py:87-92 | an anonymous web user's address: the first `X-Forwarded-For` entry, then `X-Real-IP`, then the peer address, then "unknown" |
| UserMapper.WebIdentity | askracha/bot/cross_platform_user_mapper.py:50-100 | a non-empty `X-User-ID`, then a session `user_id`, makes the user authenticated; anyone else is anonymous under their address |
| UserMapper.DiscordIdentity | askracha/bot/cross_platform_user_mapper.py:102-119 | Discord users are always authenticated under their Discord id |
| UserMapper.UnifiedInjective | askracha/bot/cross_platform_user_mapper.py:30-48 | on platforms without `:` in their name, the unified id determines the platform, the id and the user type |
| UserMapper.DiscordKeysDistinct | askracha/bot/cross_platform_user_mapper.py:136-146 | distinct Discord users never share a limit |
| UserMapper.WebAndDiscordDistinct | askracha/bot/cross_platform_user_mapper.py:121-146 | a web identity never shares a limit with a Discord identity |
| UserMapper.AnonymousKeyedByAddress | askracha/bot/cross_platform_user_mapper.py:121-146 | anonymous web users share a limit exactly when their addresses agree |
| UserMapper.SanitizedKeysDistinct | askracha/backend/rate_limit/rate_limiter.py:88-92 | after the limiter's sanitiser, web and Discord keys still differ |
| UserMapper.KeysNonEmpty | askracha/bot/cross_platform_user_mapper.py:136-146 | every identity has a non-empty key, so the limiter never rejects it as empty |
| DiscordRateLimiter.UserIdentifier | askracha/bot/discord_rate_limiter.py:26-37 | a Discord user's key is the key of their Discord identity |
| DiscordRateLimiter.Check | askracha/bot/discord_rate_limiter.py:39-50 | the limiter's check under the default limit, which never meets the empty-id error |
| DiscordRateLimiter.Reset | askracha/bot/discord_rate_limiter.py:144-155 | resetting a Discord user resets exactly their key |
| DiscordRateLimiter.Status | askracha/bot/discord_rate_limiter.py:157-168 | a Discord user's status is the limiter's status for their key |
| DiscordRateLimiter.DiscordCheckSparesWebUsers | askracha/bot/discord_rate_limiter.py:39-50 | a Discord user's check leaves every web user's entry as it was |
| DiscordRateLimiter.QuantityRoundTrip | askracha/bot/discord_rate_limiter.py:64-72 | "N unit(s)" reads back as N |
| DiscordRateLimiter.ReadFiveWords | askracha/bot/discord_rate_limiter.py:67-72 | "M minute(s) and S second(s)" reads as `M * 60 + S` |
| DiscordRateLimiter.TimeStringRoundTrip | askracha/bot/discord_rate_limiter.py:64-72 | the wait in words reads back as the number of seconds it came from |
| DiscordRateLimiter.TemplateGreeting | askracha/bot/discord_rate_limiter.py:75-82 | filling in a template puts the greeting right after the emoji |
| DiscordRateLimiter.MessagesDifferOnlyInGreeting | askracha/bot/discord_rate_limiter.py:75-89 | the personalised message is the anonymous one with the greeting inserted after the emoji |
| DiscordRateLimiter.TemplateShowsWait | askracha/bot/discord_rate_limiter.py:77-82 | template `i` opens with its own emoji and shows the wait |
| DiscordRateLimiter.MessageShowsWait | askracha/bot/discord_rate_limiter.py:52-91 | the message opens with the emoji of template `remaining mod 4` and shows the wait in words |
| DiscordRateLimiter.LeadsDistinct | askracha/bot/discord_rate_limiter.py:77-85 | the four templates open with four different emoji |
| DiscordRateLimiter.CrossPlatformInSeconds | askracha/bot/discord_rate_limiter.py:93-109 | the cross-platform message gives the wait in seconds, even past a minute |
| RateLimitMiddleware.LimitedEndpoints | askracha/backend/rate_limit/rate_limit_middleware.py:64-68 | exactly the three endpoints are limited; a missing or empty endpoint never is |
| RateLimitMiddleware.UserIdentifier | askracha/backend/rate_limit/rate_limit_middleware.py:48-62 | a request is keyed by its web identity, with an empty session and "unknown" for a missing address |
| RateLimitMiddleware.HeaderDict | askracha/backend/rate_limit/rate_limit_middleware.py:53 | `dict(request_obj.headers)` holds every sent field under its title-cased name, and only title-cased names |
| RateLimitMiddleware.IdentityHeadersUnreachable | askracha/backend/rate_limit/rate_limit_middleware.py:53 | no title-cased name equals `X-User-ID` or `X-Real-IP` |
| RateLimitMiddleware.HookKeysByAddress | askracha/backend/rate_limit/rate_limit_middleware.py:48-62 | the hook keys every request as an anonymous web user, by the first forwarded address, else the peer address, else "unknown" |
| RateLimitMiddleware.DenialResponse | askracha/backend/rate_limit/rate_limit_middleware.py:70-89 | a denial is a 429 with the JSON payload and four headers |
| RateLimitMiddleware.DenialHeadersReadBack | askracha/backend/rate_limit/rate_limit_middleware.py:84-87 | the reset and retry headers of a 429 read back as the reset second and the wait |
| RateLimitMiddleware.DenialMessageNamesWait | askracha/backend/rate_limit/rate_limit_middleware.py:74-75 | the 429 message reads back as the `retry_after` wait |
| RateLimitMiddleware.Before | askracha/backend/rate_limit/rate_limit_middleware.py:91-123 | unlimited endpoints and preflight requests pass untouched; a denial short-circuits with the 429; a limiter that raises lets the request through |
| RateLimitMiddleware.BeforeFollowsLimiter | askracha/backend/rate_limit/rate_limit_middleware.py:91-123 | on a limited endpoint the limiter is consulted once: a denial becomes the 429, and an allowed verdict is kept for the after hook |
| RateLimitMiddleware.BeforeFailsOpen | askracha/backend/rate_limit/rate_limit_middleware.py:120-123 | a store that is down lets every limited request through |
| RateLimitMiddleware.SecondRequestDenied | askracha/backend/rate_limit/rate_limit_middleware.py:91-123 | two requests from one address at the same moment: the second gets the 429 |
| RateLimitMiddleware.After | askracha/backend/rate_limit/rate_limit_middleware.py:125-153 | limit headers are added only on a limited endpoint with a stored verdict for a non-empty user; without a stored verdict, or for an empty user, the response is returned unchanged |
| RateLimitMiddleware.AfterReportsReset | askracha/backend/rate_limit/rate_limit_middleware.py:125-153 | after an allowed request the headers carry the moment the window closes |
| RateLimitMiddleware.LimitHeadersContent | askracha/backend/rate_limit/rate_limit_middleware.py:136-147 | the headers say one request per window and none left, and keep every other header |
| RateLimitMiddleware.LimitResetReadsBack | askracha/backend/rate_limit/rate_limit_middleware.py:143 | the reset header reads back as the truncated second the window closes |
| RateLimitMiddleware.AfterIgnoresOtherEndpoints | askracha/backend/rate_limit/rate_limit_middleware.py:129-130 | responses of unlimited endpoints are unchanged |
| RateLimitMiddleware.DecoratedAsWritten | askracha/backend/rate_limit/rate_limit_middleware.py:156-212 | the decorator as written, with the route-run count and the store afterwards |
| RateLimitMiddleware.Decorated | askracha/backend/rate_limit/rate_limit_middleware.py:156-212 | with the fail-open `except` around the limiter only, the route runs at most once and its exception propagates |
| RateLimitMiddleware.DecoratorDeniesLikeHook | askracha/backend/rate_limit/rate_limit_middleware.py:171-190 | a denied request gets the same 429 from the decorator as from the hook, and the route does not run |
| RateLimitMiddleware.RaisingRouteRunsTwice | askracha/backend/rate_limit/rate_limit_middleware.py:207-210 | as written, a route that raises on any request the limiter allows runs twice, the caller gets the second run's outcome, and the limiter's write is kept |
| RateLimitMiddleware.RaisingRouteRunsOnce | askracha/backend/rate_limit/rate_limit_middleware.py:207-210 | corrected, on any allowed request it runs once and its exception reaches the caller |
| RateLimitMiddleware.DecoratedAgreesUnlessRouteRaises | askracha/backend/rate_limit/rate_limit_middleware.py:156-212 | the two versions agree whenever the route does not raise |
| ChatContext.NewManager | askracha/backend/chat_context.py:29-38 | a new manager has no sessions and is refused without an API key |
| ChatContext.CreateSession | askracha/backend/chat_context.py:40-44 | a new empty session under the fresh id; every other session is unchanged |
| ChatContext.CountTokens | askracha/backend/chat_context.py:134-143 | one message counts its encoded content plus four, so with `CountTokensAppend` a list counts the encoder's counts plus four per message; never less than four per message |
| ChatContext.CountTokensAppend | askracha/backend/chat_context.py:134-143 | counting is additive over concatenation |
| ChatContext.Kept | askracha/backend/chat_context.py:97-104 | the number of latest messages the walk back from the end keeps |
| ChatContext.LongestSuffixKept | askracha/backend/chat_context.py:97-104 | the kept messages are the longest suffix within half the budget |
| ChatContext.SummaryText | askracha/backend/chat_context.py:106-129 | the model's text, a fixed note when it is empty, or the fallback when the call raises |
| ChatContext.Summarize | askracha/backend/chat_context.py:85-132 | below the budget nothing changes; otherwise the longest suffix within half the budget (`Kept` messages) is kept and the dropped messages are summarised |
| ChatContext.AddMessage | askracha/backend/chat_context.py:50-62 | an unknown session is refused and nothing changes; otherwise the message is appended, the session is summarised once it holds more than the message cap, and the other sessions are untouched |
| ChatContext.NewMessageKeptWhenSmall | askracha/backend/chat_context.py:50-62 | a message that fits half the budget is never dropped by the summary it triggers |
| ChatContext.Window | askracha/backend/chat_context.py:77 | `messages[-n:]`, which for `n == 0` is the whole list |
| ChatContext.GetContext | askracha/backend/chat_context.py:64-83 | the summary as a system entry when there is one, then the latest messages in order |
| ChatContext.FreshSessionHasNoContext | askracha/backend/chat_context.py:64-83 | a fresh session has an empty context |
| ChatContext.FirstMessageShown | askracha/backend/chat_context.py:50-83 | the first message of a fresh session is taken and is all its context shows |
| ChatContext.SingleMessageContext | askracha/backend/chat_context.py:64-83 | a session with one message and no summary shows exactly that message |
| DocumentScheduler.CleanupInterval | askracha/backend/document_scheduler.py:23-24 | one minute between cleanups in test mode, fifteen otherwise |
| DocumentScheduler.SessionExpiry | askracha/backend/document_scheduler.py:23-24 | sessions expire after two minutes in test mode and three hours otherwise |
| DocumentScheduler.TestModeIsFaster | askracha/backend/document_scheduler.py:23-24 | test mode expires sooner and sweeps more often |
| DocumentScheduler.CleanupOldSessions | askracha/backend/document_scheduler.py:36-56 | without a manager nothing happens; otherwise exactly the expired sessions are removed and the others are untouched |
| DocumentScheduler.CleanupIdempotent | askracha/backend/document_scheduler.py:36-56 | a second cleanup at the same moment removes nothing more |
| DocumentScheduler.ExpiryBoundary | askracha/backend/document_scheduler.py:45-50 | a session exactly as old as the expiry survives, and one second older it is removed |
| DocumentScheduler.FreshSessionSurvivesUntilExpiry | askracha/backend/document_scheduler.py:36-56 | a newly created session survives every cleanup within the expiry window |
| DocumentScheduler.Start | askracha/backend/document_scheduler.py:58-96 | a running scheduler is left alone; otherwise it runs exactly when starting succeeded |
| DocumentScheduler.Stop | askracha/backend/document_scheduler.py:98-106 | a stopped scheduler is left alone; otherwise it stops exactly when shutdown succeeds |
| DocumentScheduler.FlagChangesOnlyOnSuccess | askracha/backend/document_scheduler.py:58-106 | the running flag changes only on a successful start or stop |
| DocumentScheduler.GetStatus | askracha/backend/document_scheduler.py:199-226 | stopped exactly when not running; otherwise the job count, or an error when listing the jobs raises |
| BackendRag.KeptLines | askracha/backend/rag.py:98-102 | only lines longer than three characters that do not start with "http" are kept, and never more lines than came in |
| BackendRag.KeptLinesOmit | askracha/backend/rag.py:98-102 | stripping and filtering cannot introduce a character the lines lack |
| BackendRag.CleanPageText | askracha/backend/rag.py:97-107 | the cleaned text is at most 15000 characters, a prefix of the kept lines joined by newlines, and all of it when that is short enough |
| BackendRag.CleanedLinesReadBack | askracha/backend/rag.py:97-107 | when nothing is cut, splitting the cleaned text at newlines gives back exactly the kept lines |
| BackendRag.Scrape | askracha/backend/rag.py:51-111 | a failed fetch gives the empty string, anything else the cleaned text |
| BackendRag.FirstTitle | askracha/backend/rag.py:128-134 | the first line of 11 to 99 characters, and none exactly when there is no such line |
| BackendRag.Title | askracha/backend/rag.py:128-134 | the first title-like line among the first five, otherwise "Document from " and the URL |
| BackendRag.TitleIsFirstLine | askracha/backend/rag.py:128-134 | whichever of the first five lines is the first title-like one is the title |
| BackendRag.UntitledPageNamesUrl | askracha/backend/rag.py:128-134 | a page without a title-like line among its first five lines gets the fallback |
| BackendRag.LoadPass | askracha/backend/rag.py:122-150 | a URL is loaded exactly when its page has more than 200 characters, otherwise it failed; the order is kept |
| BackendRag.LoadPassPartitions | askracha/backend/rag.py:122-150 | every URL is loaded or failed, never both, never lost |
| BackendRag.LoadPassAppend | askracha/backend/rag.py:122-150 | a pass over two lists is the two passes joined |
| BackendRag.DocumentsOf | askracha/backend/rag.py:136-146 | one document per loaded URL, in order, holding its text, source and title |
| BackendRag.TotalChars | askracha/backend/rag.py:182 | the total exceeds 200 per document when every document is substantial |
| BackendRag.LoadDocuments | askracha/backend/rag.py:113-192 | without a substantial page, or when the index fails, the state is unchanged and every URL is reported failed; otherwise the documents replace the old ones and the engine is ready |
| BackendRag.LoadedCharsExceedThreshold | askracha/backend/rag.py:126 | every loaded document brings more than 200 characters |
| BackendRag.Snippet | askracha/backend/rag.py:235 | the first 150 characters of the text and "...", or empty without text |
| BackendRag.SourcesOf | askracha/backend/rag.py:227-237 | one source per node, in order |
| BackendRag.Query | askracha/backend/rag.py:198-254 | without an engine there is no answer; an engine that raises fails the query; otherwise each node becomes a source, in order |
| BackendRag.SourceNamesMetadata | askracha/backend/rag.py:231-233 | a source is named from its metadata, with "Unknown" and "Document" as fallbacks |
| BackendRag.FreshNeedsLoading | askracha/backend/rag.py:47-49 | a fresh engine answers nothing until documents are loaded |
| BackendRag.GetStatus | askracha/backend/rag.py:256-271 | the document count, the total characters, the engine's two readiness flags and the source of every document, in order |
| BackendRag.StatusAfterLoad | askracha/backend/rag.py:176-183 | after a successful load the status lists exactly the loaded URLs |
| BackendApp.HttpOnly | askracha/backend/app.py:131-135 | only non-empty `http://` or `https://` entries are kept, in order |
| BackendApp.HttpOnlyKeeps | askracha/backend/app.py:131-135 | an entry survives exactly when it is an HTTP URL |
| BackendApp.HttpOnlyAppend | askracha/backend/app.py:131-135 | filtering two lists is filtering each |
| BackendApp.ValidUrlsAreStrippedHttp | askracha/backend/app.py:131-135 | the valid URLs are exactly the stripped entries that are HTTP URLs |
| BackendApp.LoadRoute | askracha/backend/app.py:110-158 | no engine gives 400, no URLs 400, no valid URL 400; otherwise the valid URLs are loaded and the loader's result is the body |
| BackendApp.LoadedUrlsWereRequested | askracha/backend/app.py:131-152 | every URL a successful load reports was a valid URL of the request |
| BackendApp.QueryRoute | askracha/backend/app.py:160-201 | no engine gives 400, no query engine 400, a blank question 400; otherwise the engine answers the stripped question |
| BackendApp.AcceptedQueryReachesEngine | askracha/backend/app.py:160-201 | a query that passes the checks is answered by the engine and never refused as not ready |
| BackendApp.StatusRoute | askracha/backend/app.py:203-222 | a 200 carrying `get_status` of the engine when it exists, otherwise "not initialized" |
| BackendApp.ResetRoute | askracha/backend/app.py:224-238 | the reset forgets the engine |
| BackendApp.Preview | askracha/backend/app.py:259 | at most 203 characters: the text when short, else its first 200 characters and "..." |
| BackendApp.ListRoute | askracha/backend/app.py:240-270 | one entry per document, in order, with a count that matches; an empty list without an engine |
| BackendApp.ListAfterLoad | askracha/backend/app.py:240-270 | after a successful load the listing names exactly the loaded URLs, in order |
| BackendApp.ResetForgetsEverything | askracha/backend/app.py:224-270 | after a reset nothing is listed and queries are refused |
| BackendApp.ClearRoute | askracha/backend/app.py:364-428 | production gives 403 before anything else; then no engine 400, unreadable statistics 500, an empty store 200 untouched; otherwise the store is deleted and the count reported, or 500 |
| BackendApp.ProductionNeverClears | askracha/backend/app.py:367-371 | production refuses whatever the state and statistics |
| BackendApp.ClearReportsDeletedCount | askracha/backend/app.py:399-420 | clearing a store with points deletes them and reports how many |
| StorachaRag.CleanTextSpec | rag.py:15-21 | collapsing whitespace leaves no newline, so the result is the collapsed text when it is longer than ten characters and empty otherwise |
| StorachaRag.ScrapeUrl | rag.py:23-49 | a prefix of the cleaned text, of length the smaller of its length and 8000, or empty when fetching raises |
| StorachaRag.Jaccard | rag.py:51-62 | the index lies between 0 and 1 and is 0 when either set is empty |
| StorachaRag.JaccardOne | rag.py:51-62 | the index is 1 exactly for equal non-empty sets |
| StorachaRag.SimilaritySpec | rag.py:51-62 | the similarity is symmetric, 1 exactly for equal non-empty word sets, and 0 without words |
| StorachaRag.Hits | rag.py:95 | the count of question words found in the lower-cased content is at most the number of words |
| StorachaRag.HitsAppend | rag.py:95 | hits are additive over the question's words |
| StorachaRag.HitsExtremes | rag.py:95 | all words occurring gives the full count, none gives zero |
| StorachaRag.Score | rag.py:98 | the score lies between the keyword hits and the hits plus ten, and is positive exactly when there is a hit or any similarity |
| StorachaRag.ScoredDocs | rag.py:100-105 | only documents with a positive score survive, their content cut to 3000 characters |
| StorachaRag.ScoredDocsExactly | rag.py:88-105 | the candidates are exactly the positively scored documents, each as its content cut to 3000 characters, its source and its score |
| StorachaRag.Insert | rag.py:108 | insertion into a non-increasing list keeps it non-increasing, one longer, headed by the new entry or the old head |
| StorachaRag.InsertPermutes | rag.py:108 | insertion adds exactly the new entry to the entries already there |
| StorachaRag.SortBy | rag.py:108 | sorting in reverse gives non-increasing keys over the same entries |
| StorachaRag.Ranked | rag.py:108-109 | `min(n, len(s))` entries for a non-negative `n`, non-increasing, all drawn from the input |
| StorachaRag.RankedIsTop | rag.py:108-109 | no entry left out has a higher key than an entry kept |
| StorachaRag.FindRelevant | rag.py:83-109 | `min(max_docs, number of positively scored documents)` of them, each trimmed, best first |
| StorachaRag.FindRelevantIsTop | rag.py:83-109 | no positively scored document left out scores higher than one returned |
| StorachaRag.LeftOutScoresNoHigher | rag.py:83-109 | a positively scored document that is not returned scores no higher than every returned one |
| StorachaRag.BestComesFirst | rag.py:83-109 | a non-empty result starts with the best-scoring relevant document |
| StorachaRag.KeptUrlsExactly | rag.py:64-79 | a URL is kept exactly when its page is over 100 characters |
| StorachaRag.LoadDocuments | rag.py:64-79 | old documents are discarded and each long-enough page becomes a document |
| StorachaRag.PreviewShape | rag.py:75 | each preview is a prefix of the page of at most 200 characters followed by "...", and all 200 when the page is long enough |
| StorachaRag.Query | rag.py:142-172 | no model call without documents or without a relevant one |
| StorachaRag.IrrelevantQuestionAsksNothing | rag.py:142-172 | a question sharing no word and no keyword hit with any document reaches no model |
| Text.Title | askracha/backend/rate_limit/rate_limit_middleware.py:53 | `str.title()` upper-cases a letter at the start of a word and lower-cases the others, keeping the length |
| Text.Strip | askracha/bot/message_processor.py:84 | `strip()` never lengthens the text, leaves no whitespace at either end, and is empty exactly for all-whitespace input |
| Text.StripIsSlice | askracha/bot/message_processor.py:84 | `strip()` gives the contiguous slice of the input between an all-whitespace head and an all-whitespace tail, so it removes whitespace from both ends and nothing else |
| Text.Words | askracha/bot/message_processor.py:87 | every piece of `split()` is non-empty and holds no whitespace |
| Text.WordsKeepVisible | askracha/bot/message_processor.py:87 | the pieces of `split()`, concatenated, are exactly the non-whitespace characters in order |
| Text.WordsCountStarts | askracha/bot/message_processor.py:87 | `split()` gives one piece per position where a non-whitespace character starts the text or follows whitespace |
| Text.CollapseSpec | askracha/bot/message_processor.py:87 | `' '.join(s.split())` keeps exactly the visible characters, is empty exactly for all-whitespace text, and is single-spaced |
| Text.WordsOfJoin | askracha/bot/message_processor.py:201-203 | splitting words joined by single spaces gives the words back |
| Text.SplitOn | askracha/backend/rag.py:99 | `split(c)` gives at least one piece and no piece holds the separator |
| Text.JoinSplitOn | askracha/backend/rag.py:99-104 | joining the pieces with the separator gives back the text |
| Text.SplitOnJoin | askracha/backend/rag.py:99-104 | splitting a join of separator-free pieces gives back the pieces |

## Left out

- HTML fetching and parsing: BeautifulSoup, the tag and entity regexes of `rag.py:35-43`, and HTTP are replaced by the extracted text given as a parameter.
- The LlamaIndex and Gemini index and query engine, the OpenAI call (`rag.py:111-140`) and the prompt texts (`askracha/backend/rag.py:211-222`, `rag.py:154-170`): the engine's reply is a parameter, and only whether the model is asked is modelled.
- `test_connection`, `initialize`, `load_default_documents` and the vector-store statistics route (`askracha/backend/app.py:272-362`): these are I/O with no decision logic of their own.
- The vector store: `ClearRoute` takes the statistics and the deletion outcome as parameters. `askracha/backend/rag.py` never defines `vector_store`, so the real route raises and answers 500.
- Request bodies that are not JSON, `urls` that is not a list and entries that are not strings: they raise and answer 500; the model takes a list of strings.
- The `except` of the load route (`askracha/backend/app.py:153-158`): the loader catches its own exceptions, so the model has no path there.
- Clocks, response times, `uptime` and `average_response_time`: time is a parameter, and metrics only count.
- Sleeping and the Discord and aiohttp clients: backoff waits are returned as values, and replies are parameters.
- Exception texts become failure kinds. A `sources` value that is a dictionary is treated as raising.
- A negative `retry_attempts`: the loop is modelled for natural counts.
- The `health_check` timeout argument and the scheduler's cron jobs and monthly document update.
- `handle_rate_limited_user`: it only sends the message built by the modelled functions.
- The keyword error at `askracha/bot/bot.py:222`, and `discord.Forbidden` being shadowed by `discord.HTTPException`: both end in the failure branch the model already has.
- The decorator's storage of the verdict on `g`.
- The bot sends `query` while the backend reads `question`: the model keeps each side as written.
- Message metadata and timestamps in the chat context. The summarisation prompt is replaced by the model's reply as a parameter.
- Title-casing of non-ASCII header names: `Text.Title` changes case on ASCII letters only. The session is always empty, because the request has no `session` attribute.
- MessageProcessor.DigitRun: only ASCII digits count, while Python's `\d` on text also matches the other Unicode decimal digits; in the same way `Numerals.ParseInt` reads ASCII digits only, where `int()` accepts any Unicode decimal digit.
- RateLimitMiddleware.Decorated: the limit headers are always added to the route's response, while the decorator adds them only when the returned object has a `headers` attribute (`askracha/backend/rate_limit/rate_limit_middleware.py:200`); a route returning a tuple gets none.
- RateLimitMiddleware.DecoratedAsWritten: the same unconditional headers as `RateLimitMiddleware.Decorated`.
- Case mapping is ASCII only. Float parsing covers plain decimals, not exponents, `inf` or `nan`. ISO-format datetimes are integer seconds.
- StorachaRag.Score: scores are exact reals, while Python adds floats (`keyword_score + similarity_score * 10`); two scores that are equal as reals but differ after float rounding are tied here and kept in document order.
- StorachaRag.SortBy: the stability of Python's sort for equal scores is not stated.
- BackendRag.KeptLines: that each kept line is the stripped form of an input line is not stated, only what it must satisfy.

## Findings

| source | as written | input that shows it | evidently intended | confidence | as-written member | corrected member |
|---|---|---|---|---|---|---|
| askracha/backend/rate_limit/rate_limit_middleware.py:207-210 | the `except Exception` around the limiter also wraps `f(*args, **kwargs)`, so a route that raises is called a second time | an allowed request to a route that raises on its first call | fail open only for limiter errors, run the route once and let its exception propagate | not executed | RateLimitMiddleware.RaisingRouteRunsTwice | RateLimitMiddleware.RaisingRouteRunsOnce |
| askracha/bot/api_client.py:98-104 | a 429 sleeps and `continue`s without the last-attempt test, so after the last attempt the loop ends and returns `None` | `retries = 0` and a server that answers 429 | raise a rate-limit error on the last attempt, as the other failures do | not executed | ApiClient.MakeRequestAsWritten | ApiClient.AgreeUnlessLastRateLimited |
| askracha/bot/message_processor.py:168-206 | `available_length` is the limit minus 57 and the indicator is always appended, while the configuration accepts any positive limit (askracha/bot/config.py:56-58) | `MAX_RESPONSE_LENGTH=30` and a 31-character answer: the reply is at least 57 characters | a reply never longer than the limit | not executed | MessageProcessor.SmallLimitOverflows | MessageProcessor.TruncateWithinLimit |

=== FILE: api_client.dfy ===
/**
 * The bot's HTTP client for the backend, without the HTTP: the base URL it
 * keeps, the retry loop of `_make_request` over the replies the server gives
 * to successive attempts, and how `query_rag`, `chat_query`,
 * `create_chat_session` and `health_check` turn what that loop returns into
 * their results. JSON values are a datatype; the clock is a parameter.
 */
module ApiClient {
  import opened Text
  import opened Wrappers
  import opened Numerals

  // ---------------------------------------------------------------------
  // JSON values and Python truthiness
  // ---------------------------------------------------------------------

  /** A value `json.loads` can produce. */
  datatype Json =
    | JNull
    | JBool(b: bool)
    | JNum(n: real)
    | JStr(s: string)
    | JList(items: seq<Json>)
    | JObject(fields: map<string, Json>)

  /** Python's truth value of a decoded JSON value. */
  predicate Truthy(j: Json) {
    match j
    case JNull => false
    case JBool(b) => b
    case JNum(n) => n != 0.0
    case JStr(s) => s != []
    case JList(items) => items != []
    case JObject(fields) => fields != map[]
  }

  /** Python `a or b`. */
  function Or(a: Json, b: Json): (r: Json)
    ensures Truthy(a) ==> r == a
    ensures !Truthy(a) ==> r == b
    ensures Truthy(r) <==> Truthy(a) || Truthy(b)
  {
    if Truthy(a) then a else b
  }

  /** Whether `d.get(key)` gives a truthy value. */
  predicate Set(d: map<string, Json>, key: string) {
    key in d && Truthy(d[key])
  }

  /** `d.get(k1) or d.get(k2) or d.get(k3) or default`. */
  function Pick(d: map<string, Json>, k1: string, k2: string, k3: string, default: Json): (r: Json)
    ensures Set(d, k1) ==> r == d[k1]
    ensures !Set(d, k1) && Set(d, k2) ==> r == d[k2]
    ensures !Set(d, k1) && !Set(d, k2) && Set(d, k3) ==> r == d[k3]
    ensures !Set(d, k1) && !Set(d, k2) && !Set(d, k3) ==> r == default
  {
    Or(MapGet(d, k1, JNull), Or(MapGet(d, k2, JNull), Or(MapGet(d, k3, JNull), default)))
  }

  // ---------------------------------------------------------------------
  // The base URL
  // ---------------------------------------------------------------------

  /** `api_url.rstrip('/')`: the URL without its trailing slashes. */
  function NormalizeUrl(url: string): (r: string)
    ensures |r| <= |url| && r == url[..|r|]
    ensures r == [] || r[|r| - 1] != '/'
    ensures forall i :: |r| <= i < |url| ==> url[i] == '/'
  {
    if url != [] && url[|url| - 1] == '/' then NormalizeUrl(url[..|url| - 1]) else url
  }

  /** Normalising twice changes nothing more, and a URL is only ever cut at slashes. */
  lemma NormalizeUrlIdempotent(url: string, slashes: nat)
    ensures NormalizeUrl(NormalizeUrl(url)) == NormalizeUrl(url)
    ensures NormalizeUrl(NormalizeUrl(url) + seq(slashes, _ => '/')) == NormalizeUrl(url)
  {
    var base := NormalizeUrl(url);
    SlashesRemoved(base, slashes);
  }

  lemma {:induction false} SlashesRemoved(base: string, slashes: nat)
    requires base == [] || base[|base| - 1] != '/'
    ensures NormalizeUrl(base + seq(slashes, _ => '/')) == base
    decreases slashes
  {
    var s := base + seq(slashes, _ => '/');
    if slashes > 0 {
      assert s[..|s| - 1] == base + seq(slashes - 1, _ => '/');
      SlashesRemoved(base, slashes - 1);
    } else {
      assert s == base;
    }
  }

  // ---------------------------------------------------------------------
  // The retry loop of `_make_request`
  // ---------------------------------------------------------------------

  /**
   * What one attempt gets back: a response with its status, its body when
   * that is valid JSON, and its Retry-After header; or a timeout; or any
   * other client error raised before a response arrives.
   */
  datatype Reply =
    | Response(status: int, body: Option<Json>, retryAfter: Option<string>)
    | TimedOut
    | Unreachable

  /** The exceptions `_make_request` lets out. */
  datatype RequestError =
    | Timeout
    | ResponseStatus(status: int)
    | Connection
    | Decode
    | BadRetryAfter

  /** The loop returns the decoded body, falls off its end (`None`), or raises. */
  datatype RequestResult = Parsed(json: Json) | NoneReturned | Raised(error: RequestError)

  /** The result, how many attempts were made, and the sleeps taken in order. */
  datatype Trace = Trace(result: RequestResult, attempts: nat, waits: seq<real>)

  /**
   * The sleep after a 429: the Retry-After header read with `float()`, or
   * twice the configured delay without one; `None` where `float()` raises.
   */
  function RetryAfterWait(header: Option<string>, delay: real): Option<real> {
    match header
    case None => Some(delay * 2.0)
    case Some(text) => ParseDecimal(text)
  }

  /** An attempt after which the loop tries again, unless it was the last. */
  predicate Retried(reply: Reply, delay: real) {
    match reply
    case Response(status, _, retryAfter) =>
      status != 200 && (status == 429 ==> RetryAfterWait(retryAfter, delay).Some?)
    case _ => true
  }

  predicate RateLimited(reply: Reply) {
    reply.Response? && reply.status == 429
  }

  /**
   * The result that an attempt ending the loop with `reply` gives: the
   * decoded body of a 200 or its decode error; for a 429, the error of an
   * unreadable Retry-After, else the 429 raised or the fall-through; the
   * status error for any other status; the timeout; the connection error.
   */
  predicate EndsWith(reply: Reply, result: RequestResult, delay: real) {
    match reply
    case Response(status, body, retryAfter) =>
      if status == 200 then result == (if body.Some? then Parsed(body.value) else Raised(Decode))
      else if status == 429 then
        if RetryAfterWait(retryAfter, delay).None? then result == Raised(BadRetryAfter)
        else result == Raised(ResponseStatus(429)) || result == NoneReturned
      else result == Raised(ResponseStatus(status))
    case TimedOut => result == Raised(Timeout)
    case Unreachable => result == Raised(Connection)
  }

  /** A 200 response whose body decodes to `j`. */
  predicate Delivered(reply: Reply, j: Json) {
    reply.Response? && reply.status == 200 && reply.body == Some(j)
  }

  /**
   * The sleep that follows attempt `n` when the loop goes on: the server's
   * Retry-After for a 429, otherwise the exponential backoff `delay * 2^n`.
   */
  function Wait(reply: Reply, delay: real, n: nat): real {
    if RateLimited(reply) && RetryAfterWait(reply.retryAfter, delay).Some? then
      RetryAfterWait(reply.retryAfter, delay).value
    else delay * Pow2(n) as real
  }

  function Slept(w: real, t: Trace): Trace {
    Trace(t.result, t.attempts + 1, [w] + t.waits)
  }

  /**
   * What the trace `t` of attempts `k` to `retries` promises: no more
   * attempts than remain, at least one when any remains, every attempt but
   * the last one retried, the sleeps each attempt calls for in order, a
   * fall-through only after a rate-limited last attempt, and a decoded body
   * only from a 200 response.
   */
  predicate Accounts(t: Trace, replies: nat -> Reply, retries: nat, delay: real, raiseLast: bool, k: nat) {
    && t.attempts <= retries + 1 - k
    && (k <= retries ==> t.attempts >= 1)
    && (forall n :: k <= n < k + t.attempts - 1 ==> Retried(replies(n), delay))
    && |t.waits| == (if t.result.NoneReturned? then t.attempts else t.attempts - 1)
    && (forall n :: k <= n < k + |t.waits| ==> t.waits[n - k] == Wait(replies(n), delay, n))
    && (t.result.NoneReturned? ==>
          k + t.attempts == retries + 1 && (t.attempts > 0 ==> !raiseLast && RateLimited(replies(retries))))
    && (t.result.Parsed? ==> t.attempts >= 1 && Delivered(replies(k + t.attempts - 1), t.result.json))
    && (!raiseLast ==> t.result != Raised(ResponseStatus(429)))
  }

  /**
   * The last attempt of `t`, counted from attempt `k`: not retried unless
   * no attempt remains after it, and its reply gives the result.
   */
  predicate LastAttempt(t: Trace, replies: nat -> Reply, retries: nat, delay: real, k: nat) {
    t.attempts >= 1 ==>
      && (k + t.attempts <= retries ==> !Retried(replies(k + t.attempts - 1), delay))
      && EndsWith(replies(k + t.attempts - 1), t.result, delay)
  }

  /** The sleep before later attempts leaves their last attempt the last one. */
  lemma SleptLastAttempt(w: real, rest: Trace, replies: nat -> Reply, retries: nat, delay: real, k: nat)
    requires k <= retries && Retried(replies(k), delay)
    requires rest.attempts == 0 ==> rest.result.NoneReturned? && k == retries && RateLimited(replies(k))
    requires LastAttempt(rest, replies, retries, delay, k + 1)
    ensures LastAttempt(Slept(w, rest), replies, retries, delay, k)
  {
    if rest.attempts > 0 {
      assert k + Slept(w, rest).attempts - 1 == (k + 1) + rest.attempts - 1;
    }
  }

  /**
   * Attempts `k` to `retries` of the loop. A 200 returns its decoded body
   * or raises the decode error at once; a 429 sleeps and goes round again
   * without the last-attempt test; every other status, a timeout and a
   * connection failure raise on the last attempt and otherwise back off.
   * Any status other than 200 and 429 is retried, since the response error
   * raised for it is itself a client error. With `raiseLast`, a 429 on the
   * last attempt, once its Retry-After is read, raises like the other
   * statuses instead.
   */
  function Attempts(replies: nat -> Reply, retries: nat, delay: real, raiseLast: bool, k: nat): (t: Trace)
    requires k <= retries + 1
    ensures Accounts(t, replies, retries, delay, raiseLast, k)
    ensures LastAttempt(t, replies, retries, delay, k)
    decreases retries + 1 - k
  {
    if k > retries then Trace(NoneReturned, 0, [])
    else
      match replies(k)
      case Response(status, body, retryAfter) =>
        if status == 200 then
          var t := if body.Some? then Trace(Parsed(body.value), 1, []) else Trace(Raised(Decode), 1, []);
          StopAccounts(t, replies, retries, delay, raiseLast, k);
          t
        else if status == 429 then
          match RetryAfterWait(retryAfter, delay)
          case None =>
            var t := Trace(Raised(BadRetryAfter), 1, []);
            StopAccounts(t, replies, retries, delay, raiseLast, k);
            t
          case Some(w) =>
            if raiseLast && k == retries then
              var t := Trace(Raised(ResponseStatus(429)), 1, []);
              StopAccounts(t, replies, retries, delay, raiseLast, k);
              t
            else GoOn(w, replies, retries, delay, raiseLast, k)
        else Backoff(replies, retries, delay, raiseLast, k, ResponseStatus(status))
      case TimedOut => Backoff(replies, retries, delay, raiseLast, k, Timeout)
      case Unreachable => Backoff(replies, retries, delay, raiseLast, k, Connection)
  }

  /** The `except` clause: re-raise on the last attempt, otherwise sleep `delay * 2^k` and go on. */
  function Backoff(replies: nat -> Reply, retries: nat, delay: real, raiseLast: bool, k: nat, e: RequestError)
    : (t: Trace)
    requires k <= retries && Retried(replies(k), delay) && !RateLimited(replies(k))
    requires EndsWith(replies(k), Raised(e), delay)
    ensures Accounts(t, replies, retries, delay, raiseLast, k)
    ensures LastAttempt(t, replies, retries, delay, k)
    decreases retries + 1 - k, 1
  {
    if k == retries then
      var t := Trace(Raised(e), 1, []);
      StopAccounts(t, replies, retries, delay, raiseLast, k);
      t
    else GoOn(delay * Pow2(k) as real, replies, retries, delay, raiseLast, k)
  }

  /** A loop that ends at attempt `k` with the result that attempt calls for accounts for attempt `k` on. */
  lemma StopAccounts(t: Trace, replies: nat -> Reply, retries: nat, delay: real, raiseLast: bool, k: nat)
    requires k <= retries && t.attempts == 1 && t.waits == [] && !t.result.NoneReturned?
    requires EndsWith(replies(k), t.result, delay)
    requires k < retries ==> !Retried(replies(k), delay)
    requires t.result.Parsed? ==> Delivered(replies(k), t.result.json)
    requires !raiseLast ==> t.result != Raised(ResponseStatus(429))
    ensures Accounts(t, replies, retries, delay, raiseLast, k)
    ensures LastAttempt(t, replies, retries, delay, k)
  {
  }

  /** Sleep `w` after attempt `k`, then carry on with the next attempt. */
  function GoOn(w: real, replies: nat -> Reply, retries: nat, delay: real, raiseLast: bool, k: nat): (t: Trace)
    requires k <= retries && Retried(replies(k), delay) && w == Wait(replies(k), delay, k)
    requires k == retries ==> !raiseLast && RateLimited(replies(k))
    ensures Accounts(t, replies, retries, delay, raiseLast, k)
    ensures LastAttempt(t, replies, retries, delay, k)
    decreases retries + 1 - k, 0
  {
    var rest := Attempts(replies, retries, delay, raiseLast, k + 1);
    SleptAccounts(w, rest, replies, retries, delay, raiseLast, k);
    SleptLastAttempt(w, rest, replies, retries, delay, k);
    Slept(w, rest)
  }

  /** A trace of the later attempts, after the sleep attempt `k` calls for, accounts for attempt `k` on. */
  lemma SleptAccounts(w: real, rest: Trace, replies: nat -> Reply, retries: nat, delay: real, raiseLast: bool, k: nat)
    requires k <= retries && Retried(replies(k), delay) && w == Wait(replies(k), delay, k)
    requires k == retries ==> !raiseLast && RateLimited(replies(k))
    requires Accounts(rest, replies, retries, delay, raiseLast, k + 1)
    ensures Accounts(Slept(w, rest), replies, retries, delay, raiseLast, k)
  {
    var t := Slept(w, rest);
    assert t.attempts == rest.attempts + 1 && t.result == rest.result && |t.waits| == |rest.waits| + 1;
    forall n | k <= n < k + t.attempts - 1
      ensures Retried(replies(n), delay)
    {
    }
    forall n | k <= n < k + |t.waits|
      ensures t.waits[n - k] == Wait(replies(n), delay, n)
    {
      if n > k {
        assert t.waits[n - k] == rest.waits[n - (k + 1)];
      }
    }
    assert t.result.Parsed? ==> Delivered(replies(k + t.attempts - 1), t.result.json) by {
      if t.result.Parsed? {
        assert k + t.attempts - 1 == (k + 1) + rest.attempts - 1;
      }
    }
  }

  /**
   * `_make_request` as written: a 429 on the last attempt still sleeps and
   * then leaves the loop, so the call returns `None`.
   */
  function MakeRequestAsWritten(replies: nat -> Reply, retries: nat, delay: real): (t: Trace)
    ensures 1 <= t.attempts <= retries + 1
    ensures t.result.NoneReturned? ==> t.attempts == retries + 1 && RateLimited(replies(retries))
    ensures forall n :: 0 <= n < t.attempts - 1 ==> Retried(replies(n), delay)
    ensures RateLimited(replies(t.attempts - 1)) && RetryAfterWait(replies(t.attempts - 1).retryAfter, delay).Some? ==>
              t.result == NoneReturned
    ensures t.attempts <= retries ==> !Retried(replies(t.attempts - 1), delay)
    ensures EndsWith(replies(t.attempts - 1), t.result, delay)
    ensures |t.waits| == (if t.result.NoneReturned? then t.attempts else t.attempts - 1)
    ensures forall n :: 0 <= n < |t.waits| ==> t.waits[n] == Wait(replies(n), delay, n)
  {
    Attempts(replies, retries, delay, false, 0)
  }

  /**
   * `_make_request` as intended: at most `retries + 1` attempts, a sleep
   * between consecutive attempts and none after the last, and always a
   * decoded body or an exception.
   */
  function MakeRequest(replies: nat -> Reply, retries: nat, delay: real): (t: Trace)
    ensures 1 <= t.attempts <= retries + 1
    ensures !t.result.NoneReturned?
    ensures |t.waits| == t.attempts - 1
    ensures forall n :: 0 <= n < |t.waits| ==> t.waits[n] == Wait(replies(n), delay, n)
    ensures forall n :: 0 <= n < t.attempts - 1 ==> Retried(replies(n), delay)
    ensures t.attempts <= retries ==> !Retried(replies(t.attempts - 1), delay)
    ensures EndsWith(replies(t.attempts - 1), t.result, delay)
    ensures t.result.Parsed? ==> Delivered(replies(t.attempts - 1), t.result.json)
  {
    Attempts(replies, retries, delay, true, 0)
  }

  /** Both loops agree whenever the last attempt is not rate limited. */
  lemma {:induction false} AgreeUnlessLastRateLimited(replies: nat -> Reply, retries: nat, delay: real, k: nat)
    requires k <= retries + 1
    requires !RateLimited(replies(retries))
    ensures Attempts(replies, retries, delay, false, k) == Attempts(replies, retries, delay, true, k)
    decreases retries + 1 - k
  {
    if k == retries {
      LastAttemptAgrees(replies, retries, delay);
    } else if k < retries {
      AgreeUnlessLastRateLimited(replies, retries, delay, k + 1);
      StepAgrees(replies, retries, delay, k);
    }
  }

  /** Agreement from attempt `k + 1` on carries back to attempt `k`. */
  lemma StepAgrees(replies: nat -> Reply, retries: nat, delay: real, k: nat)
    requires k < retries
    requires Attempts(replies, retries, delay, false, k + 1) == Attempts(replies, retries, delay, true, k + 1)
    ensures Attempts(replies, retries, delay, false, k) == Attempts(replies, retries, delay, true, k)
  {
    if RateLimited(replies(k)) {
      RateLimitedStepAgrees(replies, retries, delay, k);
    } else {
      OtherStepAgrees(replies, retries, delay, k);
    }
  }

  /** The last attempt, not rate limited, ends both loops alike. */
  lemma LastAttemptAgrees(replies: nat -> Reply, retries: nat, delay: real)
    requires !RateLimited(replies(retries))
    ensures Attempts(replies, retries, delay, false, retries) == Attempts(replies, retries, delay, true, retries)
  {
  }

  /** A 429 before the last attempt leads both loops to the same sleep and the same later attempts. */
  lemma RateLimitedStepAgrees(replies: nat -> Reply, retries: nat, delay: real, k: nat)
    requires k < retries && RateLimited(replies(k))
    requires Attempts(replies, retries, delay, false, k + 1) == Attempts(replies, retries, delay, true, k + 1)
    ensures Attempts(replies, retries, delay, false, k) == Attempts(replies, retries, delay, true, k)
  {
    var reply := replies(k);
    match RetryAfterWait(reply.retryAfter, delay)
    case None =>
    case Some(w) =>
      assert GoOn(w, replies, retries, delay, false, k) == GoOn(w, replies, retries, delay, true, k);
  }

  /** Any other reply before the last attempt is handled alike by both loops. */
  lemma OtherStepAgrees(replies: nat -> Reply, retries: nat, delay: real, k: nat)
    requires k < retries && !RateLimited(replies(k))
    requires Attempts(replies, retries, delay, false, k + 1) == Attempts(replies, retries, delay, true, k + 1)
    ensures Attempts(replies, retries, delay, false, k) == Attempts(replies, retries, delay, true, k)
  {
    match replies(k)
    case Response(status, body, retryAfter) =>
      if status != 200 {
        BackoffAgrees(replies, retries, delay, k, ResponseStatus(status));
      }
    case TimedOut => BackoffAgrees(replies, retries, delay, k, Timeout);
    case Unreachable => BackoffAgrees(replies, retries, delay, k, Connection);
  }

  lemma BackoffAgrees(replies: nat -> Reply, retries: nat, delay: real, k: nat, e: RequestError)
    requires k < retries && Retried(replies(k), delay) && !RateLimited(replies(k))
    requires EndsWith(replies(k), Raised(e), delay)
    requires Attempts(replies, retries, delay, false, k + 1) == Attempts(replies, retries, delay, true, k + 1)
    ensures Backoff(replies, retries, delay, false, k, e) == Backoff(replies, retries, delay, true, k, e)
  {
  }

  /** A server that answers 429 to the only attempt: the loop as written sleeps, then returns `None`. */
  lemma LastRateLimitFallsThrough(delay: real)
    ensures var replies := (n: nat) => Response(429, None, None);
      && MakeRequestAsWritten(replies, 0, delay) == Trace(NoneReturned, 1, [delay * 2.0])
      && MakeRequest(replies, 0, delay) == Trace(Raised(ResponseStatus(429)), 1, [])
  {
    var replies := (n: nat) => Response(429, None, None);
    assert Attempts(replies, 0, delay, false, 1) == Trace(NoneReturned, 0, []);
  }

  /** A 404 is retried like a server error: the second attempt's body is returned after one backoff. */
  lemma ClientErrorIsRetried(delay: real, j: Json)
    ensures var replies := (n: nat) => if n == 0 then Response(404, None, None) else Response(200, Some(j), None);
      MakeRequest(replies, 1, delay) == Trace(Parsed(j), 2, [delay])
  {
    var replies := (n: nat) => if n == 0 then Response(404, None, None) else Response(200, Some(j), None);
    assert Attempts(replies, 1, delay, true, 1) == Trace(Parsed(j), 1, []);
    assert Pow2(0) == 1;
  }

  // ---------------------------------------------------------------------
  // Answers
  // ---------------------------------------------------------------------

  /** Why a call failed, one case per `error_message` the client writes. */
  datatype Failure =
    | EmptyQuestion
    | RequestTimedOut
    | HttpError(status: int)
    | ConnectionError
    | InvalidFormat
    | UnexpectedError
    | Unsuccessful(reason: Json)

  /** `APIResponse`, with the kind of source it carries as a parameter. */
  datatype ApiResponse<S> = ApiResponse(
    success: bool,
    answer: Json,
    sources: seq<S>,
    responseTime: real,
    error: Option<Failure>)

  function Fail<S>(f: Failure, elapsed: real): ApiResponse<S> {
    ApiResponse(false, JStr([]), [], elapsed, Some(f))
  }

  /** `not question or not question.strip()`. */
  predicate Blank(question: string) {
    question == [] || Strip(question) == []
  }

  lemma BlankIsAllSpace(question: string)
    ensures Blank(question) <==> AllSpace(question)
  {
  }

  const DefaultFailureText: string := "API returned unsuccessful response"

  /** `data.get("error") or data.get("message", default)`. */
  function Reason(d: map<string, Json>): (r: Json)
    ensures Set(d, "error") ==> r == d["error"]
    ensures !Set(d, "error") && "message" in d ==> r == d["message"]
    ensures !Set(d, "error") && "message" !in d ==> r == JStr(DefaultFailureText)
  {
    Or(MapGet(d, "error", JNull), MapGet(d, "message", JStr(DefaultFailureText)))
  }

  /**
   * `for x in value`: a list gives its items, a string its characters; the
   * other JSON values raise a type error.
   */
  function ItemsOf(value: Json): (r: Option<seq<Json>>)
    ensures value.JList? ==> r == Some(value.items)
    ensures value.JStr? ==> r.Some? && |r.value| == |value.s|
    ensures !value.JList? && !value.JStr? ==> r.None?
  {
    match value
    case JList(items) => Some(items)
    case JStr(s) => Some(seq(|s|, i requires 0 <= i < |s| => JStr([s[i]])))
    case _ => None
  }

  /** A source of `query_rag`: a dictionary loses its `score` entry, anything else is kept. */
  function WithoutScore(source: Json): (r: Json)
    ensures r.JObject? <==> source.JObject?
    ensures !source.JObject? ==> r == source
    ensures source.JObject? ==>
      && r.fields.Keys == source.fields.Keys - {"score"}
      && forall key :: key in r.fields ==> r.fields[key] == source.fields[key]
  {
    match source
    case JObject(fields) => JObject(map key | key in fields && key != "score" :: fields[key])
    case _ => source
  }

  function FilterSources(raw: seq<Json>): (r: seq<Json>)
    ensures |r| == |raw|
    ensures forall i :: 0 <= i < |raw| ==> r[i] == WithoutScore(raw[i])
  {
    seq(|raw|, i requires 0 <= i < |raw| => WithoutScore(raw[i]))
  }

  /**
   * `query_rag`. `exchange` is the `_make_request` call for the stripped
   * question and `elapsed` the time it took; a blank question is answered
   * without either.
   */
  function QueryRag(question: string, exchange: string -> RequestResult, elapsed: real): (r: ApiResponse<Json>)
    ensures Blank(question) ==> r == Fail(EmptyQuestion, 0.0)
    ensures !r.success ==> r.answer == JStr([]) && r.sources == [] && r.error.Some?
    ensures r.success ==> r.error.None? && Truthy(r.answer)
    ensures !Blank(question) ==>
      var res := exchange(Strip(question));
      && (res == Raised(Timeout) ==> r == Fail(RequestTimedOut, elapsed))
      && (res == Raised(Connection) ==> r == Fail(ConnectionError, elapsed))
      && (res == Raised(Decode) ==> r == Fail(InvalidFormat, elapsed))
      && (res.Raised? && res.error.ResponseStatus? ==> r == Fail(HttpError(res.error.status), elapsed))
      && (res == Raised(BadRetryAfter) || res == NoneReturned ==> r == Fail(UnexpectedError, elapsed))
      && (res.Parsed? && !res.json.JObject? ==> r == Fail(UnexpectedError, elapsed))
      && (r.success <==> res.Parsed? && res.json.JObject? && Answered(res.json.fields))
      && (res.Parsed? && res.json.JObject? ==> r == Interpret(res.json.fields, elapsed))
  {
    if Blank(question) then Fail(EmptyQuestion, 0.0)
    else Outcome(exchange(Strip(question)), elapsed)
  }

  /** The `try` block of `query_rag` and its `except` clauses, given what the request did. */
  function Outcome(res: RequestResult, elapsed: real): (r: ApiResponse<Json>)
    ensures !r.success ==> r.answer == JStr([]) && r.sources == [] && r.error.Some?
    ensures r.success ==> r.error.None? && Truthy(r.answer)
    ensures res == Raised(Timeout) ==> r == Fail(RequestTimedOut, elapsed)
    ensures res == Raised(Connection) ==> r == Fail(ConnectionError, elapsed)
    ensures res == Raised(Decode) ==> r == Fail(InvalidFormat, elapsed)
    ensures res.Raised? && res.error.ResponseStatus? ==> r == Fail(HttpError(res.error.status), elapsed)
    ensures res == Raised(BadRetryAfter) || res == NoneReturned ==> r == Fail(UnexpectedError, elapsed)
    ensures res.Parsed? && !res.json.JObject? ==> r == Fail(UnexpectedError, elapsed)
    ensures r.success <==> res.Parsed? && res.json.JObject? && Answered(res.json.fields)
    ensures res.Parsed? && res.json.JObject? ==> r == Interpret(res.json.fields, elapsed)
  {
    match res
    case Raised(e) =>
      (match e
       case Timeout => Fail(RequestTimedOut, elapsed)
       case ResponseStatus(status) => Fail(HttpError(status), elapsed)
       case Connection => Fail(ConnectionError, elapsed)
       case Decode => Fail(InvalidFormat, elapsed)
       case BadRetryAfter => Fail(UnexpectedError, elapsed))
    case NoneReturned => Fail(UnexpectedError, elapsed)
    case Parsed(json) =>
      if !json.JObject? then Fail(UnexpectedError, elapsed)
      else Interpret(json.fields, elapsed)
  }

  /** A backend reply `query_rag` accepts: iterable sources, and truthy `success` and `answer`. */
  predicate Answered(d: map<string, Json>) {
    && ItemsOf(MapGet(d, "sources", JList([]))).Some?
    && Truthy(MapGet(d, "success", JBool(false)))
    && Truthy(MapGet(d, "answer", JStr([])))
  }

  /** The body of `query_rag` once the reply is a dictionary. */
  function Interpret(d: map<string, Json>, elapsed: real): (r: ApiResponse<Json>)
    ensures r.success <==> Answered(d)
    ensures r.success ==>
      r == ApiResponse(true, d["answer"], FilterSources(ItemsOf(MapGet(d, "sources", JList([]))).value), elapsed, None)
    ensures !r.success && ItemsOf(MapGet(d, "sources", JList([]))).Some? ==> r == Fail(Unsuccessful(Reason(d)), elapsed)
    ensures ItemsOf(MapGet(d, "sources", JList([]))).None? ==> r == Fail(UnexpectedError, elapsed)
  {
    var success := MapGet(d, "success", JBool(false));
    var answer := MapGet(d, "answer", JStr([]));
    match ItemsOf(MapGet(d, "sources", JList([])))
    case None => Fail(UnexpectedError, elapsed)
    case Some(raw) =>
      var sources := FilterSources(raw);
      if Truthy(success) && Truthy(answer) then ApiResponse(true, answer, sources, elapsed, None)
      else Fail(Unsuccessful(Reason(d)), elapsed)
  }

  /** A blank question never reaches the server: the answer is the same whatever it would have said. */
  lemma BlankNeedsNoServer(question: string, e1: string -> RequestResult, e2: string -> RequestResult,
                           t1: real, t2: real)
    requires AllSpace(question)
    ensures QueryRag(question, e1, t1) == QueryRag(question, e2, t2) == Fail(EmptyQuestion, 0.0)
    ensures ChatQuery(question, e1, t1) == ChatQuery(question, e2, t2) == Fail(EmptyQuestion, 0.0)
  {
    BlankIsAllSpace(question);
  }

  /** Scores are dropped and nothing else: order, count and every other entry survive. */
  lemma ScoresDropped(raw: seq<Json>, i: nat, key: string)
    requires i < |raw| && raw[i].JObject?
    ensures "score" !in FilterSources(raw)[i].fields
    ensures key in raw[i].fields && key != "score" ==> FilterSources(raw)[i].fields[key] == raw[i].fields[key]
  {
  }

  // ---------------------------------------------------------------------
  // Chat
  // ---------------------------------------------------------------------

  /** A source of `chat_query`: a dictionary becomes a card of three fields, anything else is kept. */
  datatype ChatSource = Card(title: Json, url: Json, snippet: Json) | AsIs(value: Json)

  const Untitled: string := "Untitled"

  function ChatSourceOf(s: Json): (r: ChatSource)
    ensures r.Card? <==> s.JObject?
    ensures !s.JObject? ==> r == AsIs(s)
    ensures s.JObject? ==>
      && r.title == Pick(s.fields, "title", "node_title", "document_title", JStr(Untitled))
      && r.url == Pick(s.fields, "url", "link", "source_url", JStr([]))
      && r.snippet == Pick(s.fields, "snippet", "text", "content", JStr([]))
  {
    match s
    case JObject(d) =>
      Card(Pick(d, "title", "node_title", "document_title", JStr(Untitled)),
           Pick(d, "url", "link", "source_url", JStr([])),
           Pick(d, "snippet", "text", "content", JStr([])))
    case _ => AsIs(s)
  }

  /** Every card has a title worth showing: the first truthy candidate, or "Untitled". */
  lemma CardsHaveTitles(s: Json)
    requires s.JObject?
    ensures Truthy(ChatSourceOf(s).title)
  {
    assert Untitled != [];
  }

  /**
   * `chat_query`: like `query_rag`, except that the answer may come as
   * `response`, the sources as `source_nodes`, sources are mapped to cards,
   * and every exception but a timeout is reported as unexpected.
   */
  function ChatQuery(question: string, exchange: string -> RequestResult, elapsed: real): (r: ApiResponse<ChatSource>)
    ensures Blank(question) ==> r == Fail(EmptyQuestion, 0.0)
    ensures !r.success ==> r.answer == JStr([]) && r.sources == [] && r.error.Some?
    ensures r.success ==> r.error.None? && Truthy(r.answer)
    ensures !Blank(question) ==>
      var res := exchange(Strip(question));
      && (res == Raised(Timeout) ==> r == Fail(RequestTimedOut, elapsed))
      && (res.Raised? && res.error != Timeout ==> r == Fail(UnexpectedError, elapsed))
      && (res.NoneReturned? ==> r == Fail(UnexpectedError, elapsed))
      && (res.Parsed? && !res.json.JObject? ==> r == Fail(UnexpectedError, elapsed))
      && (res.Parsed? && res.json.JObject? ==> r == ChatInterpret(res.json.fields, elapsed))
  {
    if Blank(question) then Fail(EmptyQuestion, 0.0)
    else
      match exchange(Strip(question))
      case Raised(e) => if e == Timeout then Fail(RequestTimedOut, elapsed) else Fail(UnexpectedError, elapsed)
      case NoneReturned => Fail(UnexpectedError, elapsed)
      case Parsed(json) =>
        if !json.JObject? then Fail(UnexpectedError, elapsed)
        else ChatInterpret(json.fields, elapsed)
  }

  /** The body of `chat_query` once the reply is a dictionary. */
  function ChatInterpret(d: map<string, Json>, elapsed: real): (r: ApiResponse<ChatSource>)
    ensures !r.success ==> r.answer == JStr([]) && r.sources == [] && r.error.Some?
    ensures r.success <==>
      && ChatItems(d).Some?
      && Truthy(MapGet(d, "success", JBool(false)))
      && (Set(d, "response") || Set(d, "answer"))
    ensures r.success ==>
      && r.error.None?
      && r.answer == (if Set(d, "response") then d["response"] else d["answer"])
      && |r.sources| == |ChatItems(d).value|
      && forall i :: 0 <= i < |r.sources| ==> r.sources[i] == ChatSourceOf(ChatItems(d).value[i])
    ensures ChatItems(d).None? ==> r == Fail(UnexpectedError, elapsed)
    ensures ChatItems(d).Some? && !r.success ==> r == Fail(Unsuccessful(Reason(d)), elapsed)
  {
    var success := MapGet(d, "success", JBool(false));
    var answer := Or(MapGet(d, "response", JNull), MapGet(d, "answer", JStr([])));
    match ChatItems(d)
    case None => Fail(UnexpectedError, elapsed)
    case Some(raw) =>
      var sources := seq(|raw|, i requires 0 <= i < |raw| => ChatSourceOf(raw[i]));
      if Truthy(success) && Truthy(answer) then ApiResponse(true, answer, sources, elapsed, None)
      else Fail(Unsuccessful(Reason(d)), elapsed)
  }

  /** `data.get("source_nodes") or data.get("sources", [])`, then `or []`, iterated. */
  function ChatItems(d: map<string, Json>): (r: Option<seq<Json>>)
    ensures Set(d, "source_nodes") ==> r == ItemsOf(d["source_nodes"])
    ensures !Set(d, "source_nodes") && !Set(d, "sources") ==> r == Some([])
  {
    ItemsOf(Or(Or(MapGet(d, "source_nodes", JNull), MapGet(d, "sources", JList([]))), JList([])))
  }

  /** `chat_query` prefers `response` to `answer` when both are given. */
  lemma ResponseOutranksAnswer(question: string, exchange: string -> RequestResult, elapsed: real)
    requires !Blank(question)
    requires var res := exchange(Strip(question));
      res.Parsed? && res.json.JObject? && Set(res.json.fields, "response")
    requires ChatQuery(question, exchange, elapsed).success
    ensures ChatQuery(question, exchange, elapsed).answer == exchange(Strip(question)).json.fields["response"]
  {
  }

  // ---------------------------------------------------------------------
  // Sessions and health
  // ---------------------------------------------------------------------

  /** `create_chat_session`: the id when the reply is successful and carries one; `None` on anything else. */
  function CreateChatSession(res: RequestResult): (r: Option<Json>)
    ensures r.Some? <==> res.Parsed? && res.json.JObject? && Set(res.json.fields, "success")
                         && Set(res.json.fields, "session_id")
    ensures r.Some? ==> r.value == res.json.fields["session_id"] && Truthy(r.value)
  {
    match res
    case Parsed(JObject(d)) =>
      if Truthy(MapGet(d, "success", JNull)) && Truthy(MapGet(d, "session_id", JNull)) then Some(d["session_id"])
      else None
    case _ => None
  }

  /**
   * `health_check`: `"success" in data or "answer" in data` on whatever the
   * request returned; the test raises on a number, a boolean or `None`, and
   * every exception reads as unhealthy.
   */
  function HealthCheck(res: RequestResult): (r: bool)
    ensures r ==> res.Parsed?
    ensures res.Parsed? && res.json.JObject? ==> (r <==> "success" in res.json.fields || "answer" in res.json.fields)
    ensures res.Parsed? && res.json.JList? ==>
      (r <==> JStr("success") in res.json.items || JStr("answer") in res.json.items)
    ensures res.Parsed? && (res.json.JNull? || res.json.JBool? || res.json.JNum?) ==> !r
  {
    match res
    case Parsed(json) =>
      (match json
       case JObject(d) => "success" in d || "answer" in d
       case JList(items) => JStr("success") in items || JStr("answer") in items
       case JStr(s) => Contains(s, "success") || Contains(s, "answer")
       case _ => false)
    case _ => false
  }

  /** A backend that answers at all, even unsuccessfully, counts as healthy. */
  lemma UnsuccessfulButHealthy(d: map<string, Json>, question: string, elapsed: real)
    requires "success" in d && !Truthy(d["success"])
    requires !Blank(question)
    ensures HealthCheck(Parsed(JObject(d)))
    ensures !QueryRag(question, _ => Parsed(JObject(d)), elapsed).success
  {
  }
}

=== FILE: backend_app.dfy ===
/**
 * The backend's HTTP routes over the single global retrieval engine:
 * loading documents, querying, status, reset, listing the loaded
 * documents and clearing the vector store. Each route is a function from
 * the engine's state and the request to the new state and the response
 * (status code and body); the engine's own work is `BackendRag`.
 */
module BackendApp {
  import opened Wrappers
  import opened Text
  import BackendRag

  /** The fixed messages the routes answer with. */
  datatype AppMessage =
    | NotInitialized
    | NoUrls
    | NoValidUrls
    | NoDocuments
    | NoQuestion
    | ResetDone
    | DisabledInProduction
    | StatsUnavailable
    | AlreadyEmpty
    | ClearFailed

  /** One listed document. */
  datatype DocInfo = DocInfo(source: string, title: string, length: nat, preview: string)

  /** The JSON body of a response. */
  datatype Body =
    | Message(success: bool, message: AppMessage)
    | LoadBody(load: BackendRag.LoadResult)
    | QueryBody(query: BackendRag.QueryResult)
    | StatusBody(status: Option<BackendRag.RagStatus>)
    | DocumentList(documents: seq<DocInfo>, count: nat)
    | ClearedBody(deletedCount: nat)

  datatype Reply = Reply(status: nat, body: Body)

  /** A refusal with the given status and message. */
  function Refuse(status: nat, m: AppMessage): Reply {
    Reply(status, Message(false, m))
  }

  // ---------------------------------------------------------------------
  // URL validation
  // ---------------------------------------------------------------------

  /** Every entry stripped. */
  function StripAll(urls: seq<string>): (r: seq<string>)
    ensures |r| == |urls| && forall i :: 0 <= i < |urls| ==> r[i] == Strip(urls[i])
  {
    seq(|urls|, i requires 0 <= i < |urls| => Strip(urls[i]))
  }

  /** The entries that are non-empty `http://` or `https://` URLs, in order. */
  function HttpOnly(urls: seq<string>): (r: seq<string>)
    ensures |r| <= |urls|
    ensures forall i :: 0 <= i < |r| ==> r[i] != [] && HttpUrl(r[i])
  {
    if urls == [] then []
    else (if urls[0] != [] && HttpUrl(urls[0]) then [urls[0]] else []) + HttpOnly(urls[1..])
  }

  /** The URL check of the load route: each entry stripped, the empty and non-HTTP ones dropped. */
  function ValidUrls(urls: seq<string>): seq<string> {
    HttpOnly(StripAll(urls))
  }

  /** An entry survives exactly when it is an HTTP URL. */
  lemma {:induction false} HttpOnlyKeeps(urls: seq<string>)
    ensures forall u :: u in HttpOnly(urls) <==> u in urls && u != [] && HttpUrl(u)
    decreases |urls|
  {
    if urls != [] {
      HttpOnlyKeeps(urls[1..]);
      assert urls == [urls[0]] + urls[1..];
    }
  }

  /** The check keeps the order of the entries: filtering two lists is filtering each. */
  lemma {:induction false} HttpOnlyAppend(a: seq<string>, b: seq<string>)
    ensures HttpOnly(a + b) == HttpOnly(a) + HttpOnly(b)
    decreases |a|
  {
    if a != [] {
      assert (a + b)[0] == a[0];
      assert (a + b)[1..] == a[1..] + b;
      HttpOnlyAppend(a[1..], b);
      var h := if a[0] != [] && HttpUrl(a[0]) then [a[0]] else [];
      assert h + (HttpOnly(a[1..]) + HttpOnly(b)) == (h + HttpOnly(a[1..])) + HttpOnly(b);
    } else {
      assert a + b == b;
    }
  }

  /** The valid URLs are exactly the stripped entries that are HTTP URLs. */
  lemma ValidUrlsAreStrippedHttp(urls: seq<string>)
    ensures forall u :: u in ValidUrls(urls) <==>
      (exists i :: 0 <= i < |urls| && Strip(urls[i]) == u) && u != [] && HttpUrl(u)
  {
    var s := StripAll(urls);
    HttpOnlyKeeps(s);
    forall u ensures u in s <==> exists i :: 0 <= i < |urls| && Strip(urls[i]) == u {
      if u in s {
        var i :| 0 <= i < |s| && s[i] == u;
        assert Strip(urls[i]) == u;
      }
    }
  }

  // ---------------------------------------------------------------------
  // Loading and querying
  // ---------------------------------------------------------------------

  /**
   * The load route: the engine must exist, the request must name URLs
   * and at least one of them must be valid; then the valid ones are
   * loaded and the loader's result is the body, whatever it says.
   */
  function LoadRoute(rag: Option<BackendRag.Rag>, urls: seq<string>, pages: string -> Option<string>, indexBuilt: bool)
    : (out: (Option<BackendRag.Rag>, Reply))
    ensures out.1.status == 200 || (out.1.status == 400 && out.0 == rag)
    ensures rag.None? ==> out.1 == Refuse(400, NotInitialized)
    ensures rag.Some? && urls == [] ==> out.1 == Refuse(400, NoUrls)
    ensures rag.Some? && urls != [] && ValidUrls(urls) == [] ==> out.1 == Refuse(400, NoValidUrls)
    ensures out.1.status == 200 <==> rag.Some? && ValidUrls(urls) != []
    ensures out.1.status == 200 ==>
      var loaded := BackendRag.LoadDocuments(rag.value, ValidUrls(urls), pages, indexBuilt);
      out == (Some(loaded.0), Reply(200, LoadBody(loaded.1)))
  {
    match rag
    case None => (rag, Refuse(400, NotInitialized))
    case Some(r) =>
      if urls == [] then (rag, Refuse(400, NoUrls))
      else
        var valid := ValidUrls(urls);
        if valid == [] then (rag, Refuse(400, NoValidUrls))
        else
          var loaded := BackendRag.LoadDocuments(r, valid, pages, indexBuilt);
          (Some(loaded.0), Reply(200, LoadBody(loaded.1)))
  }

  /** Every URL a successful load reports loaded was a valid URL of the request. */
  lemma LoadedUrlsWereRequested(rag: BackendRag.Rag, urls: seq<string>, pages: string -> Option<string>, u: string)
    requires LoadRoute(Some(rag), urls, pages, true).1.body.LoadBody?
    requires LoadRoute(Some(rag), urls, pages, true).1.body.load.Loaded?
    requires u in LoadRoute(Some(rag), urls, pages, true).1.body.load.loaded
    ensures HttpUrl(u) && exists i :: 0 <= i < |urls| && Strip(urls[i]) == u
  {
    var valid := ValidUrls(urls);
    var contents := BackendRag.Contents(pages);
    BackendRag.LoadPassPartitions(valid, contents);
    ValidUrlsAreStrippedHttp(urls);
  }

  /**
   * The query route: the engine must exist and have a query engine, and
   * the stripped question must be non-empty; then the engine's answer is
   * the body.
   */
  function QueryRoute(rag: Option<BackendRag.Rag>, question: string, engine: string -> Option<BackendRag.EngineReply>)
    : (r: Reply)
    ensures rag.None? ==> r == Refuse(400, NotInitialized)
    ensures rag.Some? && !rag.value.engineReady ==> r == Refuse(400, NoDocuments)
    ensures rag.Some? && rag.value.engineReady && AllSpace(question) ==> r == Refuse(400, NoQuestion)
    ensures r.status == 200 <==> rag.Some? && rag.value.engineReady && !AllSpace(question)
    ensures r.status == 200 ==> r.body == QueryBody(BackendRag.Query(rag.value, Strip(question), engine))
  {
    match rag
    case None => Refuse(400, NotInitialized)
    case Some(g) =>
      if !g.engineReady then Refuse(400, NoDocuments)
      else
        var q := Strip(question);
        if q == [] then Refuse(400, NoQuestion)
        else Reply(200, QueryBody(BackendRag.Query(g, q, engine)))
  }

  /** A query that passes the route's checks is always answered by the engine, never refused as not ready. */
  lemma AcceptedQueryReachesEngine(rag: Option<BackendRag.Rag>, question: string, engine: string -> Option<BackendRag.EngineReply>)
    requires QueryRoute(rag, question, engine).status == 200
    ensures !QueryRoute(rag, question, engine).body.query.NotReady?
  {
  }

  // ---------------------------------------------------------------------
  // Status, reset and listing
  // ---------------------------------------------------------------------

  /** The status route: the engine's status when it exists, otherwise "not initialized". */
  function StatusRoute(rag: Option<BackendRag.Rag>): (r: Reply)
    ensures r.status == 200
    ensures r.body.StatusBody? && (r.body.status.Some? <==> rag.Some?)
    ensures rag.Some? ==> r.body.status == Some(BackendRag.GetStatus(rag.value))
  {
    match rag
    case None => Reply(200, StatusBody(None))
    case Some(g) => Reply(200, StatusBody(Some(BackendRag.GetStatus(g))))
  }

  /** The reset route forgets the engine. */
  function ResetRoute(rag: Option<BackendRag.Rag>): (out: (Option<BackendRag.Rag>, Reply))
    ensures out.0.None? && out.1 == Reply(200, Message(true, ResetDone))
  {
    (None, Reply(200, Message(true, ResetDone)))
  }

  /** Previews show at most this many characters of a document's text. */
  const PreviewChars: nat := 200

  /** A document's preview: its text when short, else the first 200 characters and "...". */
  function Preview(text: string): (r: string)
    ensures |r| <= PreviewChars + 3
    ensures |text| <= PreviewChars ==> r == text
    ensures |text| > PreviewChars ==>
      |r| == PreviewChars + 3 && r[..PreviewChars] == text[..PreviewChars] && r[PreviewChars..] == Ellipsis
  {
    if |text| > PreviewChars then text[..PreviewChars] + Ellipsis else text
  }

  function InfoOf(d: BackendRag.Document): DocInfo {
    DocInfo(d.source, d.title, |d.text|, Preview(d.text))
  }

  /** The listing route: one entry per loaded document, in order; none without an engine. */
  function ListRoute(rag: Option<BackendRag.Rag>): (r: Reply)
    ensures r.status == 200 && r.body.DocumentList?
    ensures r.body.count == |r.body.documents|
    ensures rag.None? ==> r.body.documents == []
    ensures rag.Some? ==> |r.body.documents| == |rag.value.documents|
    ensures rag.Some? ==>
      forall i :: 0 <= i < |rag.value.documents| ==> r.body.documents[i] == InfoOf(rag.value.documents[i])
  {
    if rag.None? || rag.value.documents == [] then Reply(200, DocumentList([], 0))
    else
      var docs := rag.value.documents;
      var infos := seq(|docs|, i requires 0 <= i < |docs| => InfoOf(docs[i]));
      Reply(200, DocumentList(infos, |infos|))
  }

  /** After a successful load the listing names exactly the loaded URLs, in order. */
  lemma ListAfterLoad(rag: BackendRag.Rag, urls: seq<string>, pages: string -> Option<string>)
    requires LoadRoute(Some(rag), urls, pages, true).1.body.LoadBody?
    requires LoadRoute(Some(rag), urls, pages, true).1.body.load.Loaded?
    ensures var out := LoadRoute(Some(rag), urls, pages, true);
      var listed := ListRoute(out.0).body;
      && listed.count == out.1.body.load.documentCount
      && forall i :: 0 <= i < listed.count ==> listed.documents[i].source == out.1.body.load.loaded[i]
  {
  }

  /** After a reset nothing is listed and queries are refused. */
  lemma ResetForgetsEverything(rag: Option<BackendRag.Rag>, question: string, engine: string -> Option<BackendRag.EngineReply>)
    ensures ListRoute(ResetRoute(rag).0).body.count == 0
    ensures QueryRoute(ResetRoute(rag).0, question, engine) == Refuse(400, NotInitialized)
  {
  }

  // ---------------------------------------------------------------------
  // Clearing the vector store
  // ---------------------------------------------------------------------

  /** What asking the vector store for its statistics gives. */
  datatype StoreStats = StatsRaised | StatsFailed | Counted(points: nat)

  /** Whether the environment marks a production deployment. */
  predicate Production(env: map<string, string>) {
    "FLASK_ENV" in env && env["FLASK_ENV"] == "production"
  }

  /**
   * The clear route: refused in production before anything else; then the
   * engine must exist and the statistics must be readable; an empty store
   * is left alone; otherwise the collection is deleted and recreated
   * (`cleared` false when either step raises). `deletes` says whether the
   * deletion was attempted.
   */
  function ClearRoute(env: map<string, string>, rag: Option<BackendRag.Rag>, stats: StoreStats, cleared: bool)
    : (out: (bool, Reply))
    ensures Production(env) ==> out == (false, Refuse(403, DisabledInProduction))
    ensures !Production(env) && rag.None? ==> out == (false, Refuse(400, NotInitialized))
    ensures out.0 <==> !Production(env) && rag.Some? && stats.Counted? && stats.points > 0
    ensures out.1.status == 200 <==>
      !Production(env) && rag.Some? && stats.Counted? && (stats.points == 0 || cleared)
    ensures out.1.status == 200 && out.1.body.ClearedBody? ==> out.1.body.deletedCount == stats.points
    ensures out.1.status == 500 <==> !Production(env) && rag.Some? && !(stats.Counted? && (stats.points == 0 || cleared))
  {
    if Production(env) then (false, Refuse(403, DisabledInProduction))
    else if rag.None? then (false, Refuse(400, NotInitialized))
    else
      match stats
      case StatsRaised => (false, Refuse(500, ClearFailed))
      case StatsFailed => (false, Refuse(500, StatsUnavailable))
      case Counted(n) =>
        if n == 0 then (false, Reply(200, Message(true, AlreadyEmpty)))
        else if cleared then (true, Reply(200, ClearedBody(n)))
        else (true, Refuse(500, ClearFailed))
  }

  /** Production refuses the clear whatever the state, the statistics or the outcome would be. */
  lemma ProductionNeverClears(env: map<string, string>, rag: Option<BackendRag.Rag>, stats: StoreStats, cleared: bool)
    requires Production(env)
    ensures !ClearRoute(env, rag, stats, cleared).0
    ensures ClearRoute(env, rag, stats, cleared).1.status == 403
  {
  }

  /** Clearing a store that reports points deletes them all and reports how many. */
  lemma ClearReportsDeletedCount(env: map<string, string>, rag: BackendRag.Rag, n: nat)
    requires !Production(env) && n > 0
    ensures ClearRoute(env, Some(rag), Counted(n), true) == (true, Reply(200, ClearedBody(n)))
    ensures ClearRoute(env, Some(rag), Counted(0), true) == (false, Reply(200, Message(true, AlreadyEmpty)))
  {
  }
}

=== FILE: backend_rag.dfy ===
/**
 * The backend's retrieval pipeline, `AskRachaRAG`: the cleanup of a
 * scraped page's text, loading a list of URLs into documents with a
 * content threshold and a title, the answer a query returns and the
 * status report. Fetching pages, parsing HTML, building the embedding
 * index and asking the language model are parameters of the model.
 */
module BackendRag {
  import opened Wrappers
  import opened Text

  /** Scraped pages are cut to this many characters. */
  const MaxPageChars: nat := 15000
  /** A page must have more characters than this to become a document. */
  const MinContentChars: nat := 200
  /** The title is looked for among this many leading lines. */
  const TitleLines: nat := 5
  /** Characters of a source node shown in its snippet. */
  const SnippetChars: nat := 150

  // ---------------------------------------------------------------------
  // Cleaning a scraped page
  // ---------------------------------------------------------------------

  /** A stripped line the cleanup keeps: more than three characters, not starting with "http". */
  predicate KeepsLine(line: string) {
    |line| > 3 && !(line[0] == 'h' && line[1] == 't' && line[2] == 't' && line[3] == 'p')
  }

  /** Every line stripped, and the ones `KeepsLine` accepts kept in order. */
  function KeptLines(lines: seq<string>): (r: seq<string>)
    ensures |r| <= |lines|
    ensures forall i :: 0 <= i < |r| ==> KeepsLine(r[i])
  {
    if lines == [] then []
    else
      var line := Strip(lines[0]);
      (if KeepsLine(line) then [line] else []) + KeptLines(lines[1..])
  }

  /** Stripping and filtering cannot introduce a character the lines lack. */
  lemma {:induction false} KeptLinesOmit(lines: seq<string>, c: char)
    requires LinesOmit(lines, c)
    ensures LinesOmit(KeptLines(lines), c)
    decreases |lines|
  {
    if lines != [] {
      var line := Strip(lines[0]);
      StripOmits(lines[0], c);
      OmitSplit([lines[0]], lines[1..], c);
      assert lines == [lines[0]] + lines[1..];
      KeptLinesOmit(lines[1..], c);
      var head := if KeepsLine(line) then [line] else [];
      assert KeptLines(lines) == head + KeptLines(lines[1..]);
      OmitSplit(head, KeptLines(lines[1..]), c);
    }
  }

  /** None of the lines holds the character `c`. */
  predicate LinesOmit(lines: seq<string>, c: char) {
    forall i :: 0 <= i < |lines| ==> c !in lines[i]
  }

  /** A list of lines omits `c` exactly when both its parts do. */
  lemma OmitSplit(a: seq<string>, b: seq<string>, c: char)
    ensures LinesOmit(a + b, c) <==> LinesOmit(a, c) && LinesOmit(b, c)
  {
    if LinesOmit(a + b, c) {
      forall i | 0 <= i < |b| ensures c !in b[i] {
        assert b[i] == (a + b)[|a| + i];
      }
      forall i | 0 <= i < |a| ensures c !in a[i] {
        assert a[i] == (a + b)[i];
      }
    }
    if LinesOmit(a, c) && LinesOmit(b, c) {
      forall i | 0 <= i < |a + b| ensures c !in (a + b)[i] {
        if i >= |a| {
          assert (a + b)[i] == b[i - |a|];
        } else {
          assert (a + b)[i] == a[i];
        }
      }
    }
  }

  /** The cleaned lines of `text`, before the size cut. */
  function CleanLines(text: string): seq<string> {
    KeptLines(SplitOn(text, '\n'))
  }

  /** The cleanup `scrape_url_advanced` applies to a page's extracted text. */
  function CleanPageText(text: string): (r: string)
    ensures |r| <= MaxPageChars && |r| <= |Join(CleanLines(text), ['\n'])|
    ensures r == Join(CleanLines(text), ['\n'])[..|r|]
    ensures |Join(CleanLines(text), ['\n'])| <= MaxPageChars ==> r == Join(CleanLines(text), ['\n'])
  {
    Take(Join(CleanLines(text), ['\n']), MaxPageChars)
  }

  /** When nothing is cut, splitting the cleaned text into lines gives back exactly the kept lines. */
  lemma CleanedLinesReadBack(text: string)
    requires CleanLines(text) != []
    requires |Join(CleanLines(text), ['\n'])| <= MaxPageChars
    ensures SplitOn(CleanPageText(text), '\n') == CleanLines(text)
    ensures forall i :: 0 <= i < |CleanLines(text)| ==> KeepsLine(CleanLines(text)[i])
  {
    KeptLinesOmit(SplitOn(text, '\n'), '\n');
    SplitOnJoin(CleanLines(text), '\n');
  }

  /**
   * The text scraped from a URL: `None` when fetching or parsing raised,
   * which the scraper reports as the empty string.
   */
  function Scrape(extracted: Option<string>): (r: string)
    ensures extracted.None? ==> r == []
    ensures |r| <= MaxPageChars
    ensures extracted.Some? ==> r == CleanPageText(extracted.value)
  {
    match extracted
    case None => []
    case Some(text) => CleanPageText(text)
  }

  // ---------------------------------------------------------------------
  // Titles
  // ---------------------------------------------------------------------

  /** A line long enough, and short enough, to serve as a title. */
  predicate TitleLike(line: string) {
    10 < |line| < 100
  }

  /** The first title-like line, if any. */
  function FirstTitle(lines: seq<string>): (r: Option<string>)
    ensures r.None? <==> forall i :: 0 <= i < |lines| ==> !TitleLike(lines[i])
    ensures r.Some? ==> TitleLike(r.value)
    ensures r.Some? ==> exists i :: (0 <= i < |lines| && lines[i] == r.value
      && forall j :: 0 <= j < i ==> !TitleLike(lines[j]))
  {
    if lines == [] then None
    else if TitleLike(lines[0]) then Some(lines[0])
    else
      var r := FirstTitle(lines[1..]);
      assert forall j :: 1 <= j < |lines| ==> lines[j] == lines[1..][j - 1];
      r
  }

  /** Text of the fallback title, "Document from <url>". */
  const FallbackTitleLead: string := "Document from "

  /** The title given to a loaded page: its first title-like line among the first five, else a fallback naming the URL. */
  function Title(content: string, url: string): (t: string)
    ensures TitleLike(t) || t == FallbackTitleLead + url
  {
    match FirstTitle(Take(SplitOn(content, '\n'), TitleLines))
    case Some(line) => line
    case None => FallbackTitleLead + url
  }

  /**
   * A page is titled by its first title-like line among the first five,
   * whichever of them that is.
   */
  lemma TitleIsFirstLine(content: string, url: string, i: nat)
    requires i < TitleLines && i < |SplitOn(content, '\n')| && TitleLike(SplitOn(content, '\n')[i])
    requires forall j :: 0 <= j < i ==> !TitleLike(SplitOn(content, '\n')[j])
    ensures Title(content, url) == SplitOn(content, '\n')[i]
  {
    var lines := Take(SplitOn(content, '\n'), TitleLines);
    assert forall j :: 0 <= j < |lines| ==> lines[j] == SplitOn(content, '\n')[j];
    assert i < |lines| && TitleLike(lines[i]);
    var t := FirstTitle(lines);
    assert t.Some? && TitleLike(t.value);
    var k :| 0 <= k < |lines| && lines[k] == t.value && forall j :: 0 <= j < k ==> !TitleLike(lines[j]);
    assert k == i;
  }

  /** A page without a title-like line among its first five lines gets the fallback. */
  lemma UntitledPageNamesUrl(content: string, url: string)
    requires forall i :: 0 <= i < |SplitOn(content, '\n')| && i < TitleLines ==> !TitleLike(SplitOn(content, '\n')[i])
    ensures Title(content, url) == FallbackTitleLead + url
  {
    var lines := Take(SplitOn(content, '\n'), TitleLines);
    assert forall i :: 0 <= i < |lines| ==> lines[i] == SplitOn(content, '\n')[i];
  }

  // ---------------------------------------------------------------------
  // Loading
  // ---------------------------------------------------------------------

  datatype Document = Document(text: string, source: string, title: string)

  /** Whether a scraped page carries enough text to be loaded. */
  predicate Substantial(content: string) {
    |content| > MinContentChars
  }

  /** The scraped text of each URL, given the text extracted from each page (`None` when that raises). */
  function Contents(pages: string -> Option<string>): string -> string {
    url => Scrape(pages(url))
  }

  /** Whether the page at `url` becomes a document, `contents` giving each URL's scraped text. */
  predicate Loads(contents: string -> string, url: string) {
    Substantial(contents(url))
  }

  /** The document made from a loaded page. */
  function DocumentOf(url: string, content: string): Document {
    Document(content, url, Title(content, url))
  }

  /** What one pass over the URLs produced: the loaded and the failed URLs. */
  datatype Pass = Pass(loaded: seq<string>, failed: seq<string>)

  /**
   * The loop of `load_documents_async`: each URL is scraped; when the page
   * is substantial the URL is loaded, otherwise it failed.
   */
  function LoadPass(urls: seq<string>, contents: string -> string): (p: Pass)
    ensures |p.loaded| + |p.failed| == |urls|
    ensures forall i :: 0 <= i < |p.loaded| ==> Loads(contents, p.loaded[i])
    ensures forall i :: 0 <= i < |p.failed| ==> !Loads(contents, p.failed[i])
    ensures p.loaded == [] ==> p.failed == urls
  {
    if urls == [] then Pass([], [])
    else
      var url := urls[0];
      var rest := LoadPass(urls[1..], contents);
      if Loads(contents, url) then Pass([url] + rest.loaded, rest.failed)
      else Pass(rest.loaded, [url] + rest.failed)
  }

  /** Every URL is either loaded or failed, never both, never lost. */
  lemma LoadPassPartitions(urls: seq<string>, contents: string -> string)
    ensures var p := LoadPass(urls, contents);
      && (forall u :: u in p.loaded <==> u in urls && Loads(contents, u))
      && (forall u :: u in p.failed <==> u in urls && !Loads(contents, u))
      && multiset(p.loaded) + multiset(p.failed) == multiset(urls)
  {
    LoadPassCounts(urls, contents);
    var p := LoadPass(urls, contents);
    forall u ensures u in p.loaded <==> u in urls && Loads(contents, u) {
      assert u in p.loaded <==> u in multiset(p.loaded);
      assert u in p.failed <==> u in multiset(p.failed);
      assert u in urls <==> u in multiset(urls);
    }
    forall u ensures u in p.failed <==> u in urls && !Loads(contents, u) {
      assert u in p.loaded <==> u in multiset(p.loaded);
      assert u in p.failed <==> u in multiset(p.failed);
      assert u in urls <==> u in multiset(urls);
    }
  }

  /** The two outcome lists hold the URLs between them, with their repetitions. */
  lemma {:induction false} LoadPassCounts(urls: seq<string>, contents: string -> string)
    ensures var p := LoadPass(urls, contents);
      multiset(p.loaded) + multiset(p.failed) == multiset(urls)
    decreases |urls|
  {
    if urls != [] {
      var url := urls[0];
      var rest := LoadPass(urls[1..], contents);
      LoadPassCounts(urls[1..], contents);
      assert urls == [url] + urls[1..];
      assert multiset(urls) == multiset{url} + multiset(urls[1..]);
      LoadPassCons(url, urls[1..], contents);
      if Loads(contents, url) {
        assert multiset([url] + rest.loaded) == multiset{url} + multiset(rest.loaded);
      } else {
        assert multiset([url] + rest.failed) == multiset{url} + multiset(rest.failed);
      }
    }
  }

  /** URLs keep their input order: a pass over two lists is the two passes joined. */
  lemma LoadPassAppend(a: seq<string>, b: seq<string>, contents: string -> string)
    ensures var pa := LoadPass(a, contents); var pb := LoadPass(b, contents);
      LoadPass(a + b, contents) == Pass(pa.loaded + pb.loaded, pa.failed + pb.failed)
  {
    LoadedAppend(a, b, contents);
    FailedAppend(a, b, contents);
  }

  lemma {:induction false} LoadedAppend(a: seq<string>, b: seq<string>, contents: string -> string)
    ensures LoadPass(a + b, contents).loaded == LoadPass(a, contents).loaded + LoadPass(b, contents).loaded
    decreases |a|
  {
    if a != [] {
      var x := a[0];
      var t := a[1..];
      assert a == [x] + t;
      assert a + b == [x] + (t + b);
      LoadedAppend(t, b, contents);
      LoadPassCons(x, t, contents);
      LoadPassCons(x, t + b, contents);
      if Loads(contents, x) {
        var lt := LoadPass(t, contents).loaded;
        var lb := LoadPass(b, contents).loaded;
        assert [x] + (lt + lb) == ([x] + lt) + lb;
      }
    } else {
      assert a + b == b;
    }
  }

  lemma {:induction false} FailedAppend(a: seq<string>, b: seq<string>, contents: string -> string)
    ensures LoadPass(a + b, contents).failed == LoadPass(a, contents).failed + LoadPass(b, contents).failed
    decreases |a|
  {
    if a != [] {
      var x := a[0];
      var t := a[1..];
      assert a == [x] + t;
      assert a + b == [x] + (t + b);
      FailedAppend(t, b, contents);
      LoadPassCons(x, t, contents);
      LoadPassCons(x, t + b, contents);
      if !Loads(contents, x) {
        var ft := LoadPass(t, contents).failed;
        var fb := LoadPass(b, contents).failed;
        assert [x] + (ft + fb) == ([x] + ft) + fb;
      }
    } else {
      assert a + b == b;
    }
  }

  /** One URL in front of a list adds itself to the front of its own outcome list. */
  lemma LoadPassCons(x: string, urls: seq<string>, contents: string -> string)
    ensures var p := LoadPass(urls, contents);
      LoadPass([x] + urls, contents)
        == if Loads(contents, x) then Pass([x] + p.loaded, p.failed) else Pass(p.loaded, [x] + p.failed)
  {
    assert ([x] + urls)[0] == x && ([x] + urls)[1..] == urls;
  }

  /** The documents made from the loaded URLs, in the same order. */
  function DocumentsOf(loaded: seq<string>, contents: string -> string): (docs: seq<Document>)
    ensures |docs| == |loaded|
    ensures forall i :: 0 <= i < |loaded| ==> docs[i].source == loaded[i] && docs[i].text == contents(loaded[i])
  {
    seq(|loaded|, i requires 0 <= i < |loaded| => DocumentOf(loaded[i], contents(loaded[i])))
  }

  /** The characters of all documents together. */
  function TotalChars(docs: seq<Document>): (n: nat)
    ensures (forall i :: 0 <= i < |docs| ==> Substantial(docs[i].text)) ==> n >= (MinContentChars + 1) * |docs|
  {
    if docs == [] then 0 else |docs[0].text| + TotalChars(docs[1..])
  }

  /** The engine's state: the loaded documents and whether the index and query engine exist. */
  datatype Rag = Rag(documents: seq<Document>, indexReady: bool, engineReady: bool)

  /** A freshly constructed pipeline has no documents and no index. */
  const Fresh: Rag := Rag([], false, false)

  /** Why a load reported failure. */
  datatype LoadFailure = NothingSubstantial | IndexFailed

  /** The dictionary `load_documents` returns; `success` is `Loaded?`. */
  datatype LoadResult =
    | Loaded(loaded: seq<string>, failed: seq<string>, documentCount: nat, totalChars: nat)
    | NotLoaded(reason: LoadFailure, failedUrls: seq<string>)

  /**
   * `load_documents`: without a substantial page the state is unchanged
   * and every URL is reported failed; when building the index raises
   * (`indexBuilt` false) likewise; otherwise the documents replace the
   * old ones and the index and engine are ready.
   */
  function LoadDocuments(rag: Rag, urls: seq<string>, pages: string -> Option<string>, indexBuilt: bool)
    : (out: (Rag, LoadResult))
    ensures out.1.Loaded? <==> indexBuilt && exists u :: u in urls && Loads(Contents(pages), u)
    ensures out.1.NotLoaded? ==> out.0 == rag && out.1.failedUrls == urls
    ensures out.1.Loaded? ==>
      && out.0.indexReady && out.0.engineReady
      && out.1.documentCount == |out.0.documents| == |out.1.loaded|
      && out.1.totalChars == TotalChars(out.0.documents)
      && (forall i :: 0 <= i < |out.0.documents| ==> out.0.documents[i].source == out.1.loaded[i])
      && multiset(out.1.loaded) + multiset(out.1.failed) == multiset(urls)
  {
    var contents := Contents(pages);
    var p := LoadPass(urls, contents);
    LoadPassPartitions(urls, contents);
    if p.loaded == [] then
      (rag, NotLoaded(NothingSubstantial, p.failed))
    else if !indexBuilt then (rag, NotLoaded(IndexFailed, urls))
    else
      assert p.loaded[0] in urls;
      var docs := DocumentsOf(p.loaded, contents);
      (Rag(docs, true, true), Loaded(p.loaded, p.failed, |docs|, TotalChars(docs)))
  }

  /** Every loaded document brings more than the threshold of characters. */
  lemma LoadedCharsExceedThreshold(rag: Rag, urls: seq<string>, pages: string -> Option<string>)
    requires LoadDocuments(rag, urls, pages, true).1.Loaded?
    ensures var r := LoadDocuments(rag, urls, pages, true).1;
      r.totalChars > MinContentChars * r.documentCount
  {
  }

  // ---------------------------------------------------------------------
  // Querying
  // ---------------------------------------------------------------------

  /** A retrieved chunk: its metadata, its text when it has one, its score. */
  datatype Node = Node(metadata: map<string, string>, text: Option<string>, score: real)

  /** What the query engine answers: the response text and the nodes it drew on. */
  datatype EngineReply = EngineReply(answer: string, nodes: seq<Node>)

  datatype SourceInfo = SourceInfo(url: string, title: string, score: real, snippet: string)

  /** The dictionary `query` returns; `success` is `Answered?`. */
  datatype QueryResult =
    | NotReady
    | Answered(answer: string, sources: seq<SourceInfo>)
    | QueryFailed


  /** The first 150 characters of a node's text followed by "...", or empty when it has no text. */
  function Snippet(text: Option<string>): (r: string)
    ensures text.None? ==> r == []
    ensures text.Some? ==> 3 <= |r| <= SnippetChars + 3 && StartsWith(text.value, r[..|r| - 3]) && r[|r| - 3..] == Ellipsis
    ensures text.Some? && |text.value| >= SnippetChars ==> |r| == SnippetChars + 3
  {
    match text
    case None => []
    case Some(t) => Take(t, SnippetChars) + Ellipsis
  }

  function SourceOf(n: Node): SourceInfo {
    SourceInfo(MapGet(n.metadata, "source", "Unknown"), MapGet(n.metadata, "title", "Document"), n.score, Snippet(n.text))
  }

  function SourcesOf(nodes: seq<Node>): (r: seq<SourceInfo>)
    ensures |r| == |nodes| && forall i :: 0 <= i < |nodes| ==> r[i] == SourceOf(nodes[i])
  {
    seq(|nodes|, i requires 0 <= i < |nodes| => SourceOf(nodes[i]))
  }

  /**
   * `query`: without a query engine there is no answer; otherwise the
   * engine is asked (`engine` gives its reply, `None` when it raises) and
   * each node it drew on becomes a source, in order.
   */
  function Query(rag: Rag, question: string, engine: string -> Option<EngineReply>): (r: QueryResult)
    ensures !rag.engineReady <==> r.NotReady?
    ensures r.Answered? ==> engine(question).Some? && r.answer == engine(question).value.answer
    ensures r.Answered? ==> |r.sources| == |engine(question).value.nodes|
    ensures rag.engineReady && engine(question).None? ==> r.QueryFailed?
  {
    if !rag.engineReady then NotReady
    else
      match engine(question)
      case None => QueryFailed
      case Some(reply) => Answered(reply.answer, SourcesOf(reply.nodes))
  }

  /** A node's source names its metadata, falling back to "Unknown" and "Document". */
  lemma SourceNamesMetadata(rag: Rag, question: string, engine: string -> Option<EngineReply>, i: nat)
    requires Query(rag, question, engine).Answered?
    requires i < |engine(question).value.nodes|
    ensures var n := engine(question).value.nodes[i]; var s := Query(rag, question, engine).sources[i];
      && ("source" in n.metadata ==> s.url == n.metadata["source"])
      && ("title" in n.metadata ==> s.title == n.metadata["title"])
      && s.score == n.score
      && (n.text.Some? ==> |s.snippet| <= SnippetChars + 3)
  {
  }

  /** A fresh pipeline answers nothing until documents are loaded. */
  lemma FreshNeedsLoading(question: string, engine: string -> Option<EngineReply>, urls: seq<string>, pages: string -> Option<string>)
    ensures Query(Fresh, question, engine) == NotReady
    ensures LoadDocuments(Fresh, urls, pages, true).1.Loaded? ==>
      Query(LoadDocuments(Fresh, urls, pages, true).0, question, engine) != NotReady
  {
  }

  // ---------------------------------------------------------------------
  // Status
  // ---------------------------------------------------------------------

  datatype RagStatus = RagStatus(
    documentsLoaded: nat,
    totalCharacters: nat,
    indexReady: bool,
    engineReady: bool,
    documentSources: seq<string>)

  /** `get_status`: counts, readiness and the source of every document, in order. */
  function GetStatus(rag: Rag): (s: RagStatus)
    ensures s.documentsLoaded == |rag.documents| == |s.documentSources|
    ensures forall i :: 0 <= i < |rag.documents| ==> s.documentSources[i] == rag.documents[i].source
    ensures s.totalCharacters == TotalChars(rag.documents)
    ensures s.indexReady == rag.indexReady && s.engineReady == rag.engineReady
  {
    RagStatus(|rag.documents|, TotalChars(rag.documents), rag.indexReady, rag.engineReady,
      seq(|rag.documents|, i requires 0 <= i < |rag.documents| => rag.documents[i].source))
  }

  /** After a successful load the status lists exactly the loaded URLs. */
  lemma StatusAfterLoad(rag: Rag, urls: seq<string>, pages: string -> Option<string>)
    requires LoadDocuments(rag, urls, pages, true).1.Loaded?
    ensures var out := LoadDocuments(rag, urls, pages, true);
      && GetStatus(out.0).documentSources == out.1.loaded
      && GetStatus(out.0).totalCharacters == out.1.totalChars
      && GetStatus(out.0).indexReady
  {
  }
}

=== FILE: bot.dfy ===
/**
 * The Discord client's control logic: which messages it answers, the reply
 * it gives when the backend fails, the counters it keeps per question, and
 * its reconnect budget. The gateway, the replies it sends and the clock are
 * not modelled; each handled mention is reduced to how it ended.
 */
module Bot {
  import opened Text
  import opened Wrappers
  import opened Numerals
  import MessageProcessor

  // ---------------------------------------------------------------------
  // Error replies
  // ---------------------------------------------------------------------

  /** The four kinds of apology the bot gives when the backend fails. */
  datatype ErrorKind = Generic | Timeout | Connecting | Busy

  /**
   * `_get_error_response` classification: an absent or empty error is
   * generic; otherwise the lower-cased text is searched for "timeout", then
   * "connection" or "unavailable", then "rate limit", in that order.
   */
  function ErrorKindOf(errorMessage: Option<string>): (k: ErrorKind)
    ensures errorMessage.None? || errorMessage.value == [] ==> k == Generic
    ensures errorMessage.Some? && errorMessage.value != [] ==>
      var e := Lower(errorMessage.value);
      && (k == Timeout <==> Contains(e, "timeout"))
      && (k == Connecting <==> !Contains(e, "timeout") && (Contains(e, "connection") || Contains(e, "unavailable")))
      && (k == Busy <==> !Contains(e, "timeout") && !Contains(e, "connection") && !Contains(e, "unavailable")
                          && Contains(e, "rate limit"))
  {
    if errorMessage.None? || errorMessage.value == [] then Generic
    else
      var e := Lower(errorMessage.value);
      if Contains(e, "timeout") then Timeout
      else if Contains(e, "connection") || Contains(e, "unavailable") then Connecting
      else if Contains(e, "rate limit") then Busy
      else Generic
  }

  function ReplyText(kind: ErrorKind): string {
    match kind
    case Generic => "I'm having trouble processing your question right now. Please try again later! 🔧"
    case Timeout => "I'm taking longer than usual to process your question. Please try asking again! ⏱️"
    case Connecting => "I'm having trouble connecting to my knowledge base right now. Please try again in a few minutes! 🔧"
    case Busy => "I'm receiving a lot of questions right now. Please wait a moment and try again! 🚦"
  }

  /** `_get_error_response`. */
  function ErrorResponse(errorMessage: Option<string>): string {
    ReplyText(ErrorKindOf(errorMessage))
  }

  /** A generic backend failure gets the same words as the message processor's trouble reply. */
  lemma GenericIsTroubleReply()
    ensures ReplyText(Generic) == MessageProcessor.TroubleReply
  {
  }

  /** A timeout outranks every other keyword in the same error. */
  lemma TimeoutWins(errorMessage: string)
    requires Contains(Lower(errorMessage), "timeout")
    ensures ErrorKindOf(Some(errorMessage)) == Timeout
  {
  }

  // ---------------------------------------------------------------------
  // Incoming messages
  // ---------------------------------------------------------------------

  /** A Discord message as `on_message` looks at it. */
  datatype DiscordMessage = DiscordMessage(
    authorId: string,
    authorIsBot: bool,
    mentions: set<string>,
    content: string)

  /** What `on_message` does with a message. */
  datatype Action = Ignore | Clarify | Handle(question: string)

  /**
   * `on_message`: drop the bot's own messages, other bots' messages and
   * messages that do not mention the bot; ask for a clearer question when
   * none can be extracted or it is not valid; otherwise hand it over.
   */
  function OnMessage(botId: string, message: DiscordMessage): (a: Action)
    ensures a == Ignore <==> message.authorId == botId || message.authorIsBot || botId !in message.mentions
    ensures a.Handle? ==>
      && MessageProcessor.ExtractQuestion(message.content) == Some(a.question)
      && MessageProcessor.IsValidQuestion(a.question)
    ensures a == Clarify ==>
      || MessageProcessor.ExtractQuestion(message.content).None?
      || !MessageProcessor.IsValidQuestion(MessageProcessor.ExtractQuestion(message.content).value)
  {
    if message.authorId == botId then Ignore
    else if message.authorIsBot then Ignore
    else if botId !in message.mentions then Ignore
    else
      match MessageProcessor.ExtractQuestion(message.content)
      case None => Clarify
      case Some(question) =>
        if question == [] then Clarify
        else if !MessageProcessor.IsValidQuestion(question) then Clarify
        else Handle(question)
  }

  /** A mention with nothing else in it is met with a request for a question. */
  lemma BareMentionIsClarified(botId: string, authorId: string, nickname: bool, tail: string)
    requires authorId != botId
    requires botId != [] && forall i :: 0 <= i < |botId| ==> IsAsciiDigit(botId[i])
    requires AllSpace(tail)
    ensures OnMessage(botId, DiscordMessage(authorId, false, {botId},
      MessageProcessor.MentionText(botId, nickname) + tail)) == Clarify
  {
    MessageProcessor.OnlyMentionNoQuestion(botId, nickname, tail);
  }

  /** A question that is handed over is trimmed and single-spaced. */
  lemma HandledQuestionIsClean(botId: string, message: DiscordMessage)
    requires OnMessage(botId, message).Handle?
    ensures var q := OnMessage(botId, message).question;
      q != [] && SingleSpaced(q) && !IsSpace(q[0]) && !IsSpace(q[|q| - 1])
  {
    MessageProcessor.ExtractQuestionSpec(message.content);
  }

  // ---------------------------------------------------------------------
  // Counters
  // ---------------------------------------------------------------------

  /** The counters of `BotMetrics`; the response times are left out. */
  datatype Metrics = Metrics(processed: nat, successful: nat, failed: nat)

  /**
   * How one `handle_mention` ended. `Forbidden` is a kind of Discord HTTP
   * error and is caught by the HTTP error clause that precedes its own, so
   * it ends as `DiscordError`. `Cancelled` is asyncio's cancellation, which
   * no `except Exception` catches: only the `finally` clause runs.
   */
  datatype Ending = Answered | ApiFailed | DiscordError | Unexpected | Cancelled

  /** `handle_mention`'s effect on the counters. */
  function CountMention(m: Metrics, ending: Ending): (r: Metrics)
    ensures r.processed == m.processed + 1
    ensures r.successful + r.failed == m.successful + m.failed + (if ending == Cancelled then 0 else 1)
    ensures r.successful >= m.successful && r.failed >= m.failed
    ensures r.successful == m.successful + (if ending == Answered then 1 else 0)
    ensures r.failed == m.failed + (if ending == Answered || ending == Cancelled then 0 else 1)
  {
    match ending
    case Answered => Metrics(m.processed + 1, m.successful + 1, m.failed)
    case Cancelled => Metrics(m.processed + 1, m.successful, m.failed)
    case _ => Metrics(m.processed + 1, m.successful, m.failed + 1)
  }

  /** The counters after a sequence of mentions, handled one after another. */
  function CountAll(m: Metrics, endings: seq<Ending>): Metrics
    decreases |endings|
  {
    if endings == [] then m else CountAll(CountMention(m, endings[0]), endings[1..])
  }

  function Occurrences(endings: seq<Ending>, e: Ending): nat
    decreases |endings|
  {
    if endings == [] then 0 else (if endings[0] == e then 1 else 0) + Occurrences(endings[1..], e)
  }

  /**
   * From zero, the counters record every mention once: answered ones as
   * successes, cancelled ones in neither column, all others as failures.
   */
  lemma {:induction false} CountAllTallies(m: Metrics, endings: seq<Ending>)
    ensures var r := CountAll(m, endings);
      && r.processed == m.processed + |endings|
      && r.successful == m.successful + Occurrences(endings, Answered)
      && r.processed == r.successful + r.failed + Occurrences(endings, Cancelled) + (m.processed - m.successful - m.failed)
    decreases |endings|
  {
    if endings != [] {
      CountAllTallies(CountMention(m, endings[0]), endings[1..]);
    }
  }

  /** Without cancellations, processed questions are exactly successes plus failures. */
  lemma BalancedWithoutCancellation(endings: seq<Ending>)
    requires Occurrences(endings, Cancelled) == 0
    ensures var r := CountAll(Metrics(0, 0, 0), endings);
      r.processed == r.successful + r.failed
  {
    CountAllTallies(Metrics(0, 0, 0), endings);
  }

  // ---------------------------------------------------------------------
  // Reconnecting
  // ---------------------------------------------------------------------

  const MaxReconnectAttempts: nat := 5

  /** What `reconnect` does: give up, or wait and try to start again. */
  datatype Attempt = GiveUp | Retry(wait: nat)

  /**
   * `reconnect`'s counter logic: at the cap, give up without counting;
   * otherwise count the attempt and back off exponentially, at most a minute.
   */
  function Reconnect(attempts: nat, maxAttempts: nat): (r: (Attempt, nat))
    ensures attempts >= maxAttempts ==> r == (GiveUp, attempts)
    ensures attempts < maxAttempts ==> r.1 == attempts + 1 && r.0.Retry? && 1 <= r.0.wait <= 60
  {
    if attempts >= maxAttempts then (GiveUp, attempts)
    else
      var next := attempts + 1;
      var backoff := Pow2(next);
      (Retry(if backoff < 60 then backoff else 60), next)
  }

  /** The waits of `n` reconnects in a row, from `attempts` on, without the counter being reset. */
  function Waits(attempts: nat, maxAttempts: nat, n: nat): (ws: seq<Attempt>)
    ensures |ws| == n
    decreases n
  {
    if n == 0 then [] else
      var (a, next) := Reconnect(attempts, maxAttempts);
      [a] + Waits(next, maxAttempts, n - 1)
  }

  /** The counter never passes the cap, however often reconnect is called. */
  lemma {:induction false} CounterBounded(attempts: nat, maxAttempts: nat, n: nat)
    requires attempts <= maxAttempts
    ensures ReconnectCounter(attempts, maxAttempts, n) <= maxAttempts
    ensures ReconnectCounter(attempts, maxAttempts, n) == (if attempts + n <= maxAttempts then attempts + n else maxAttempts)
    decreases n
  {
    if n > 0 {
      CounterBounded(Reconnect(attempts, maxAttempts).1, maxAttempts, n - 1);
    }
  }

  /** The counter after `n` reconnects in a row. */
  function ReconnectCounter(attempts: nat, maxAttempts: nat, n: nat): nat
    decreases n
  {
    if n == 0 then attempts else ReconnectCounter(Reconnect(attempts, maxAttempts).1, maxAttempts, n - 1)
  }

  /** From a fresh connection the bot waits 2, 4, 8, 16 and 32 seconds, then gives up. */
  lemma DefaultBackoff()
    ensures Waits(0, MaxReconnectAttempts, 7) ==
      [Retry(2), Retry(4), Retry(8), Retry(16), Retry(32), GiveUp, GiveUp]
  {
    assert Pow2(1) == 2 && Pow2(2) == 4 && Pow2(3) == 8 && Pow2(4) == 16 && Pow2(5) == 32;
  }

  /** The connection state `on_ready` and `on_resumed` restore: no reconnects counted. */
  function OnConnected(attempts: nat): (r: nat)
    ensures r == 0
    ensures Reconnect(r, MaxReconnectAttempts).0.Retry?
  {
    0
  }
}

=== FILE: chat_context.dfy ===
/**
 * The backend's chat sessions: a map from session id to the messages kept,
 * an optional summary of the ones dropped, and two timestamps. Adding past
 * the message cap summarises the session once its tokens reach the budget,
 * keeping the longest run of latest messages within half of it. The
 * tokenizer and the language model are parameters.
 */
module ChatContext {
  import opened Wrappers
  import opened Numerals
  import opened Text

  datatype Message = Message(role: string, content: string)

  /** A session; the id is its key in the manager's map, times are seconds. */
  datatype Session = Session(messages: seq<Message>, summary: Option<string>, createdAt: int, lastActive: int)

  datatype Manager = Manager(sessions: map<string, Session>, maxContextMessages: nat, maxTokens: nat)

  const DefaultMaxContextMessages: nat := 10
  const DefaultMaxTokens: nat := 4000

  /** `ChatContextManager()`: no sessions yet; refused without a Gemini API key. */
  function NewManager(apiKey: Option<string>): (r: Option<Manager>)
    ensures r.Some? <==> apiKey.Some? && apiKey.value != []
    ensures r.Some? ==> r.value.sessions == map[]
  {
    if apiKey.Some? && apiKey.value != [] then
      Some(Manager(map[], DefaultMaxContextMessages, DefaultMaxTokens))
    else None
  }

  /** `create_session`: `id` is the fresh UUID, `now` the clock. */
  function CreateSession(m: Manager, id: string, now: int): (r: (string, Manager))
    ensures r.0 == id
    ensures r.1.sessions.Keys == m.sessions.Keys + {id}
    ensures r.1.sessions[id].messages == [] && r.1.sessions[id].summary.None?
    ensures r.1.sessions[id].createdAt == now
    ensures forall other :: other in m.sessions && other != id ==> r.1.sessions[other] == m.sessions[other]
    ensures r.1.maxContextMessages == m.maxContextMessages && r.1.maxTokens == m.maxTokens
  {
    (id, m.(sessions := m.sessions[id := Session([], None, now, now)]))
  }

  // ---------------------------------------------------------------------
  // Tokens
  // ---------------------------------------------------------------------

  /** A message's tokens: its encoded content plus four for the framing. */
  function MessageTokens(encode: string -> nat, msg: Message): nat {
    encode(msg.content) + 4
  }

  /** `count_tokens`, with the encoder's token count as `encode`. */
  function CountTokens(encode: string -> nat, ms: seq<Message>): (n: nat)
    ensures n >= 4 * |ms|
    ensures |ms| == 1 ==> n == encode(ms[0].content) + 4
    decreases |ms|
  {
    if ms == [] then 0 else MessageTokens(encode, ms[0]) + CountTokens(encode, ms[1..])
  }

  /** Counting is additive over concatenation. */
  lemma {:induction false} CountTokensAppend(encode: string -> nat, a: seq<Message>, b: seq<Message>)
    ensures CountTokens(encode, a + b) == CountTokens(encode, a) + CountTokens(encode, b)
    decreases |a|
  {
    if a != [] {
      var ab := a + b;
      assert ab != [] && ab[0] == a[0] && ab[1..] == a[1..] + b;
      CountTokensAppend(encode, a[1..], b);
      assert CountTokens(encode, ab) == MessageTokens(encode, a[0]) + CountTokens(encode, a[1..] + b);
    } else {
      assert a + b == b;
    }
  }

  // ---------------------------------------------------------------------
  // Summarising
  // ---------------------------------------------------------------------

  /** A suffix of the messages fits when its tokens are at most half the budget. */
  predicate Fits(encode: string -> nat, suffix: seq<Message>, maxTokens: nat) {
    2 * CountTokens(encode, suffix) <= maxTokens
  }

  /**
   * How many of the latest messages the walk back from the end keeps, given
   * that the last `k` fit: it stops at the first message that would push the
   * total past half the budget.
   */
  function KeptFrom(encode: string -> nat, ms: seq<Message>, maxTokens: nat, k: nat): (r: nat)
    requires k <= |ms| && Fits(encode, ms[|ms| - k..], maxTokens)
    ensures k <= r <= |ms|
    ensures Fits(encode, ms[|ms| - r..], maxTokens)
    ensures r < |ms| ==> !Fits(encode, ms[|ms| - r - 1..], maxTokens)
    decreases |ms| - k
  {
    if k == |ms| then k
    else if !Fits(encode, ms[|ms| - k - 1..], maxTokens) then k
    else KeptFrom(encode, ms, maxTokens, k + 1)
  }

  /** The number of latest messages `_summarize_session` keeps. */
  function Kept(encode: string -> nat, ms: seq<Message>, maxTokens: nat): (r: nat)
    ensures r <= |ms|
    ensures Fits(encode, ms[|ms| - r..], maxTokens)
    ensures r < |ms| ==> !Fits(encode, ms[|ms| - r - 1..], maxTokens)
  {
    assert ms[|ms|..] == [];
    KeptFrom(encode, ms, maxTokens, 0)
  }

  /** The kept messages are the longest suffix that fits: every longer one is over half the budget. */
  lemma LongestSuffixKept(encode: string -> nat, ms: seq<Message>, maxTokens: nat, j: nat)
    requires Kept(encode, ms, maxTokens) < j <= |ms|
    ensures !Fits(encode, ms[|ms| - j..], maxTokens)
  {
    var r := Kept(encode, ms, maxTokens);
    var tail := ms[|ms| - r - 1..];
    assert !Fits(encode, tail, maxTokens);
    var prefix := ms[|ms| - j..|ms| - r - 1];
    assert ms[|ms| - j..] == prefix + tail;
    CountTokensAppend(encode, prefix, tail);
    assert CountTokens(encode, ms[|ms| - j..]) >= CountTokens(encode, tail);
  }

  const NoSummary: string := "No summary generated."
  const FallbackHead: string := "Earlier conversation included "
  const FallbackMiddle: string := " messages about: "

  /** The fallback summary: how many messages were dropped, and a preview of the first three. */
  function FallbackSummary(older: seq<Message>): string {
    var previews := seq(if |older| < 3 then |older| else 3,
      i requires 0 <= i < |older| && i < 3 => Take(older[i].content, 50) + Ellipsis);
    FallbackHead + IntToString(|older|) + FallbackMiddle + Join(previews, ", ")
  }

  /**
   * The summary stored: the model's text, a fixed note when that text is
   * empty, or the fallback when the call raises (`generate` gives `None`).
   */
  function SummaryText(older: seq<Message>, generate: seq<Message> -> Option<string>): (r: string)
    ensures r != []
    ensures generate(older).Some? && generate(older).value != [] ==> r == generate(older).value
    ensures generate(older) == Some([]) ==> r == NoSummary
    ensures generate(older).None? ==> r == FallbackSummary(older)
  {
    match generate(older)
    case Some(text) => if text != [] then text else NoSummary
    case None => FallbackSummary(older)
  }

  /**
   * `_summarize_session`: below the token budget nothing changes; otherwise
   * the longest suffix within half the budget is kept and, when that drops
   * anything, the dropped messages are summarised.
   */
  function Summarize(s: Session, maxTokens: nat, encode: string -> nat, generate: seq<Message> -> Option<string>)
    : (r: Session)
    ensures CountTokens(encode, s.messages) < maxTokens ==> r == s
    ensures r.createdAt == s.createdAt && r.lastActive == s.lastActive
    ensures |r.messages| <= |s.messages| && r.messages == s.messages[|s.messages| - |r.messages|..]
    ensures r != s ==>
      && |r.messages| == Kept(encode, s.messages, maxTokens) < |s.messages|
      && Fits(encode, r.messages, maxTokens)
      && r.summary == Some(SummaryText(s.messages[..|s.messages| - |r.messages|], generate))
    ensures CountTokens(encode, s.messages) >= maxTokens && s.messages != [] ==> r != s
  {
    var ms := s.messages;
    if CountTokens(encode, ms) < maxTokens then s
    else
      var keep := Kept(encode, ms, maxTokens);
      var older := ms[..|ms| - keep];
      if older != [] then
        s.(summary := Some(SummaryText(older, generate)), messages := ms[|ms| - keep..])
      else
        assert ms == ms[|ms| - keep..];
        s
  }

  /** `add_message`: `now` is the clock, `encode` and `generate` the tokenizer and the model. */
  function AddMessage(m: Manager, id: string, msg: Message, now: int,
                      encode: string -> nat, generate: seq<Message> -> Option<string>): (r: (bool, Manager))
    ensures r.0 <==> id in m.sessions
    ensures !r.0 ==> r.1 == m
    ensures r.1.maxContextMessages == m.maxContextMessages && r.1.maxTokens == m.maxTokens
    ensures r.1.sessions.Keys == m.sessions.Keys
    ensures forall other :: other in m.sessions && other != id ==> r.1.sessions[other] == m.sessions[other]
    ensures r.0 ==>
      var before := m.sessions[id];
      var after := r.1.sessions[id];
      var grown := before.messages + [msg];
      && after.lastActive == now && after.createdAt == before.createdAt
      && |after.messages| <= |grown| && after.messages == grown[|grown| - |after.messages|..]
      && (|grown| <= m.maxContextMessages ==> after.messages == grown && after.summary == before.summary)
      && (|grown| > m.maxContextMessages ==>
            after == Summarize(before.(messages := grown, lastActive := now), m.maxTokens, encode, generate))
  {
    if id !in m.sessions then (false, m)
    else
      var s := m.sessions[id];
      var grown := s.(messages := s.messages + [msg], lastActive := now);
      var updated := if |grown.messages| > m.maxContextMessages then Summarize(grown, m.maxTokens, encode, generate)
                     else grown;
      (true, m.(sessions := m.sessions[id := updated]))
  }

  /** A message that fits is never dropped by the summary it triggers. */
  lemma NewMessageKeptWhenSmall(s: Session, msg: Message, maxTokens: nat, encode: string -> nat,
                                generate: seq<Message> -> Option<string>)
    requires Fits(encode, [msg], maxTokens)
    ensures var r := Summarize(s.(messages := s.messages + [msg]), maxTokens, encode, generate);
      r.messages != [] && r.messages[|r.messages| - 1] == msg
  {
    var ms := s.messages + [msg];
    assert ms[|ms| - 1..] == [msg];
  }

  // ---------------------------------------------------------------------
  // Context
  // ---------------------------------------------------------------------

  /** An entry of the context handed to the model. */
  datatype Entry = Entry(role: string, content: string)

  const SystemRole: string := "system"
  const SummaryLead: string := "Previous conversation summary: "

  /** `messages[-n:]`; for `n == 0` that slice is the whole list. */
  function Window(ms: seq<Message>, n: nat): (r: seq<Message>)
    ensures |r| <= |ms| && r == ms[|ms| - |r|..]
    ensures n > 0 ==> |r| == (if n < |ms| then n else |ms|)
    ensures n == 0 ==> r == ms
  {
    if n == 0 || n >= |ms| then ms else ms[|ms| - n..]
  }

  predicate HasSummary(s: Session) {
    s.summary.Some? && s.summary.value != []
  }

  /** `get_context`: the summary as a system entry when there is one, then the latest messages in order. */
  function GetContext(m: Manager, id: string): (r: seq<Entry>)
    ensures id !in m.sessions ==> r == []
    ensures id in m.sessions ==>
      var s := m.sessions[id];
      var shown := Window(s.messages, m.maxContextMessages);
      if HasSummary(s) then
        && |r| == 1 + |shown|
        && r[0] == Entry(SystemRole, SummaryLead + s.summary.value)
        && r[1..] == Entries(shown)
      else r == Entries(shown)
    ensures m.maxContextMessages > 0 ==> |r| <= m.maxContextMessages + 1
  {
    if id !in m.sessions then []
    else
      var s := m.sessions[id];
      var shown := Window(s.messages, m.maxContextMessages);
      var entries := Entries(shown);
      if HasSummary(s) then
        var r := [Entry(SystemRole, SummaryLead + s.summary.value)] + entries;
        assert r[1..] == entries;
        r
      else entries
  }

  /** Each message as a `{role, content}` entry, in order. */
  function Entries(ms: seq<Message>): (r: seq<Entry>)
    ensures |r| == |ms|
    ensures forall i :: 0 <= i < |r| ==> r[i] == Entry(ms[i].role, ms[i].content)
  {
    seq(|ms|, i requires 0 <= i < |ms| => Entry(ms[i].role, ms[i].content))
  }

  /** A fresh session has an empty context. */
  lemma FreshSessionHasNoContext(m: Manager, id: string, now: int)
    ensures GetContext(CreateSession(m, id, now).1, id) == []
  {
    var m1 := CreateSession(m, id, now).1;
    assert Window(m1.sessions[id].messages, m1.maxContextMessages) == [];
  }

  /** The first message of a fresh session is taken and is all its context shows. */
  lemma FirstMessageShown(m: Manager, id: string, now: int, msg: Message,
                          encode: string -> nat, generate: seq<Message> -> Option<string>)
    requires m.maxContextMessages > 0
    ensures var m1 := CreateSession(m, id, now).1;
      && AddMessage(m1, id, msg, now, encode, generate).0
      && AddMessage(m1, id, msg, now, encode, generate).1.sessions[id].messages == [msg]
  {
    var m1 := CreateSession(m, id, now).1;
    assert m1.sessions[id].messages + [msg] == [msg];
  }

  /** A session holding one message and no summary shows exactly that message. */
  lemma SingleMessageContext(m: Manager, id: string, msg: Message)
    requires id in m.sessions && m.sessions[id].messages == [msg] && m.sessions[id].summary.None?
    requires m.maxContextMessages > 0
    ensures GetContext(m, id) == [Entry(msg.role, msg.content)]
  {
    var r := GetContext(m, id);
    assert !HasSummary(m.sessions[id]);
    assert Window([msg], m.maxContextMessages) == [msg];
    assert |r| == 1 && r[0] == Entry(msg.role, msg.content);
  }
}

=== FILE: config.dfy ===
/**
 * The bot's settings, read from the environment and checked one after
 * another; the first check that fails is the error reported.
 */
module BotConfig {
  import opened Text
  import opened Wrappers
  import opened Numerals

  datatype Config = Config(
    discordToken: string,
    apiUrl: string,
    apiTimeout: int,
    maxResponseLength: int,
    logLevel: string,
    retryAttempts: int,
    retryDelay: real)

  /** The `ConfigurationError` raised, by the setting it names. */
  datatype ConfigError =
    | MissingToken
    | BadTimeout
    | BadMaxLength
    | BadRetryAttempts
    | BadRetryDelay
    | BadLogLevel
    | BadUrl

  /** The position of each check in the order they run. */
  function Rank(e: ConfigError): nat {
    match e
    case MissingToken => 0
    case BadTimeout => 1
    case BadMaxLength => 2
    case BadRetryAttempts => 3
    case BadRetryDelay => 4
    case BadLogLevel => 5
    case BadUrl => 6
  }

  const DefaultApiUrl: string := "http://localhost:5000"
  const DefaultDelayText: string := "1.0"
  const DefaultLogLevel: string := "INFO"
  const ValidLevels: seq<string> := ["DEBUG", "INFO", "WARNING", "ERROR", "CRITICAL"]

  /** The settings as read from the environment, before any check. */
  datatype Readings = Readings(
    token: string,
    apiUrl: string,
    apiTimeout: Option<int>,
    maxResponseLength: Option<int>,
    retryAttempts: Option<int>,
    retryDelay: Option<real>,
    logLevel: string)

  /**
   * `os.getenv` with each default, then `int()`, `float()` or `.upper()`;
   * `None` where the conversion raises. An absent token reads as empty.
   */
  function Read(env: map<string, string>): Readings {
    Readings(
      MapGet(env, "DISCORD_TOKEN", ""),
      MapGet(env, "ASKRACHA_API_URL", DefaultApiUrl),
      EnvInt(env, "API_TIMEOUT", 10),
      EnvInt(env, "MAX_RESPONSE_LENGTH", 2000),
      EnvInt(env, "RETRY_ATTEMPTS", 3),
      ParseDecimal(MapGet(env, "RETRY_DELAY", DefaultDelayText)),
      Upper(MapGet(env, "LOG_LEVEL", DefaultLogLevel)))
  }

  /** Whether check `e` rejects the readings, each check on its own. */
  predicate Fails(rd: Readings, e: ConfigError) {
    match e
    case MissingToken => rd.token == []
    case BadTimeout => !(rd.apiTimeout.Some? && rd.apiTimeout.value > 0)
    case BadMaxLength => !(rd.maxResponseLength.Some? && rd.maxResponseLength.value > 0)
    case BadRetryAttempts => !(rd.retryAttempts.Some? && rd.retryAttempts.value >= 0)
    case BadRetryDelay => !(rd.retryDelay.Some? && rd.retryDelay.value >= 0.0)
    case BadLogLevel => rd.logLevel !in ValidLevels
    case BadUrl => !HttpUrl(rd.apiUrl)
  }

  /** A configuration every check accepts. */
  predicate Valid(c: Config) {
    && c.discordToken != []
    && c.apiTimeout > 0
    && c.maxResponseLength > 0
    && c.retryAttempts >= 0
    && c.retryDelay >= 0.0
    && c.logLevel in ValidLevels
    && HttpUrl(c.apiUrl)
  }

  /** The checks in the order `load_config` runs them. */
  const Checks: seq<ConfigError> :=
    [MissingToken, BadTimeout, BadMaxLength, BadRetryAttempts, BadRetryDelay, BadLogLevel, BadUrl]

  lemma ChecksInRankOrder(e: ConfigError)
    ensures |Checks| == 7 && Rank(e) < 7 && Checks[Rank(e)] == e
  {
  }

  /** The first of `checks` that rejects the readings, if any. */
  function FirstFailure(rd: Readings, checks: seq<ConfigError>): (r: Option<nat>)
    ensures r.None? <==> forall i :: 0 <= i < |checks| ==> !Fails(rd, checks[i])
    ensures r.Some? ==> r.value < |checks| && Fails(rd, checks[r.value])
    ensures r.Some? ==> forall i :: 0 <= i < r.value ==> !Fails(rd, checks[i])
    decreases |checks|
  {
    if checks == [] then None
    else if Fails(rd, checks[0]) then Some(0)
    else
      match FirstFailure(rd, checks[1..])
      case None => None
      case Some(k) => Some(k + 1)
  }

  /**
   * The checks of `load_config`: `Ok` when every check passes, with each
   * setting as read; otherwise the first failing check, in source order.
   */
  function Validate(rd: Readings): (r: Result<Config, ConfigError>)
    ensures r.Ok? <==> forall e :: !Fails(rd, e)
    ensures r.Err? ==> Fails(rd, r.error) && forall e :: Rank(e) < Rank(r.error) ==> !Fails(rd, e)
    ensures r.Ok? ==> Valid(r.value)
    ensures r.Ok? ==>
      && r.value.discordToken == rd.token && r.value.apiUrl == rd.apiUrl
      && Some(r.value.apiTimeout) == rd.apiTimeout
      && Some(r.value.maxResponseLength) == rd.maxResponseLength
      && Some(r.value.retryAttempts) == rd.retryAttempts
      && Some(r.value.retryDelay) == rd.retryDelay
      && r.value.logLevel == rd.logLevel
  {
    match FirstFailure(rd, Checks)
    case Some(k) =>
      ChecksRanked(rd, k);
      Err(Checks[k])
    case None =>
      AllPass(rd);
      Ok(Config(rd.token, rd.apiUrl, rd.apiTimeout.value, rd.maxResponseLength.value, rd.logLevel,
        rd.retryAttempts.value, rd.retryDelay.value))
  }

  /** `load_config`. */
  function LoadConfig(env: map<string, string>): Result<Config, ConfigError> {
    Validate(Read(env))
  }

  /** The check at position `k` is the failing one of lowest rank. */
  lemma ChecksRanked(rd: Readings, k: nat)
    requires FirstFailure(rd, Checks) == Some(k)
    ensures k < |Checks| && Fails(rd, Checks[k])
    ensures forall e :: Rank(e) < Rank(Checks[k]) ==> !Fails(rd, e)
  {
    forall e | Rank(e) < Rank(Checks[k]) ensures !Fails(rd, e) {
      ChecksInRankOrder(e);
      ChecksInRankOrder(Checks[k]);
    }
  }

  /** When no listed check fails, no check fails at all. */
  lemma AllPass(rd: Readings)
    requires FirstFailure(rd, Checks).None?
    ensures forall e :: !Fails(rd, e)
    ensures !Fails(rd, MissingToken) && !Fails(rd, BadTimeout) && !Fails(rd, BadMaxLength)
    ensures !Fails(rd, BadRetryAttempts) && !Fails(rd, BadRetryDelay) && !Fails(rd, BadLogLevel) && !Fails(rd, BadUrl)
  {
    forall e ensures !Fails(rd, e) {
      ChecksInRankOrder(e);
    }
  }

  lemma DefaultDelayParses()
    ensures ParseDecimal(DefaultDelayText) == Some(1.0)
  {
    var s := DefaultDelayText;
    PrintableNotSpace('1');
    PrintableNotSpace('0');
    StripOfTrimmed(s);
    assert IndexOf(s, '.') == 1;
    assert s[..1] == "1" && s[2..] == "0";
    assert DigitsValue("1") == 1;
    assert DigitsValue("0") == 0;
  }

  lemma DefaultsAccepted()
    ensures Upper(DefaultLogLevel) == DefaultLogLevel && DefaultLogLevel in ValidLevels
    ensures HttpUrl(DefaultApiUrl)
  {
    assert ValidLevels[1] == DefaultLogLevel;
  }

  /** Every setting that is absent takes its documented default. */
  predicate OnlyToken(env: map<string, string>) {
    && "ASKRACHA_API_URL" !in env && "API_TIMEOUT" !in env && "MAX_RESPONSE_LENGTH" !in env
    && "RETRY_ATTEMPTS" !in env && "RETRY_DELAY" !in env && "LOG_LEVEL" !in env
  }

  lemma DefaultReadings(env: map<string, string>)
    requires OnlyToken(env)
    ensures Read(env) ==
      Readings(MapGet(env, "DISCORD_TOKEN", ""), DefaultApiUrl, Some(10), Some(2000), Some(3), Some(1.0), DefaultLogLevel)
  {
    DefaultDelayParses();
    DefaultsAccepted();
  }

  /** With only a token set, every other setting takes its documented default and passes its check. */
  lemma OnlyTokenGivesDefaults(env: map<string, string>)
    requires OnlyToken(env) && MapGet(env, "DISCORD_TOKEN", "") != []
    ensures LoadConfig(env) ==
      Ok(Config(env["DISCORD_TOKEN"], DefaultApiUrl, 10, 2000, DefaultLogLevel, 3, 1.0))
  {
    DefaultReadings(env);
    DefaultsPass(Read(env));
  }

  lemma DefaultsPass(rd: Readings)
    requires rd.token != [] && rd.apiUrl == DefaultApiUrl && rd.logLevel == DefaultLogLevel
    requires rd.apiTimeout == Some(10) && rd.maxResponseLength == Some(2000)
    requires rd.retryAttempts == Some(3) && rd.retryDelay == Some(1.0)
    ensures forall e :: !Fails(rd, e)
  {
    DefaultsAccepted();
  }

  /** A missing token is reported before anything else, whatever the other settings are. */
  lemma TokenCheckedFirst(env: map<string, string>)
    requires "DISCORD_TOKEN" !in env
    ensures LoadConfig(env) == Err(MissingToken)
  {
  }
}

=== FILE: discord_rate_limiter.dfy ===
/**
 * The bot's side of the shared rate limit: Discord users are keyed through
 * the identity mapping, and a limited user is told how long to wait.
 */
module DiscordRateLimiter {
  import opened Text
  import opened Wrappers
  import opened Numerals
  import RateLimiter
  import UserMapper

  // ---------------------------------------------------------------------
  // Identity and delegation
  // ---------------------------------------------------------------------

  /** `get_user_identifier`: the rate-limit key of the Discord identity. */
  function UserIdentifier(discordUserId: string): (r: string)
    ensures r == "auth:discord:" + discordUserId
  {
    UserMapper.RateLimitKey(UserMapper.DiscordIdentity(discordUserId))
  }

  /** `check_rate_limit` under the limiter's default limit; never the empty-id error. */
  function Check(config: RateLimiter.RateLimitConfig, store: RateLimiter.Store, discordUserId: string, now: real)
    : (r: (RateLimiter.RateLimitResult, RateLimiter.Store))
    ensures RateLimiter.Check(config, store, UserIdentifier(discordUserId), None, now) == Ok(r)
  {
    RateLimiter.Check(config, store, UserIdentifier(discordUserId), None, now).value
  }

  /** `reset_user_rate_limit`. */
  function Reset(config: RateLimiter.RateLimitConfig, store: RateLimiter.Store, discordUserId: string, now: real)
    : (r: (bool, RateLimiter.Store))
    ensures r == RateLimiter.Reset(config, store, "auth:discord:" + discordUserId, now)
  {
    RateLimiter.Reset(config, store, UserIdentifier(discordUserId), now)
  }

  /** `get_user_rate_limit_status`. */
  function Status(config: RateLimiter.RateLimitConfig, store: RateLimiter.Store, discordUserId: string, now: real)
    : (r: Option<RateLimiter.RateLimitResult>)
    ensures r == RateLimiter.Status(config, store, "auth:discord:" + discordUserId, now)
  {
    RateLimiter.Status(config, store, UserIdentifier(discordUserId), now)
  }

  /** A Discord user's check leaves every web user's entry as it was. */
  lemma DiscordCheckSparesWebUsers(config: RateLimiter.RateLimitConfig, store: RateLimiter.Store,
                                   discordUserId: string, request: UserMapper.WebRequest, now: real)
    ensures var webKey := RateLimiter.Key(config, UserMapper.RateLimitKey(UserMapper.WebIdentity(request)));
      RateLimiter.Get(Check(config, store, discordUserId, now).1, webKey, now) == RateLimiter.Get(store, webKey, now)
  {
    UserMapper.SanitizedKeysDistinct(config, request, discordUserId);
  }

  // ---------------------------------------------------------------------
  // Messages
  // ---------------------------------------------------------------------

  /** A count and its unit, the unit plural unless the count is exactly 1. */
  function Quantity(n: int, unit: string): string {
    IntToString(n) + " " + Plural(unit, n)
  }

  function Plural(unit: string, n: int): string {
    unit + (if n != 1 then "s" else "")
  }

  /** The wait in words: seconds below a minute, else minutes and any leftover seconds. */
  function TimeString(remaining: int): string {
    if remaining < 60 then Quantity(remaining, "second")
    else
      var minutes := remaining / 60;
      var seconds := remaining % 60;
      if seconds == 0 then Quantity(minutes, "minute")
      else Quantity(minutes, "minute") + " and " + Quantity(seconds, "second")
  }

  /** `f"{username}, " if username else ""`. */
  function Greeting(username: string): string {
    if username != [] then username + ", " else ""
  }

  const Tip: string := "\n💡 *This helps me provide better responses to everyone!*"

  /** The emoji and space that open template `i`. */
  function Lead(i: int): (r: string)
    requires 0 <= i < 4
    ensures |r| == 2
  {
    if i == 0 then "⏰ " else if i == 1 then "🚦 " else if i == 2 then "⏳ " else "🕐 "
  }

  /** The words of template `i` between the greeting and the wait, ending in the opening `**`. */
  function BodyHead(i: int): string
    requires 0 <= i < 4
  {
    if i == 0 then "you're asking questions a bit too quickly! Please wait **"
    else if i == 1 then "slow down there! You can ask your next question in **"
    else if i == 2 then "you're on cooldown! Please wait **"
    else "take a breather! You can ask another question in **"
  }

  /** The words of template `i` after the wait, starting with the closing `**`. */
  function BodyTail(i: int): string
    requires 0 <= i < 4
  {
    if i == 0 then "** before asking another question."
    else if i == 2 then "** before asking again."
    else "**."
  }

  /** `create_rate_limit_message`: template `remaining mod 4` with the greeting, then the tip. */
  function RateLimitMessage(remaining: int, username: string): string {
    Template(remaining % 4, username, TimeString(remaining))
  }

  /** Template `i` filled in with the greeting and the wait. */
  function Template(i: int, username: string, time: string): string
    requires 0 <= i < 4
  {
    Lead(i) + (Greeting(username) + (BodyHead(i) + (time + (BodyTail(i) + Tip))))
  }

  const CrossPlatformHead: string := "⏰ You recently asked a question on the web interface! Please wait **"
  const CrossPlatformTail: string := "** before asking another question.\n\n🔗 *Rate limits are shared between Discord and the web interface to ensure fair usage.*"

  /** `create_cross_platform_message`: the wait always in plain seconds. */
  function CrossPlatformMessage(remaining: int): string {
    CrossPlatformHead + Quantity(remaining, "second") + CrossPlatformTail
  }

  // ---------------------------------------------------------------------
  // Reading a wait back
  // ---------------------------------------------------------------------

  predicate IsUnit(word: string, unit: string) {
    word == unit || word == unit + "s"
  }

  /** The number of seconds a wait in words stands for, if it has one of the three shapes. */
  function ReadTime(text: string): Option<int> {
    ReadWords(Words(text))
  }

  function ReadWords(ws: seq<string>): Option<int> {
    if |ws| == 2 && IsUnit(ws[1], "second") then ParseInt(ws[0])
    else if |ws| == 2 && IsUnit(ws[1], "minute") then MinutesAnd(ParseInt(ws[0]), Some(0))
    else if |ws| == 5 && IsUnit(ws[1], "minute") && ws[2] == "and" && IsUnit(ws[4], "second") then
      MinutesAnd(ParseInt(ws[0]), ParseInt(ws[3]))
    else None
  }

  function MinutesAnd(minutes: Option<int>, seconds: Option<int>): Option<int> {
    if minutes.Some? && seconds.Some? then Some(minutes.value * 60 + seconds.value) else None
  }

  lemma NumeralIsWord(n: int)
    ensures IsWord(IntToString(n))
  {
    var s := IntToString(n);
    forall i | 0 <= i < |s| ensures !IsSpace(s[i]) {
      PrintableNotSpace(s[i]);
    }
  }

  lemma PluralIsWord(unit: string, n: int)
    requires unit == "second" || unit == "minute"
    ensures IsWord(Plural(unit, n)) && IsUnit(Plural(unit, n), unit) && Plural(unit, n)[0] == unit[0]
  {
    var u := Plural(unit, n);
    forall i | 0 <= i < |u| ensures !IsSpace(u[i]) {
      PrintableNotSpace(u[i]);
    }
  }

  lemma QuantityIsJoin(n: int, unit: string)
    ensures Quantity(n, unit) == Join([IntToString(n), Plural(unit, n)], " ")
  {
    JoinCons(IntToString(n), [Plural(unit, n)], " ");
    assert [IntToString(n)] + [Plural(unit, n)] == [IntToString(n), Plural(unit, n)];
  }

  /** A count of a unit reads back as that count. */
  lemma QuantityRoundTrip(n: int, unit: string)
    requires unit == "second" || unit == "minute"
    ensures var ws := Words(Quantity(n, unit));
      && ws == [IntToString(n), Plural(unit, n)]
      && IsUnit(ws[1], unit) && ParseInt(ws[0]) == Some(n)
  {
    NumeralIsWord(n);
    PluralIsWord(unit, n);
    QuantityIsJoin(n, unit);
    WordsOfJoin([IntToString(n), Plural(unit, n)]);
    IntRoundTrip(n);
  }

  lemma MinutesAndSecondsIsJoin(minutes: int, seconds: int)
    ensures Quantity(minutes, "minute") + " and " + Quantity(seconds, "second") ==
      Join([IntToString(minutes), Plural("minute", minutes), "and", IntToString(seconds), Plural("second", seconds)], " ")
  {
    var a := IntToString(minutes);
    var mu := Plural("minute", minutes);
    var tail := [IntToString(seconds), Plural("second", seconds)];
    var q := Quantity(seconds, "second");
    QuantityIsJoin(seconds, "second");
    JoinCons("and", tail, " ");
    JoinCons(mu, ["and"] + tail, " ");
    JoinCons(a, [mu] + (["and"] + tail), " ");
    assert [a] + ([mu] + (["and"] + tail)) == [a, mu, "and", IntToString(seconds), Plural("second", seconds)];
    assert a + " " + (mu + " " + ("and" + " " + q)) == (a + " " + mu) + " and " + q;
  }

  lemma AndIsWord()
    ensures IsWord("and")
  {
    PrintableNotSpace('a');
    PrintableNotSpace('n');
    PrintableNotSpace('d');
  }

  lemma MinutesAndSecondsSplit(minutes: int, seconds: int)
    ensures Words(Quantity(minutes, "minute") + " and " + Quantity(seconds, "second")) ==
      [IntToString(minutes), Plural("minute", minutes), "and", IntToString(seconds), Plural("second", seconds)]
  {
    var ws := [IntToString(minutes), Plural("minute", minutes), "and", IntToString(seconds), Plural("second", seconds)];
    NumeralIsWord(minutes);
    NumeralIsWord(seconds);
    PluralIsWord("minute", minutes);
    PluralIsWord("second", seconds);
    AndIsWord();
    MinutesAndSecondsIsJoin(minutes, seconds);
    WordsOfJoin(ws);
  }

  lemma ReadSeconds(n: int)
    ensures ReadTime(Quantity(n, "second")) == Some(n)
  {
    QuantityRoundTrip(n, "second");
  }

  /** Whole minutes and leftover seconds recombine to the wait. */
  lemma MinutesAndOf(minutes: Option<int>, seconds: Option<int>, m: int, s: int)
    requires minutes == Some(m) && seconds == Some(s)
    ensures MinutesAnd(minutes, seconds) == Some(m * 60 + s)
  {
  }

  /** Two words ending in a minute unit read as that many minutes. */
  lemma ReadMinuteWords(ws: seq<string>, m: int)
    requires |ws| == 2 && IsUnit(ws[1], "minute") && ws[1][0] == 'm'
    requires ParseInt(ws[0]) == Some(m)
    ensures ReadWords(ws) == Some(m * 60)
  {
    assert !IsUnit(ws[1], "second");
    assert ReadWords(ws) == MinutesAnd(ParseInt(ws[0]), Some(0));
    MinutesAndOf(ParseInt(ws[0]), Some(0), m, 0);
  }

  lemma ReadMinutes(m: int)
    ensures ReadTime(Quantity(m, "minute")) == Some(m * 60)
  {
    QuantityRoundTrip(m, "minute");
    PluralIsWord("minute", m);
    ReadMinuteWords(Words(Quantity(m, "minute")), m);
  }

  /** Five words `M minute(s) and S second(s)` read as `M * 60 + S`. */
  lemma ReadFiveWords(ws: seq<string>, m: int, s: int)
    requires |ws| == 5 && IsUnit(ws[1], "minute") && ws[1][0] == 'm' && ws[2] == "and" && IsUnit(ws[4], "second")
    requires ParseInt(ws[0]) == Some(m) && ParseInt(ws[3]) == Some(s)
    ensures ReadWords(ws) == Some(m * 60 + s)
  {
    assert !IsUnit(ws[1], "second");
    assert ReadWords(ws) == MinutesAnd(ParseInt(ws[0]), ParseInt(ws[3]));
    MinutesAndOf(ParseInt(ws[0]), ParseInt(ws[3]), m, s);
  }

  lemma ReadMinutesAndSeconds(m: int, s: int)
    ensures ReadTime(Quantity(m, "minute") + " and " + Quantity(s, "second")) == Some(m * 60 + s)
  {
    var ws := [IntToString(m), Plural("minute", m), "and", IntToString(s), Plural("second", s)];
    MinutesAndSecondsSplit(m, s);
    PluralIsWord("minute", m);
    PluralIsWord("second", s);
    IntRoundTrip(m);
    IntRoundTrip(s);
    ReadFiveWords(ws, m, s);
  }

  /**
   * The wait in words reads back as the number of seconds it was made from:
   * whole minutes and leftover seconds recombine to the wait.
   */
  lemma TimeStringRoundTrip(remaining: int)
    ensures ReadTime(TimeString(remaining)) == Some(remaining)
  {
    if remaining < 60 {
      ReadSeconds(remaining);
    } else {
      var minutes := remaining / 60;
      var seconds := remaining % 60;
      assert minutes * 60 + seconds == remaining;
      if seconds == 0 {
        assert TimeString(remaining) == Quantity(minutes, "minute");
        ReadMinutes(minutes);
      } else {
        assert TimeString(remaining) == Quantity(minutes, "minute") + " and " + Quantity(seconds, "second");
        ReadMinutesAndSeconds(minutes, seconds);
      }
    }
  }

  lemma InsertAfterLead(lead: string, g: string, rest: string)
    requires |lead| == 2
    ensures lead + (g + rest) == (lead + rest)[..2] + (g + (lead + rest)[2..])
  {
    assert (lead + rest)[..2] == lead;
    assert (lead + rest)[2..] == rest;
  }

  /** Filling in a template puts the greeting right after the emoji. */
  lemma TemplateGreeting(i: int, username: string, time: string)
    requires 0 <= i < 4
    ensures var plain := Template(i, "", time);
      |plain| >= 2 && Template(i, username, time) == plain[..2] + (Greeting(username) + plain[2..])
  {
    var rest := BodyHead(i) + (time + (BodyTail(i) + Tip));
    assert Greeting("") + rest == rest;
    InsertAfterLead(Lead(i), Greeting(username), rest);
  }

  /** The personalised message is the anonymous one with the greeting inserted after the emoji. */
  lemma MessagesDifferOnlyInGreeting(remaining: int, username: string)
    ensures var plain := RateLimitMessage(remaining, "");
      |plain| >= 2 && RateLimitMessage(remaining, username) == plain[..2] + (Greeting(username) + plain[2..])
  {
    TemplateGreeting(remaining % 4, username, TimeString(remaining));
  }

  /** Where the wait sits in template `i`: after the emoji, the greeting and the template's words. */
  function TimeOffset(i: int, username: string): nat
    requires 0 <= i < 4
  {
    |Lead(i)| + |Greeting(username)| + |BodyHead(i)|
  }

  /** In `lead + (g + (h + (t + tail)))`, `lead` opens the text and `t` sits after `lead`, `g` and `h`. */
  lemma {:induction false} PieceAt(lead: string, g: string, h: string, t: string, tail: string, k: int)
    requires k == |lead| + |g| + |h|
    ensures var msg := lead + (g + (h + (t + tail)));
      && msg[..|lead|] == lead
      && OccursAt(msg, t, k)
  {
    var msg := lead + (g + (h + (t + tail)));
    assert msg[|lead|..] == g + (h + (t + tail));
    assert (g + (h + (t + tail)))[|g|..] == h + (t + tail);
    assert (h + (t + tail))[|h|..] == t + tail;
    assert msg[k..] == t + tail;
  }

  /** Template `i` opens with its own emoji and shows the wait it was given. */
  lemma TemplateShowsWait(i: int, username: string, time: string)
    requires 0 <= i < 4
    ensures var msg := Template(i, username, time);
      && msg[..2] == Lead(i)
      && OccursAt(msg, time, TimeOffset(i, username))
  {
    PieceAt(Lead(i), Greeting(username), BodyHead(i), time, BodyTail(i) + Tip, TimeOffset(i, username));
  }

  /** The message opens with the emoji of template `remaining mod 4` and shows the wait in words. */
  lemma MessageShowsWait(remaining: int, username: string)
    ensures var msg := RateLimitMessage(remaining, username);
      && msg[..2] == Lead(remaining % 4)
      && OccursAt(msg, TimeString(remaining), TimeOffset(remaining % 4, username))
  {
    TemplateShowsWait(remaining % 4, username, TimeString(remaining));
  }

  /** The four templates open with four different emoji, so consecutive waits rotate through them. */
  lemma LeadsDistinct(i: int, j: int)
    requires 0 <= i < 4 && 0 <= j < 4 && i != j
    ensures Lead(i) != Lead(j)
  {
    assert Lead(i)[0] != Lead(j)[0];
  }

  /** The cross-platform message gives the wait in seconds even past a minute. */
  lemma CrossPlatformInSeconds(remaining: int)
    ensures var m := CrossPlatformMessage(remaining);
      var q := m[|CrossPlatformHead|..|m| - |CrossPlatformTail|];
      ReadTime(q) == Some(remaining) && IsUnit(Words(q)[1], "second")
  {
    var q := Quantity(remaining, "second");
    var m := CrossPlatformMessage(remaining);
    assert m[|CrossPlatformHead|..|m| - |CrossPlatformTail|] == q;
    QuantityRoundTrip(remaining, "second");
  }
}

=== FILE: document_scheduler.dfy ===
/**
 * The background scheduler's own state: how often it cleans up chat
 * sessions and after how long they expire, the cleanup itself over the
 * session map, and the running flag that `start` and `stop` guard. The
 * scheduling library, its cron jobs and the clock are not modelled.
 */
module DocumentScheduler {
  import opened Wrappers
  import ChatContext

  /** Minutes between cleanups: one in test mode, fifteen otherwise. */
  function CleanupInterval(testMode: bool): (minutes: nat)
    ensures minutes > 0
    ensures testMode ==> minutes == 1
    ensures !testMode ==> minutes == 15
  {
    if testMode then 1 else 15
  }

  /** Seconds before a session expires: two minutes in test mode, three hours otherwise. */
  function SessionExpiry(testMode: bool): (seconds: nat)
    ensures testMode ==> seconds == 2 * 60
    ensures !testMode ==> seconds == 3 * 60 * 60
  {
    if testMode then 120 else 10800
  }

  /** Test mode expires sessions sooner and sweeps more often. */
  lemma TestModeIsFaster()
    ensures SessionExpiry(true) < SessionExpiry(false)
    ensures CleanupInterval(true) < CleanupInterval(false)
  {
  }

  /** A session has expired when it is strictly older than the expiry. */
  predicate Expired(s: ChatContext.Session, expiry: int, now: int) {
    now - s.createdAt > expiry
  }

  /**
   * `cleanup_old_sessions`: without a context manager nothing happens;
   * otherwise every expired session is removed and the rest are kept as
   * they were.
   */
  function CleanupOldSessions(manager: Option<ChatContext.Manager>, expiry: int, now: int)
    : (r: Option<ChatContext.Manager>)
    ensures manager.None? ==> r.None?
    ensures manager.Some? ==>
      && r.Some?
      && r.value.maxContextMessages == manager.value.maxContextMessages
      && r.value.maxTokens == manager.value.maxTokens
      && (forall id :: id in r.value.sessions <==>
            id in manager.value.sessions && !Expired(manager.value.sessions[id], expiry, now))
      && (forall id :: id in r.value.sessions ==> r.value.sessions[id] == manager.value.sessions[id])
  {
    match manager
    case None => None
    case Some(m) =>
      var sessions := m.sessions;
      Some(m.(sessions := map id | id in sessions && !Expired(sessions[id], expiry, now) :: sessions[id]))
  }

  /** A second cleanup at the same instant removes nothing more. */
  lemma CleanupIdempotent(manager: Option<ChatContext.Manager>, expiry: int, now: int)
    ensures CleanupOldSessions(CleanupOldSessions(manager, expiry, now), expiry, now)
      == CleanupOldSessions(manager, expiry, now)
  {
    if manager.Some? {
      var once := CleanupOldSessions(manager, expiry, now).value;
      var twice := CleanupOldSessions(Some(once), expiry, now).value;
      assert twice.sessions == once.sessions;
    }
  }

  /** A session exactly as old as the expiry survives; one second more and it is removed. */
  lemma ExpiryBoundary(m: ChatContext.Manager, id: string, expiry: int)
    requires id in m.sessions
    ensures var created := m.sessions[id].createdAt;
      && id in CleanupOldSessions(Some(m), expiry, created + expiry).value.sessions
      && id !in CleanupOldSessions(Some(m), expiry, created + expiry + 1).value.sessions
  {
  }

  /** A session created by the manager outlives the expiry window and no longer. */
  lemma FreshSessionSurvivesUntilExpiry(m: ChatContext.Manager, id: string, created: int, now: int, testMode: bool)
    requires created <= now <= created + SessionExpiry(testMode)
    ensures var m1 := ChatContext.CreateSession(m, id, created).1;
      id in CleanupOldSessions(Some(m1), SessionExpiry(testMode), now).value.sessions
  {
  }

  // ---------------------------------------------------------------------
  // Starting and stopping
  // ---------------------------------------------------------------------

  datatype Scheduler = Scheduler(testMode: bool, running: bool)

  /**
   * `start`: a running scheduler is left alone; otherwise it runs exactly
   * when the jobs were added and the library started (`started`).
   */
  function Start(s: Scheduler, started: bool): (r: Scheduler)
    ensures r.testMode == s.testMode
    ensures s.running ==> r == s
    ensures !s.running ==> (r.running <==> started)
  {
    if s.running then s else s.(running := started)
  }

  /** `stop`: a stopped scheduler is left alone; otherwise it stops when the shutdown succeeds. */
  function Stop(s: Scheduler, shutDown: bool): (r: Scheduler)
    ensures r.testMode == s.testMode
    ensures !s.running ==> r == s
    ensures s.running ==> (r.running <==> !shutDown)
  {
    if s.running && shutDown then s.(running := false) else s
  }

  /** The running flag only turns on by a successful start and off by a successful stop. */
  lemma FlagChangesOnlyOnSuccess(s: Scheduler, started: bool, shutDown: bool)
    ensures Start(s, started).running != s.running ==> !s.running && started
    ensures Stop(s, shutDown).running != s.running ==> s.running && shutDown
    ensures Stop(Start(s, true), true).running == false
  {
  }

  /** What `get_status` reports. */
  datatype Status = Stopped | Running(jobCount: nat) | StatusError

  /** `get_status`: `jobs` lists the library's jobs, `None` when listing them raises. */
  function GetStatus(s: Scheduler, jobs: Option<seq<string>>): (r: Status)
    ensures r == Stopped <==> !s.running
    ensures s.running && jobs.Some? ==> r == Running(|jobs.value|)
    ensures s.running && jobs.None? ==> r == StatusError
  {
    if !s.running then Stopped
    else match jobs
      case Some(ids) => Running(|ids|)
      case None => StatusError
  }
}

=== FILE: message_processor.dfy ===
/**
 * The bot's text processing: pulling the question out of a Discord
 * mention, deciding whether it is worth sending to the backend, and fitting
 * the backend's answer into Discord's message length limit.
 */
module MessageProcessor {
  import opened Text
  import opened Wrappers

  // ---------------------------------------------------------------------
  // Question extraction
  // ---------------------------------------------------------------------

  /** Length of the run of ASCII digits that starts `s`. */
  function DigitRun(s: string): (n: nat)
    ensures n <= |s|
    ensures forall i :: 0 <= i < n ==> IsAsciiDigit(s[i])
    ensures n == |s| || !IsAsciiDigit(s[n])
  {
    if s == [] || !IsAsciiDigit(s[0]) then 0 else 1 + DigitRun(s[1..])
  }

  /**
   * Length of the match of the mention pattern `<@!?\d+>` at the start of
   * `s`, or 0 when there is none. The pattern has at most one match at a
   * given position, so this is the match the regular-expression engine finds.
   */
  function MentionAt(s: string): (n: nat)
    ensures n <= |s|
    ensures n == 0 || n >= 4
  {
    if |s| >= 2 && s[0] == '<' && s[1] == '@' then
      var k := if |s| > 2 && s[2] == '!' then 3 else 2;
      var d := DigitRun(s[k..]);
      if d > 0 && k + d < |s| && s[k + d] == '>' then k + d + 1 else 0
    else 0
  }

  /** The mention text `<@id>` or `<@!id>` for a user id written in digits. */
  function MentionText(id: string, nickname: bool): string {
    "<@" + (if nickname then "!" else "") + id + ">"
  }

  /**
   * `re.sub(r'<@!?\d+>', '', s)`: every mention, scanning left to right
   * without overlap, is deleted; every other character is kept.
   */
  function RemoveMentions(s: string): (r: string)
    ensures |r| <= |s|
    decreases |s|
  {
    if s == [] then []
    else
      var n := MentionAt(s);
      if n > 0 then RemoveMentions(s[n..]) else [s[0]] + RemoveMentions(s[1..])
  }

  /** A character that can belong to a mention: `<`, `@`, `!`, `>` or an ASCII digit. */
  predicate MentionChar(c: char) {
    c in {'<', '@', '!', '>'} || IsAsciiDigit(c)
  }

  /** The characters of `s` that no mention can contain, in order. */
  function Plain(s: string): string {
    if s == [] then [] else (if MentionChar(s[0]) then [] else [s[0]]) + Plain(s[1..])
  }

  /**
   * `extract_question`: `None` for empty content, otherwise the content with
   * mentions deleted and whitespace collapsed, or `None` if nothing is left.
   */
  function ExtractQuestion(content: string): Option<string> {
    if content == [] then None
    else
      var cleaned := Collapse(Strip(RemoveMentions(content)));
      if cleaned == [] then None else Some(cleaned)
  }

  /** `is_valid_question`: stripped length in [3, 1000] and an ASCII letter or digit. */
  predicate IsValidQuestion(question: string) {
    && question != []
    && var cleaned := Strip(question);
    && 3 <= |cleaned| <= 1000
    && HasAlnum(cleaned)
  }

  predicate HasAlnum(s: string) {
    exists i :: 0 <= i < |s| && IsAsciiAlnum(s[i])
  }

  // ---------------------------------------------------------------------
  // Response truncation
  // ---------------------------------------------------------------------

  const TruncationIndicator: string := "\n\n*[Response truncated due to Discord's character limit]*"

  const SentenceEndings: seq<string> := [". ", "! ", "? ", "\n\n"]

  /** How far back the cut search looks, in characters. */
  const LookBack: nat := 100

  /**
   * A sentence ending lies wholly inside `t` starting at `pos`
   * (Python `t[pos:pos+2] == ending` for one of the endings). Every ending
   * is two characters long, so whichever one matches, the cut falls at `pos + 2`.
   */
  predicate EndingAt(t: string, pos: int) {
    && 0 <= pos && pos + 2 <= |t|
    && ((t[pos] in {'.', '!', '?'} && t[pos + 1] == ' ') || (t[pos] == '\n' && t[pos + 1] == '\n'))
  }

  /** The character test above is exactly membership of `t[pos:pos+2]` in the endings. */
  lemma EndingAtMatches(t: string, pos: int)
    requires 0 <= pos && pos + 2 <= |t|
    ensures EndingAt(t, pos) <==> t[pos..pos + 2] in SentenceEndings
  {
    var w := t[pos..pos + 2];
    assert w == [t[pos], t[pos + 1]];
    assert SentenceEndings == [['.', ' '], ['!', ' '], ['?', ' '], ['\n', '\n']];
  }

  /**
   * The positions the search of `truncate_response` visits: start positions
   * from `avail` down, at most `min(100, |t|)` of them, none below
   * `0.8 * avail`.
   */
  predicate InWindow(t: string, avail: int, pos: int) {
    && avail - pos < (if LookBack <= |t| then LookBack else |t|)
    && pos <= avail
    && 5 * pos >= 4 * avail
  }

  /** The search loop, from step `i` on: the cut position just after the first ending found. */
  function ScanCut(t: string, avail: int, i: nat): Option<int>
    decreases LookBack - i
  {
    if i >= LookBack || i >= |t| then None
    else
      var pos := avail - i;
      if 5 * pos < 4 * avail then None
      else
        if EndingAt(t, pos) then Some(pos + 2) else ScanCut(t, avail, i + 1)
  }

  /** The body kept by `truncate_response` from the prefix `t` of `avail` characters. */
  function CutBody(t: string, avail: int): string {
    match ScanCut(t, avail, 0)
    case Some(cut) =>
      if 0 <= cut <= |t| then RStrip(t[..cut]) else t
    case None =>
      var words := Words(t);
      if |words| > 1 then Join(words[..|words| - 1], " ") else t
  }

  /** `truncate_response` with the processor's `max_response_length`. */
  function TruncateResponse(maxLength: int, text: string): string {
    if |text| <= maxLength then text
    else
      var avail := maxLength - |TruncationIndicator|;
      CutBody(Take(text, avail), avail) + TruncationIndicator
  }

  const TroubleReply: string := "I'm having trouble processing your question right now. Please try again later! 🔧"

  const NoAnswerReply: string := "I couldn't find a good answer to your question. Could you try rephrasing it? 🤔"

  /**
   * `format_response` of `{'success': success, 'answer': answer}`, with
   * `success` already reduced to its truthiness and a missing answer given as "".
   */
  function FormatResponse(maxLength: int, success: bool, answer: string): (r: string)
    ensures !success ==> r == TroubleReply
    ensures success && answer == [] ==> r == NoAnswerReply
    ensures success && answer != [] ==> r == TruncateResponse(maxLength, answer)
  {
    if !success then TroubleReply
    else if answer == [] then NoAnswerReply
    else TruncateResponse(maxLength, answer)
  }

  // ---------------------------------------------------------------------
  // Properties of extraction and validation
  // ---------------------------------------------------------------------

  /**
   * Deleting mentions only removes characters: the result is drawn from
   * the input, and every character that cannot belong to a mention
   * survives, in order and as often as it occurs.
   */
  lemma {:induction false} RemoveMentionsKeepsPlain(s: string)
    ensures multiset(RemoveMentions(s)) <= multiset(s)
    ensures Plain(RemoveMentions(s)) == Plain(s)
    decreases |s|
  {
    if s != [] {
      var n := MentionAt(s);
      if n > 0 {
        RemoveMentionsKeepsPlain(s[n..]);
        assert s == s[..n] + s[n..];
        MentionIsMentionChars(s);
        PlainSkips(s, n);
      } else {
        RemoveMentionsKeepsPlain(s[1..]);
        var r := RemoveMentions(s);
        assert r == [s[0]] + RemoveMentions(s[1..]);
        assert r[0] == s[0] && r[1..] == RemoveMentions(s[1..]);
        assert s == [s[0]] + s[1..];
      }
    }
  }

  /** A mention is made of mention characters only. */
  lemma MentionIsMentionChars(s: string)
    requires MentionAt(s) > 0
    ensures forall i :: 0 <= i < MentionAt(s) ==> MentionChar(s[i])
  {
    var k := if |s| > 2 && s[2] == '!' then 3 else 2;
    var d := DigitRun(s[k..]);
    assert MentionAt(s) == k + d + 1;
    forall i | 0 <= i < MentionAt(s) ensures MentionChar(s[i]) {
      if k <= i < k + d {
        assert s[i] == s[k..][i - k];
      }
    }
  }

  /** Skipping a run of mention characters changes nothing plain. */
  lemma {:induction false} PlainSkips(s: string, n: nat)
    requires n <= |s|
    requires forall i :: 0 <= i < n ==> MentionChar(s[i])
    ensures Plain(s) == Plain(s[n..])
    decreases n
  {
    if n > 0 {
      PlainSkips(s[1..], n - 1);
      assert s[1..][n - 1..] == s[n..];
    }
  }

  /** A mention at the front of the text is deleted whole. */
  lemma MentionIsRemoved(id: string, nickname: bool, rest: string)
    requires id != [] && forall i :: 0 <= i < |id| ==> IsAsciiDigit(id[i])
    ensures RemoveMentions(MentionText(id, nickname) + rest) == RemoveMentions(rest)
  {
    var m := MentionText(id, nickname);
    var s := m + rest;
    var k := if nickname then 3 else 2;
    assert s[k..] == id + (">" + rest);
    DigitRunOfDigits(id, ">" + rest);
    assert MentionAt(s) == |m|;
    assert s[|m|..] == rest;
  }

  lemma {:induction false} DigitRunOfDigits(id: string, rest: string)
    requires forall i :: 0 <= i < |id| ==> IsAsciiDigit(id[i])
    requires rest != [] && !IsAsciiDigit(rest[0])
    ensures DigitRun(id + rest) == |id|
    decreases |id|
  {
    if id != [] {
      assert (id + rest)[1..] == id[1..] + rest;
      DigitRunOfDigits(id[1..], rest);
    }
  }

  /**
   * `extract_question` gives `None` exactly when the content is empty or is
   * nothing but mentions and whitespace; otherwise the question is
   * non-empty, trimmed, single-spaced, and keeps every visible character
   * of the content outside the mentions, in order.
   */
  lemma ExtractQuestionSpec(content: string)
    ensures ExtractQuestion(content).None? <==> content == [] || AllSpace(RemoveMentions(content))
    ensures ExtractQuestion(content).Some? ==>
      var q := ExtractQuestion(content).value;
      && q != []
      && SingleSpaced(q)
      && Visible(q) == Visible(RemoveMentions(content))
  {
    if content != [] {
      var removed := RemoveMentions(content);
      var stripped := Strip(removed);
      CollapseSpec(stripped);
      StripKeepsVisible(removed);
      AllSpaceOfStrip(removed);
    }
  }

  lemma AllSpaceOfStrip(s: string)
    ensures AllSpace(Strip(s)) <==> AllSpace(s)
  {
  }

  /** Stripping removes only whitespace. */
  lemma StripKeepsVisible(s: string)
    ensures Visible(Strip(s)) == Visible(s)
  {
    var t := RStrip(s);
    var r := LStrip(t);
    SplitAt(s, |t|);
    VisibleAppend(t, s[|t|..]);
    VisibleOfSpaces(s[|t|..]);
    SplitAt(t, |t| - |r|);
    VisibleAppend(t[..|t| - |r|], r);
    VisibleOfSpaces(t[..|t| - |r|]);
  }

  /** Content made of mentions only yields no question. */
  lemma OnlyMentionNoQuestion(id: string, nickname: bool, tail: string)
    requires id != [] && forall i :: 0 <= i < |id| ==> IsAsciiDigit(id[i])
    requires AllSpace(tail)
    ensures ExtractQuestion(MentionText(id, nickname) + tail).None?
  {
    MentionIsRemoved(id, nickname, tail);
    RemoveMentionsOfSpaces(tail);
    ExtractQuestionSpec(MentionText(id, nickname) + tail);
  }

  lemma {:induction false} RemoveMentionsOfSpaces(s: string)
    requires AllSpace(s)
    ensures RemoveMentions(s) == s
    decreases |s|
  {
    if s != [] {
      assert MentionAt(s) == 0 by { PrintableNotSpace('<'); }
      RemoveMentionsOfSpaces(s[1..]);
    }
  }

  /**
   * Deletion is a single pass: a mention assembled from the pieces left
   * around an inner mention survives it, as `<@<@1>2>` becomes `<@2>`.
   */
  lemma RemovalIsSinglePass(inner: string, outer: string)
    requires inner != [] && forall i :: 0 <= i < |inner| ==> IsAsciiDigit(inner[i])
    requires forall i :: 0 <= i < |outer| ==> IsAsciiDigit(outer[i])
    ensures RemoveMentions("<@" + (MentionText(inner, false) + (outer + ">"))) == "<@" + (outer + ">")
  {
    var tail := outer + ">";
    var m := MentionText(inner, false);
    assert (m + tail)[0] == '<';
    KeepsLoneOpening(m + tail);
    MentionIsRemoved(inner, false, tail);
    forall i | 0 <= i < |tail| ensures tail[i] != '<' {
      if i < |outer| {
        assert tail[i] == outer[i];
      }
    }
    NoOpeningKept(tail);
  }

  /** Text without a `<` holds no mention and is kept whole. */
  lemma {:induction false} NoOpeningKept(s: string)
    requires forall i :: 0 <= i < |s| ==> s[i] != '<'
    ensures RemoveMentions(s) == s
    decreases |s|
  {
    if s != [] {
      KeptHead(s);
      NoOpeningKept(s[1..]);
    }
  }

  /** An opening `<@` followed by neither a digit nor `!` starts no mention, so it is kept. */
  lemma KeepsLoneOpening(rest: string)
    requires rest != [] && rest[0] != '!' && !IsAsciiDigit(rest[0])
    ensures RemoveMentions("<@" + rest) == "<@" + RemoveMentions(rest)
  {
    var s := "<@" + rest;
    assert s[2..] == rest && s[2] == rest[0];
    assert DigitRun(s[2..]) == 0;
    assert MentionAt(s) == 0;
    KeptHead(s);
    var s1 := s[1..];
    assert s1 == "@" + rest && s1[1..] == rest;
    assert s1[0] == '@' && MentionAt(s1) == 0;
    KeptHead(s1);
  }

  /** A first character that starts no mention is kept. */
  lemma KeptHead(s: string)
    requires s != [] && MentionAt(s) == 0
    ensures RemoveMentions(s) == [s[0]] + RemoveMentions(s[1..])
  {
  }

  /**
   * For an extracted question the validity check reduces to its length and
   * to a letter or digit somewhere in the content outside the mentions.
   */
  lemma ValidExtractedQuestion(content: string)
    requires ExtractQuestion(content).Some?
    ensures var q := ExtractQuestion(content).value;
      IsValidQuestion(q) <==> 3 <= |q| <= 1000 && HasAlnum(RemoveMentions(content))
  {
    var q := ExtractQuestion(content).value;
    ExtractQuestionSpec(content);
    StripOfTrimmed(q);
    HasAlnumVisible(q);
    HasAlnumVisible(RemoveMentions(content));
  }

  /** Letters and digits are visible characters. */
  lemma {:induction false} HasAlnumVisible(s: string)
    ensures HasAlnum(s) <==> HasAlnum(Visible(s))
    decreases |s|
  {
    if s != [] {
      HasAlnumVisible(s[1..]);
      var head := if IsSpace(s[0]) then [] else [s[0]];
      assert Visible(s) == head + Visible(s[1..]);
      HasAlnumAppend(head, Visible(s[1..]));
      assert s == [s[0]] + s[1..];
      HasAlnumAppend([s[0]], s[1..]);
      if IsAsciiAlnum(s[0]) {
        PrintableNotSpace(s[0]);
      }
      assert HasAlnum([s[0]]) <==> IsAsciiAlnum(s[0]) by {
        if HasAlnum([s[0]]) {
          var i :| 0 <= i < 1 && IsAsciiAlnum([s[0]][i]);
        }
      }
    }
  }

  /** A concatenation holds a letter or digit exactly when one of its parts does. */
  lemma HasAlnumAppend(a: string, b: string)
    ensures HasAlnum(a + b) <==> HasAlnum(a) || HasAlnum(b)
  {
    if HasAlnum(a + b) {
      var i :| 0 <= i < |a + b| && IsAsciiAlnum((a + b)[i]);
      if i < |a| {
        assert a[i] == (a + b)[i];
      } else {
        assert b[i - |a|] == (a + b)[i];
      }
    }
    if HasAlnum(a) {
      var i :| 0 <= i < |a| && IsAsciiAlnum(a[i]);
      assert (a + b)[i] == a[i];
    }
    if HasAlnum(b) {
      var i :| 0 <= i < |b| && IsAsciiAlnum(b[i]);
      assert (a + b)[|a| + i] == b[i];
    }
  }

  // ---------------------------------------------------------------------
  // Properties of truncation
  // ---------------------------------------------------------------------

  /** Text within the limit is returned unchanged. */
  lemma TruncateShortIsIdentity(maxLength: int, text: string)
    requires |text| <= maxLength
    ensures TruncateResponse(maxLength, text) == text
  {
  }

  /**
   * What the search from step `i` promises of its outcome: a cut just after
   * an ending at or below `avail - i` with no ending between it and
   * `avail - i`, or no ending at any of those window positions.
   */
  ghost predicate Found(t: string, avail: int, i: nat, found: Option<int>) {
    match found
    case Some(cut) =>
      && InWindow(t, avail, cut - 2) && avail - (cut - 2) >= i
      && EndingAt(t, cut - 2) && cut <= |t|
      && forall p :: cut - 2 < p <= avail - i && InWindow(t, avail, p) ==> !EndingAt(t, p)
    case None =>
      forall p :: p <= avail - i && InWindow(t, avail, p) ==> !EndingAt(t, p)
  }

  /**
   * The cut search finds the largest position of the window holding a
   * sentence ending, and cuts just after that ending; it finds nothing
   * exactly when no position of the window holds one.
   */
  lemma {:induction false} ScanCutSpec(t: string, avail: int, i: nat)
    requires avail >= 0 && |t| == avail
    ensures Found(t, avail, i, ScanCut(t, avail, i))
    decreases LookBack - i
  {
    if i >= LookBack || i >= |t| {
      assert ScanCut(t, avail, i) == None;
    } else {
      var pos := avail - i;
      if 5 * pos < 4 * avail {
        assert ScanCut(t, avail, i) == None;
      } else if EndingAt(t, pos) {
        assert ScanCut(t, avail, i) == Some(pos + 2);
        assert InWindow(t, avail, pos);
      } else {
        assert ScanCut(t, avail, i) == ScanCut(t, avail, i + 1);
        ScanCutSpec(t, avail, i + 1);
        ScanCutStep(t, avail, i, ScanCut(t, avail, i + 1));
      }
    }
  }

  /** A position without an ending extends what the search from the next step says. */
  lemma ScanCutStep(t: string, avail: int, i: nat, found: Option<int>)
    requires avail >= 0 && |t| == avail && i < |t| && !EndingAt(t, avail - i)
    requires Found(t, avail, i + 1, found)
    ensures Found(t, avail, i, found)
  {
  }

  /**
   * The body kept from a prefix of `avail` characters is never longer than
   * the prefix. When the search finds a cut, it is just after the last
   * sentence ending of the window and the body is the prefix up to it with
   * trailing whitespace removed; when it finds none, no position of the
   * window holds an ending.
   */
  lemma CutBodySpec(t: string, avail: int)
    requires avail >= 0 && |t| == avail
    ensures |CutBody(t, avail)| <= |t|
    ensures ScanCut(t, avail, 0).Some? ==>
      var cut := ScanCut(t, avail, 0).value;
      && InWindow(t, avail, cut - 2) && EndingAt(t, cut - 2)
      && (forall p :: cut - 2 < p && InWindow(t, avail, p) ==> !EndingAt(t, p))
      && CutBody(t, avail) == RStrip(t[..cut])
    ensures ScanCut(t, avail, 0).None? ==>
      forall p :: InWindow(t, avail, p) ==> !EndingAt(t, p)
    ensures ScanCut(t, avail, 0).None? && |Words(t)| > 1 ==>
      Words(CutBody(t, avail)) == Words(t)[..|Words(t)| - 1]
    ensures ScanCut(t, avail, 0).None? && |Words(t)| <= 1 ==> CutBody(t, avail) == t
  {
    ScanCutSpec(t, avail, 0);
    CutBodyNoLonger(t, avail);
    var words := Words(t);
    if ScanCut(t, avail, 0).None? && |words| > 1 {
      WordsOfJoin(words[..|words| - 1]);
    }
  }

  /**
   * Text over the limit, with a limit that leaves room for the indicator,
   * comes back within the limit, ending in the indicator, after the body
   * kept from the first `limit - 57` characters.
   */
  lemma TruncateLongSpec(maxLength: int, text: string)
    requires |text| > maxLength >= |TruncationIndicator|
    ensures var r := TruncateResponse(maxLength, text);
      var avail := maxLength - |TruncationIndicator|;
      && |TruncationIndicator| <= |r| <= maxLength
      && r[|r| - |TruncationIndicator|..] == TruncationIndicator
      && r[..|r| - |TruncationIndicator|] == CutBody(text[..avail], avail)
  {
    var ind := TruncationIndicator;
    var avail := maxLength - |ind|;
    var t := Take(text, avail);
    assert t == text[..avail];
    var body := CutBody(t, avail);
    CutBodyNoLonger(t, avail);
    assert TruncateResponse(maxLength, text) == body + ind;
    var r := body + ind;
    assert r[..|body|] == body;
    assert r[|body|..] == ind;
  }

  /**
   * As written, a limit shorter than the indicator (which the configuration
   * accepts, since it only asks for a positive limit) gives an over-long
   * text a reply longer than the limit: the indicator alone outgrows it.
   */
  lemma SmallLimitOverflows(maxLength: int, text: string)
    requires 0 < maxLength < |TruncationIndicator| < |text|
    ensures |TruncateResponse(maxLength, text)| > maxLength
  {
    var avail := maxLength - |TruncationIndicator|;
    assert TruncateResponse(maxLength, text) == CutBody(Take(text, avail), avail) + TruncationIndicator;
  }

  /**
   * Truncation as intended: a reply never longer than the limit. For a limit
   * shorter than the indicator the text is simply cut to the limit;
   * otherwise it is `truncate_response` itself.
   */
  function TruncateWithinLimit(maxLength: nat, text: string): (r: string)
    ensures |text| <= maxLength ==> r == text
    ensures |r| <= maxLength
    ensures maxLength >= |TruncationIndicator| ==> r == TruncateResponse(maxLength, text)
    ensures maxLength < |TruncationIndicator| ==> StartsWith(text, r)
  {
    if |text| <= maxLength then text
    else if maxLength < |TruncationIndicator| then text[..maxLength]
    else
      TruncateLongSpec(maxLength, text);
      TruncateResponse(maxLength, text)
  }

  /** The kept body never outgrows the prefix it is cut from. */
  lemma CutBodyNoLonger(t: string, avail: int)
    requires avail >= 0 && |t| == avail
    ensures |CutBody(t, avail)| <= |t|
  {
    var sc := ScanCut(t, avail, 0);
    if sc.None? {
      var words := Words(t);
      if |words| > 1 {
        JoinWordsNoLonger(t, |words| - 1);
      }
    }
  }

  /** The indicator is 57 characters long. */
  lemma IndicatorLength()
    ensures |TruncationIndicator| == 57
  {
  }
}

=== FILE: middleware.dfy ===
/**
 * The Flask side of the shared rate limit: which endpoints are limited, the
 * 429 response a denied request gets, the before- and after-request hooks,
 * and the per-route decorator.
 */
module RateLimitMiddleware {
  import opened Text
  import opened Wrappers
  import opened Numerals
  import RateLimiter
  import UserMapper

  // ---------------------------------------------------------------------
  // Requests and responses
  // ---------------------------------------------------------------------

  /** The endpoints that share the one-question-per-window limit. */
  const RateLimitedEndpoints: set<string> := {"query_documents", "create_chat_session", "chat_query"}

  /**
   * An incoming request as the hooks see it: the matched endpoint (absent
   * when no route matched), the method, the header fields in the order the
   * WSGI environment lists them, names as the client sent them, and the
   * peer address.
   */
  datatype HttpRequest = HttpRequest(
    endpoint: Option<string>,
    httpMethod: string,
    headers: seq<(string, string)>,
    remoteAddr: Option<string>)

  /**
   * `dict(request_obj.headers)`: werkzeug yields each field under its name
   * passed through `str.title()`, and a later field overwrites an earlier
   * one of the same name.
   */
  function HeaderDict(fields: seq<(string, string)>): (d: map<string, string>)
    ensures forall j :: 0 <= j < |fields| ==> Title(fields[j].0) in d
    ensures forall k :: k in d ==> TitleShaped(k)
  {
    if fields == [] then map[]
    else
      var init := fields[..|fields| - 1];
      var last := fields[|fields| - 1];
      var d := HeaderDict(init);
      TitleIsShaped(last.0);
      assert forall j :: 0 <= j < |init| ==> init[j] == fields[j];
      d[Title(last.0) := last.1]
  }

  /** `X-User-ID` and `X-Real-IP` end in two capitals, a shape `title()` never gives. */
  lemma IdentityHeadersUnreachable(d: map<string, string>)
    requires forall k :: k in d ==> TitleShaped(k)
    ensures "X-User-ID" !in d && "X-Real-IP" !in d
  {
    var user := "X-User-ID";
    assert IsAsciiLetter(user[7]) && 'A' <= user[8] <= 'Z';
    assert !TitleShaped(user);
    var realIp := "X-Real-IP";
    assert IsAsciiLetter(realIp[7]) && 'A' <= realIp[8] <= 'Z';
    assert !TitleShaped(realIp);
  }

  /** The JSON body of a response: the 429 payload, or whatever the route produced. */
  datatype Body =
    | Denial(error: string, message: string, retryAfter: int, resetTime: real, kind: string)
    | Payload(content: string)

  /**
   * Response header names: the four the limit writes, and any other header
   * a route sets, which never uses one of those four names.
   */
  datatype Header = RateLimitLimit | RateLimitRemaining | RateLimitReset | RetryAfter | Other(name: string)

  datatype Response = Response(status: int, body: Body, headers: map<Header, string>)

  /** What the before-request hook leaves in Flask's `g` for the after-request hook. */
  datatype Stored = Stored(result: RateLimiter.RateLimitResult, userId: string)

  /** `_should_rate_limit_endpoint`: only a named endpoint of the limited set. */
  predicate ShouldRateLimit(endpoint: Option<string>) {
    endpoint.Some? && endpoint.value != [] && endpoint.value in RateLimitedEndpoints
  }

  /**
   * `_get_user_identifier`: the web identity's rate-limit key. The request
   * object has no `session` attribute, so the session is always empty. A
   * missing peer address becomes "unknown", the same fallback the identity
   * mapping applies to an empty one.
   */
  function UserIdentifier(request: HttpRequest): (r: string)
    ensures r == UserMapper.RateLimitKey(UserMapper.WebIdentity(
      UserMapper.WebRequest(HeaderDict(request.headers), map[], request.remoteAddr.GetOr(""))))
    ensures r != []
  {
    var headers := HeaderDict(request.headers);
    var remote := if request.remoteAddr.Some? && request.remoteAddr.value != [] then request.remoteAddr.value else "unknown";
    UserMapper.KeysNonEmpty(UserMapper.WebRequest(headers, map[], remote), "");
    UserMapper.RateLimitKey(UserMapper.WebIdentity(UserMapper.WebRequest(headers, map[], remote)))
  }

  /**
   * Because of the title-casing, the hook never sees `X-User-ID` or
   * `X-Real-IP`: every request is keyed as an anonymous web user, by the
   * first `X-Forwarded-For` entry, else the peer address, else "unknown".
   */
  lemma HookKeysByAddress(request: HttpRequest)
    ensures var forwarded := Strip(UserMapper.FirstField(MapGet(HeaderDict(request.headers), "X-Forwarded-For", "")));
      var remote := if request.remoteAddr.Some? && request.remoteAddr.value != [] then request.remoteAddr.value else "unknown";
      UserIdentifier(request)
        == UserMapper.UnifiedUserId("web", if forwarded != [] then forwarded else remote, UserMapper.Anonymous)
  {
    var d := HeaderDict(request.headers);
    IdentityHeadersUnreachable(d);
    var w := UserMapper.WebRequest(d, map[], request.remoteAddr.GetOr(""));
    assert MapGet(d, "X-User-ID", "") == [];
    assert MapGet(d, "X-Real-IP", "") == [];
    var id := UserMapper.WebIdentity(w);
    assert id.userType == UserMapper.Anonymous && id.platformUserId == UserMapper.RealIp(w);
  }

  const DenialError: string := "Rate limit exceeded"
  const DenialKind: string := "rate_limit"
  const WaitHead: string := "Please wait "
  const WaitTail: string := " seconds before asking another question"

  /** The three headers every limited response carries. */
  function LimitHeaders(headers: map<Header, string>, result: RateLimiter.RateLimitResult): map<Header, string> {
    headers[RateLimitLimit := "1"][RateLimitRemaining := "0"][RateLimitReset := IntToString(RateLimiter.Trunc(result.resetTime))]
  }

  /** The text of a header name on the wire. */
  function HeaderName(h: Header): string {
    match h
    case RateLimitLimit => "X-RateLimit-Limit"
    case RateLimitRemaining => "X-RateLimit-Remaining"
    case RateLimitReset => "X-RateLimit-Reset"
    case RetryAfter => "Retry-After"
    case Other(name) => name
  }

  /** `_create_rate_limit_response`: status 429, the JSON payload and four headers. */
  function DenialResponse(result: RateLimiter.RateLimitResult): (r: Response)
    ensures r.status == 429
    ensures r.body == Denial(DenialError, WaitHead + (IntToString(result.remainingSeconds) + WaitTail),
                             result.remainingSeconds, result.resetTime, DenialKind)
    ensures r.headers.Keys == {RateLimitLimit, RateLimitRemaining, RateLimitReset, RetryAfter}
    ensures r.headers[RateLimitLimit] == "1" && r.headers[RateLimitRemaining] == "0"
  {
    var n := result.remainingSeconds;
    Response(429,
      Denial(DenialError, WaitHead + (IntToString(n) + WaitTail), n, result.resetTime, DenialKind),
      LimitHeaders(map[], result)[RetryAfter := IntToString(n)])
  }

  // ---------------------------------------------------------------------
  // Hooks
  // ---------------------------------------------------------------------

  /** The outcome of the before-request hook. */
  datatype BeforeOutcome = BeforeOutcome(
    reply: Option<Response>,
    stored: Option<Stored>,
    store: RateLimiter.Store)

  /**
   * `_before_request_handler`: `reply` is the response that short-circuits
   * the route, `None` to let it run. Unlimited endpoints and CORS preflight
   * requests pass untouched; a limiter that raises lets the request through.
   */
  function Before(config: RateLimiter.RateLimitConfig, store: RateLimiter.Store, request: HttpRequest, now: real)
    : (r: BeforeOutcome)
    ensures !ShouldRateLimit(request.endpoint) || request.httpMethod == "OPTIONS" ==>
      r == BeforeOutcome(None, None, store)
    ensures r.reply.Some? ==>
      r.stored.Some? && !r.stored.value.result.allowed && r.reply == Some(DenialResponse(r.stored.value.result))
    ensures r.stored.Some? ==> r.reply.None? == r.stored.value.result.allowed
  {
    if !ShouldRateLimit(request.endpoint) then BeforeOutcome(None, None, store)
    else if request.httpMethod == "OPTIONS" then BeforeOutcome(None, None, store)
    else
      var userId := UserIdentifier(request);
      match RateLimiter.Check(config, store, userId, None, now)
      case Err(_) => BeforeOutcome(None, None, store)
      case Ok((result, after)) =>
        var stored := Some(Stored(result, userId));
        if !result.allowed then BeforeOutcome(Some(DenialResponse(result)), stored, after)
        else BeforeOutcome(None, stored, after)
  }

  /**
   * `_after_request_handler`: on a limited endpoint with a stored result
   * for a non-empty user, add the limit headers; anything else comes back
   * as it went in.
   */
  function After(request: HttpRequest, stored: Option<Stored>, response: Response): (r: Response)
    ensures r.status == response.status && r.body == response.body
    ensures forall h :: h in response.headers && h !in {RateLimitLimit, RateLimitRemaining, RateLimitReset} ==>
      h in r.headers && r.headers[h] == response.headers[h]
    ensures stored.None? || stored.value.userId == [] ==> r == response
  {
    if !ShouldRateLimit(request.endpoint) then response
    else if stored.Some? && stored.value.userId != [] then
      response.(headers := LimitHeaders(response.headers, stored.value.result))
    else response
  }

  // ---------------------------------------------------------------------
  // The decorator
  // ---------------------------------------------------------------------

  /** One invocation of the wrapped route: a response, or an exception. */
  datatype Outcome = Returned(response: Response) | Raised

  /**
   * `rate_limit_required` as written. `route(k)` is what the `k`-th call of
   * the wrapped route gives; the result carries how many times the route
   * ran, and the store afterwards. The limiter cannot raise here: the key is
   * never empty and store errors fail open inside the check. So the
   * `except` clause, meant to fail open when the limiter raises, only ever
   * catches an exception from the route itself, and then runs the route a
   * second time.
   */
  function DecoratedAsWritten(config: RateLimiter.RateLimitConfig, store: RateLimiter.Store, request: HttpRequest,
                              now: real, route: nat -> Outcome)
    : (r: (Outcome, nat, RateLimiter.Store))
    ensures r.1 <= 2
  {
    var (result, after) := RateLimiter.Check(config, store, UserIdentifier(request), None, now).value;
    if !result.allowed then (Returned(DenialResponse(result)), 0, after)
    else
      match route(0)
      case Returned(response) =>
        (Returned(response.(headers := LimitHeaders(response.headers, result))), 1, after)
      case Raised => (route(1), 2, after)
  }

  /**
   * The decorator with the fail-open `except` around the limiter only: the
   * route runs at most once, and its own exception propagates.
   */
  function Decorated(config: RateLimiter.RateLimitConfig, store: RateLimiter.Store, request: HttpRequest,
                     now: real, route: nat -> Outcome)
    : (r: (Outcome, nat, RateLimiter.Store))
    ensures r.1 <= 1
    ensures route(0) == Raised && r.1 == 1 ==> r.0 == Raised
  {
    var (result, after) := RateLimiter.Check(config, store, UserIdentifier(request), None, now).value;
    if !result.allowed then (Returned(DenialResponse(result)), 0, after)
    else
      match route(0)
      case Returned(response) =>
        (Returned(response.(headers := LimitHeaders(response.headers, result))), 1, after)
      case Raised => (Raised, 1, after)
  }

  // ---------------------------------------------------------------------
  // Properties
  // ---------------------------------------------------------------------

  /** Exactly the three endpoints are limited; a missing or empty endpoint never is. */
  lemma LimitedEndpoints(endpoint: Option<string>)
    ensures ShouldRateLimit(endpoint) <==>
      endpoint == Some("query_documents") || endpoint == Some("create_chat_session") || endpoint == Some("chat_query")
  {
  }

  /** The reset and retry headers of a 429 read back as the reset second and the wait. */
  lemma DenialHeadersReadBack(result: RateLimiter.RateLimitResult)
    ensures var h := DenialResponse(result).headers;
      && ParseInt(h[RateLimitReset]) == Some(RateLimiter.Trunc(result.resetTime))
      && ParseInt(h[RetryAfter]) == Some(DenialResponse(result).body.retryAfter)
  {
    var h := DenialResponse(result).headers;
    var reset := IntToString(RateLimiter.Trunc(result.resetTime));
    var wait := IntToString(result.remainingSeconds);
    assert h[RateLimitReset] == reset && h[RetryAfter] == wait;
    IntRoundTrip(RateLimiter.Trunc(result.resetTime));
    IntRoundTrip(result.remainingSeconds);
  }

  /** The 429 message reads back as the wait in the `retry_after` field. */
  lemma DenialMessageNamesWait(result: RateLimiter.RateLimitResult)
    ensures var m := DenialResponse(result).body.message;
      var digits := IntToString(result.remainingSeconds);
      && StartsWith(m, WaitHead)
      && OccursAt(m, digits, |WaitHead|)
      && ParseInt(m[|WaitHead|..|WaitHead| + |digits|]) == Some(DenialResponse(result).body.retryAfter)
  {
    var digits := IntToString(result.remainingSeconds);
    var m := WaitHead + (digits + WaitTail);
    assert m[|WaitHead|..] == digits + WaitTail;
    assert m[|WaitHead|..|WaitHead| + |digits|] == digits;
    IntRoundTrip(result.remainingSeconds);
  }

  /**
   * On a limited endpoint the hook consults the limiter once with the
   * request's web identity: a denial becomes the 429 response, and an
   * allowed request runs the route with the verdict kept for the after hook.
   */
  lemma BeforeFollowsLimiter(config: RateLimiter.RateLimitConfig, store: RateLimiter.Store, request: HttpRequest, now: real)
    requires ShouldRateLimit(request.endpoint) && request.httpMethod != "OPTIONS"
    ensures var c := RateLimiter.Check(config, store, UserIdentifier(request), None, now);
      var b := Before(config, store, request, now);
      && c.Ok?
      && b.store == c.value.1
      && b.stored == Some(Stored(c.value.0, UserIdentifier(request)))
      && (b.reply.Some? <==> !c.value.0.allowed)
  {
  }

  /** A store that is down lets every limited request through, with nothing to wait. */
  lemma BeforeFailsOpen(config: RateLimiter.RateLimitConfig, store: RateLimiter.Store, request: HttpRequest, now: real)
    requires !store.up
    ensures var b := Before(config, store, request, now);
      b.reply.None? && b.store == store && (b.stored.Some? ==> b.stored.value.result.remainingSeconds == 0)
  {
  }

  /** Two requests from the same address to a limited endpoint at the same moment: the second gets the 429. */
  lemma SecondRequestDenied(config: RateLimiter.RateLimitConfig, store: RateLimiter.Store, request: HttpRequest, now: real)
    requires ShouldRateLimit(request.endpoint) && request.httpMethod != "OPTIONS"
    requires store.up && config.defaultLimitSeconds > 0
    requires Before(config, store, request, now).reply.None?
    ensures Before(config, Before(config, store, request, now).store, request, now).reply.Some?
  {
    var userId := UserIdentifier(request);
    RateLimiter.DeniedWithinWindow(config, store, userId, None, now, now);
  }

  /** After an allowed request the after hook adds the limit headers, with the moment the window closes. */
  lemma AfterReportsReset(config: RateLimiter.RateLimitConfig, store: RateLimiter.Store, request: HttpRequest,
                          now: real, response: Response)
    requires ShouldRateLimit(request.endpoint) && request.httpMethod != "OPTIONS"
    requires store.up && config.defaultLimitSeconds > 0
    requires Before(config, store, request, now).reply.None?
    ensures var r := After(request, Before(config, store, request, now).stored, response);
      && r.headers == LimitHeaders(response.headers, Before(config, store, request, now).stored.value.result)
      && Before(config, store, request, now).stored.value.result.resetTime == now + config.defaultLimitSeconds as real
  {
  }

  /** The limit headers say one request per window and none left, and keep every other header. */
  lemma LimitHeadersContent(headers: map<Header, string>, result: RateLimiter.RateLimitResult)
    ensures var h := LimitHeaders(headers, result);
      && h[RateLimitLimit] == "1" && h[RateLimitRemaining] == "0"
      && forall k :: k in headers && k !in {RateLimitLimit, RateLimitRemaining, RateLimitReset} ==> k in h && h[k] == headers[k]
  {
  }

  /** The reset header reads back as the second the window closes, truncated. */
  lemma LimitResetReadsBack(headers: map<Header, string>, result: RateLimiter.RateLimitResult)
    ensures ParseInt(LimitHeaders(headers, result)[RateLimitReset]) == Some(RateLimiter.Trunc(result.resetTime))
  {
    var reset := IntToString(RateLimiter.Trunc(result.resetTime));
    assert LimitHeaders(headers, result)[RateLimitReset] == reset;
    IntRoundTrip(RateLimiter.Trunc(result.resetTime));
  }

  /** Responses of endpoints that are not limited leave the after hook unchanged. */
  lemma AfterIgnoresOtherEndpoints(request: HttpRequest, stored: Option<Stored>, response: Response)
    requires !ShouldRateLimit(request.endpoint)
    ensures After(request, stored, response) == response
  {
  }

  /** A denied request gets the same 429 from the decorator as from the hook, and the route does not run. */
  lemma DecoratorDeniesLikeHook(config: RateLimiter.RateLimitConfig, store: RateLimiter.Store, request: HttpRequest,
                                now: real, route: nat -> Outcome)
    requires ShouldRateLimit(request.endpoint) && request.httpMethod != "OPTIONS"
    ensures var b := Before(config, store, request, now);
      var d := Decorated(config, store, request, now, route);
      && (b.reply.Some? <==> d.1 == 0)
      && (b.reply.Some? ==> d.0 == Returned(b.reply.value) && d.2 == b.store)
  {
  }

  /**
   * As written, a route that raises on an allowed request runs twice, and
   * the caller gets whatever the second run gives.
   */
  lemma RaisingRouteRunsTwice(config: RateLimiter.RateLimitConfig, store: RateLimiter.Store, request: HttpRequest,
                              now: real, route: nat -> Outcome)
    requires RateLimiter.Check(config, store, UserIdentifier(request), None, now).value.0.allowed
    requires route(0) == Raised
    ensures var after := RateLimiter.Check(config, store, UserIdentifier(request), None, now).value.1;
      DecoratedAsWritten(config, store, request, now, route) == (route(1), 2, after)
  {
  }

  /** Corrected, the route runs once and its exception reaches the caller. */
  lemma RaisingRouteRunsOnce(config: RateLimiter.RateLimitConfig, store: RateLimiter.Store, request: HttpRequest,
                             now: real, route: nat -> Outcome)
    requires RateLimiter.Check(config, store, UserIdentifier(request), None, now).value.0.allowed
    requires route(0) == Raised
    ensures var after := RateLimiter.Check(config, store, UserIdentifier(request), None, now).value.1;
      Decorated(config, store, request, now, route) == (Raised, 1, after)
  {
  }

  /** The two versions agree whenever the route does not raise. */
  lemma DecoratedAgreesUnlessRouteRaises(config: RateLimiter.RateLimitConfig, store: RateLimiter.Store,
                                         request: HttpRequest, now: real, route: nat -> Outcome)
    requires route(0).Returned?
    ensures Decorated(config, store, request, now, route) == DecoratedAsWritten(config, store, request, now, route)
  {
  }
}

=== FILE: numerals.dfy ===
/**
 * Decimal text for integers: Python's `str(n)` for an `int`, and the
 * accepting side of `int(s)` and `float(s)` on the plain decimal forms the
 * configuration and the messages use.
 */
module Numerals {
  import opened Text
  import opened Wrappers

  function DigitChar(d: nat): (c: char)
    requires d < 10
    ensures IsAsciiDigit(c) && c as int - '0' as int == d
  {
    ('0' as int + d) as char
  }

  function DigitValue(c: char): nat
    requires IsAsciiDigit(c)
  {
    c as int - '0' as int
  }

  predicate AllDigits(s: string) {
    forall i :: 0 <= i < |s| ==> IsAsciiDigit(s[i])
  }

  /** Python `str(n)` for `n >= 0`: no sign, no leading zero. */
  function NatToString(n: nat): (s: string)
    ensures s != [] && AllDigits(s)
    ensures |s| > 1 ==> s[0] != '0'
  {
    if n < 10 then [DigitChar(n)] else NatToString(n / 10) + [DigitChar(n % 10)]
  }

  /** Python `str(n)`. */
  function IntToString(n: int): string {
    if n < 0 then "-" + NatToString(-n) else NatToString(n)
  }

  /** The number a string of decimal digits denotes, most significant first. */
  function DigitsValue(s: string): nat
    requires AllDigits(s)
  {
    if s == [] then 0 else DigitsValue(s[..|s| - 1]) * 10 + DigitValue(s[|s| - 1])
  }

  lemma {:induction false} NatToStringRoundTrip(n: nat)
    ensures DigitsValue(NatToString(n)) == n
  {
    if n >= 10 {
      var s := NatToString(n);
      var p := NatToString(n / 10);
      assert s == p + [DigitChar(n % 10)];
      assert s[..|s| - 1] == p;
      NatToStringRoundTrip(n / 10);
    }
  }

  /**
   * Digits in groups separated by single underscores, as Python's `int()`
   * accepts them (`1_000`), with no leading, trailing or doubled underscore.
   */
  predicate DigitGroups(s: string) {
    && s != []
    && IsAsciiDigit(s[0]) && IsAsciiDigit(s[|s| - 1])
    && (forall i :: 0 <= i < |s| ==> IsAsciiDigit(s[i]) || s[i] == '_')
    && (forall i :: 0 <= i < |s| - 1 ==> !(s[i] == '_' && s[i + 1] == '_'))
  }

  function DropUnderscores(s: string): (r: string)
    requires forall i :: 0 <= i < |s| ==> IsAsciiDigit(s[i]) || s[i] == '_'
    ensures AllDigits(r)
  {
    if s == [] then []
    else (if s[0] == '_' then [] else [s[0]]) + DropUnderscores(s[1..])
  }

  lemma {:induction false} DropUnderscoresOfDigits(s: string)
    requires AllDigits(s)
    ensures DropUnderscores(s) == s
  {
    if s != [] {
      DropUnderscoresOfDigits(s[1..]);
    }
  }

  /** Python `int(s)` on a string: `Some(value)`, or `None` where `int` raises `ValueError`. */
  function ParseInt(s: string): Option<int> {
    ParseSigned(Strip(s))
  }

  /** An optional sign followed by digit groups. */
  function ParseSigned(t: string): Option<int> {
    if t != [] && t[0] == '-' then
      match ParseMagnitude(t[1..])
      case Some(m) => Some(-(m as int))
      case None => None
    else if t != [] && t[0] == '+' then
      match ParseMagnitude(t[1..])
      case Some(m) => Some(m as int)
      case None => None
    else
      match ParseMagnitude(t)
      case Some(m) => Some(m as int)
      case None => None
  }

  function ParseMagnitude(body: string): Option<nat> {
    if DigitGroups(body) then Some(DigitsValue(DropUnderscores(body))) else None
  }

  lemma SignedOfDigits(digits: string)
    requires digits != [] && AllDigits(digits)
    ensures ParseSigned(digits) == Some(DigitsValue(digits) as int)
    ensures ParseSigned("-" + digits) == Some(-(DigitsValue(digits) as int))
  {
    DropUnderscoresOfDigits(digits);
    assert ("-" + digits)[1..] == digits;
  }

  /** `int()` of a plain run of digits is the number they denote. */
  lemma ParseDigits(s: string)
    requires s != [] && AllDigits(s)
    ensures ParseInt(s) == Some(DigitsValue(s) as int)
  {
    SignedOfDigits(s);
    PrintableNotSpace(s[0]);
    PrintableNotSpace(s[|s| - 1]);
    StripOfTrimmed(s);
  }

  /** Rendering an integer and parsing it back gives the integer. */
  lemma IntRoundTrip(n: int)
    ensures ParseInt(IntToString(n)) == Some(n)
  {
    var m := if n < 0 then -n else n;
    var digits := NatToString(m);
    NatToStringRoundTrip(m);
    SignedOfDigits(digits);
    var s := IntToString(n);
    assert s == (if n < 0 then "-" + digits else digits);
    PrintableNotSpace(s[0]);
    PrintableNotSpace(s[|s| - 1]);
    StripOfTrimmed(s);
  }

  /** `int(os.getenv(name, str(default)))`: `None` where `int` raises. */
  function EnvInt(env: map<string, string>, name: string, default: int): (r: Option<int>)
    ensures name in env ==> r == ParseInt(env[name])
    ensures name !in env ==> r == Some(default)
  {
    IntRoundTrip(default);
    ParseInt(MapGet(env, name, IntToString(default)))
  }

  /**
   * Python `float(s)` on the plain decimal forms `d`, `d.`, `.d` and `d.d`,
   * with an optional sign and surrounding whitespace; `None` for anything else.
   */
  function ParseDecimal(s: string): Option<real> {
    var t := Strip(s);
    var negative := t != [] && t[0] == '-';
    var body := if t != [] && (t[0] == '-' || t[0] == '+') then t[1..] else t;
    var dot := IndexOf(body, '.');
    var whole := body[..dot];
    var frac := if dot < |body| then body[dot + 1..] else [];
    if (whole != [] || frac != []) && AllDigits(whole) && AllDigits(frac) then
      var magnitude: real := DigitsValue(whole) as real + DigitsValue(frac) as real / Pow10(|frac|) as real;
      Some(if negative then -magnitude else magnitude)
    else None
  }

  function Pow10(k: nat): (p: nat)
    ensures p >= 1
  {
    if k == 0 then 1 else 10 * Pow10(k - 1)
  }

  function Pow2(k: nat): (p: nat)
    ensures p >= 1
  {
    if k == 0 then 1 else 2 * Pow2(k - 1)
  }
}

=== FILE: rate_limiter.dfy ===
/**
 * The backend's per-user rate limiter over a Redis-like key-value store.
 *
 * Timestamps are seconds as reals, the way `time.time()` returns them; the
 * clock reading is a parameter of every operation. The store is a map from
 * keys to the stored timestamp and the moment the key's TTL runs out; a key
 * is visible while the clock is before that moment, which is how Redis
 * expiry looks to a client. A store that is down makes every command raise
 * a Redis error.
 */
module RateLimiter {
  import opened Text
  import opened Wrappers
  import opened Numerals

  // ---------------------------------------------------------------------
  // Configuration
  // ---------------------------------------------------------------------

  const DefaultLimitSeconds: int := 60
  const DefaultKeyPrefix: string := "askracha:ratelimit"

  datatype RateLimitConfig = RateLimitConfig(
    defaultLimitSeconds: int,
    redisHost: string,
    redisPort: int,
    redisDb: int,
    redisPassword: Option<string>,
    redisMaxConnections: int,
    keyPrefix: string)

  /** `RateLimitConfig.from_env`: `Err` names the first variable whose `int()` raises. */
  function ConfigFromEnv(env: map<string, string>): (r: Result<RateLimitConfig, string>)
    ensures r.Ok? ==> r.value.keyPrefix == MapGet(env, "RATE_LIMIT_KEY_PREFIX", DefaultKeyPrefix)
    ensures r.Ok? ==> Some(r.value.defaultLimitSeconds) == EnvInt(env, "RATE_LIMIT_SECONDS", DefaultLimitSeconds)
    ensures r.Err? <==>
      || EnvInt(env, "RATE_LIMIT_SECONDS", DefaultLimitSeconds).None?
      || EnvInt(env, "REDIS_PORT", 6379).None?
      || EnvInt(env, "REDIS_DB", 0).None?
      || EnvInt(env, "REDIS_MAX_CONNECTIONS", 10).None?
    ensures env == map[] ==> r == Ok(RateLimitConfig(DefaultLimitSeconds, "localhost", 6379, 0, None, 10, DefaultKeyPrefix))
  {
    match EnvInt(env, "RATE_LIMIT_SECONDS", DefaultLimitSeconds)
    case None => Err("RATE_LIMIT_SECONDS")
    case Some(limit) =>
      match EnvInt(env, "REDIS_PORT", 6379)
      case None => Err("REDIS_PORT")
      case Some(port) =>
        match EnvInt(env, "REDIS_DB", 0)
        case None => Err("REDIS_DB")
        case Some(db) =>
          match EnvInt(env, "REDIS_MAX_CONNECTIONS", 10)
          case None => Err("REDIS_MAX_CONNECTIONS")
          case Some(maxConnections) =>
            Ok(RateLimitConfig(
              limit,
              MapGet(env, "REDIS_HOST", "localhost"),
              port, db,
              if "REDIS_PASSWORD" in env then Some(env["REDIS_PASSWORD"]) else None,
              maxConnections,
              MapGet(env, "RATE_LIMIT_KEY_PREFIX", DefaultKeyPrefix)))
  }

  // ---------------------------------------------------------------------
  // Keys
  // ---------------------------------------------------------------------

  /** Characters the key sanitiser keeps: `[a-zA-Z0-9_\-@.]`. */
  predicate KeyChar(c: char) {
    IsAsciiAlnum(c) || c == '_' || c == '-' || c == '@' || c == '.'
  }

  /** `re.sub(r'[^a-zA-Z0-9_\-@.]', '_', user_id)`. */
  function Sanitize(userId: string): (r: string)
    ensures |r| == |userId|
    ensures forall i :: 0 <= i < |r| ==> r[i] == (if KeyChar(userId[i]) then userId[i] else '_')
  {
    if userId == [] then []
    else [if KeyChar(userId[0]) then userId[0] else '_'] + Sanitize(userId[1..])
  }

  /** `_get_rate_limit_key`. */
  function Key(config: RateLimitConfig, userId: string): string {
    config.keyPrefix + ":" + Sanitize(userId)
  }

  /** Sanitised ids use only key characters, and sanitising again changes nothing. */
  lemma SanitizeIdempotent(userId: string)
    ensures forall i :: 0 <= i < |Sanitize(userId)| ==> KeyChar(Sanitize(userId)[i])
    ensures Sanitize(Sanitize(userId)) == Sanitize(userId)
  {
  }

  /** Ids made only of key characters are kept as they are, so they never share a key. */
  lemma KeyInjectiveOnPlainIds(config: RateLimitConfig, a: string, b: string)
    requires forall i :: 0 <= i < |a| ==> KeyChar(a[i])
    requires forall i :: 0 <= i < |b| ==> KeyChar(b[i])
    ensures Key(config, a) == Key(config, b) <==> a == b
  {
    assert Sanitize(a) == a;
    assert Sanitize(b) == b;
    if Key(config, a) == Key(config, b) {
      var n := |config.keyPrefix| + 1;
      assert Key(config, a)[n..] == a;
      assert Key(config, b)[n..] == b;
    }
  }

  /** A character the sanitising writes as `_`: one outside the key alphabet, or `_` itself. */
  predicate BecomesUnderscore(c: char) {
    !KeyChar(c) || c == '_'
  }

  /**
   * Ids that differ only where both characters become `_` share one limit;
   * for example `a b` and `a_b`.
   */
  lemma SanitizeMerges(a: string, b: string)
    requires |a| == |b|
    requires forall i :: 0 <= i < |a| && a[i] != b[i] ==> BecomesUnderscore(a[i]) && BecomesUnderscore(b[i])
    ensures Sanitize(a) == Sanitize(b)
  {
    forall i | 0 <= i < |a| ensures Sanitize(a)[i] == Sanitize(b)[i] {
      if a[i] != b[i] {
        assert BecomesUnderscore(a[i]) && BecomesUnderscore(b[i]);
      }
    }
  }

  // ---------------------------------------------------------------------
  // Store
  // ---------------------------------------------------------------------

  datatype Entry = Entry(stamp: real, expiresAt: real)

  datatype Store = Store(entries: map<string, Entry>, up: bool)

  /** `GET key` as a client sees it at time `now`. */
  function Get(store: Store, key: string, now: real): Option<real> {
    if key in store.entries && now < store.entries[key].expiresAt then
      Some(store.entries[key].stamp)
    else None
  }

  /** `SETEX key ttl value`; Redis refuses a TTL that is not positive. */
  function SetEx(store: Store, key: string, ttl: int, value: real, now: real): (r: Option<Store>)
    ensures r.Some? <==> ttl > 0
    ensures r.Some? ==> r.value.up == store.up && Get(r.value, key, now) == Some(value)
    ensures r.Some? ==> forall k :: k != key ==> Get(r.value, k, now) == Get(store, k, now)
  {
    if ttl <= 0 then None
    else Some(store.(entries := store.entries[key := Entry(value, now + ttl as real)]))
  }

  // ---------------------------------------------------------------------
  // Operations
  // ---------------------------------------------------------------------

  datatype RateLimitResult = RateLimitResult(
    allowed: bool,
    remainingSeconds: int,
    resetTime: real,
    userId: string)

  /** Python `int(x)` on a float: truncation toward zero. */
  function Trunc(x: real): (n: int)
    ensures x >= 0.0 ==> 0 <= n && n as real <= x < n as real + 1.0
    ensures x < 0.0 ==> n <= 0 && n as real - 1.0 < x <= n as real
  {
    if x >= 0.0 then x.Floor else -((-x).Floor)
  }

  /** `limit_seconds or self.config.default_limit_seconds`. */
  function EffectiveLimit(config: RateLimitConfig, limitSeconds: Option<int>): int {
    if limitSeconds.None? || limitSeconds.value == 0 then config.defaultLimitSeconds
    else limitSeconds.value
  }

  /** The result of failing open: allowed, nothing to wait. */
  function FailOpen(userId: string, limit: int, now: real): RateLimitResult {
    RateLimitResult(true, 0, now + limit as real, userId)
  }

  /**
   * `check_rate_limit`: `Err` for an empty id (the `ValueError`); otherwise
   * the verdict and the store afterwards. A request is allowed when the
   * user's key is absent or its timestamp is at least `limit` seconds old,
   * and then the current time is written with a TTL of `limit`; a store
   * error (store down, or a TTL Redis refuses) fails open.
   */
  function Check(config: RateLimitConfig, store: Store, userId: string, limitSeconds: Option<int>, now: real)
    : (r: Result<(RateLimitResult, Store), string>)
    ensures r.Err? <==> userId == []
    ensures r.Ok? ==> r.value.0.userId == userId
    ensures r.Ok? && r.value.0.allowed ==> r.value.0.remainingSeconds == 0
    ensures r.Ok? && r.value.0.allowed ==> r.value.0.resetTime == now + EffectiveLimit(config, limitSeconds) as real
    ensures r.Ok? && !r.value.0.allowed ==> r.value.1 == store && r.value.0.remainingSeconds >= 0
    ensures r.Ok? ==>
      var stamp := Get(store, Key(config, userId), now);
      (!r.value.0.allowed <==>
        store.up && stamp.Some? && now - stamp.value < EffectiveLimit(config, limitSeconds) as real)
    ensures r.Ok? ==> forall k :: k != Key(config, userId) ==> Get(r.value.1, k, now) == Get(store, k, now)
  {
    if userId == [] then Err("user_id cannot be empty")
    else
      var limit := EffectiveLimit(config, limitSeconds);
      var key := Key(config, userId);
      if !store.up then Ok((FailOpen(userId, limit, now), store))
      else
        match Get(store, key, now)
        case None => Ok(Record(store, key, userId, limit, now))
        case Some(last) =>
          var elapsed := now - last;
          if elapsed >= limit as real then Ok(Record(store, key, userId, limit, now))
          else Ok((RateLimitResult(false, Trunc(limit as real - elapsed), last + limit as real, userId), store))
  }

  /** The allowed branch: write the timestamp, or fail open if the write is refused. */
  function Record(store: Store, key: string, userId: string, limit: int, now: real): (r: (RateLimitResult, Store))
    ensures r.0 == FailOpen(userId, limit, now)
    ensures limit > 0 ==> Get(r.1, key, now) == Some(now)
    ensures limit <= 0 ==> r.1 == store
    ensures forall k :: k != key ==> Get(r.1, k, now) == Get(store, k, now)
  {
    match SetEx(store, key, limit, now, now)
    case Some(written) => (FailOpen(userId, limit, now), written)
    case None => (FailOpen(userId, limit, now), store)
  }

  /** `reset_user_rate_limit`: deletes the key; true iff a live key was deleted. */
  function Reset(config: RateLimitConfig, store: Store, userId: string, now: real): (r: (bool, Store))
    ensures r.0 <==> userId != [] && store.up && Get(store, Key(config, userId), now).Some?
    ensures userId != [] && store.up ==> Get(r.1, Key(config, userId), now).None?
    ensures forall k :: k != Key(config, userId) ==> Get(r.1, k, now) == Get(store, k, now)
  {
    if userId == [] || !store.up then (false, store)
    else
      var key := Key(config, userId);
      (Get(store, key, now).Some?, store.(entries := store.entries - {key}))
  }

  /** `get_user_rate_limit_status`: the pending wait under the default limit, if any. */
  function Status(config: RateLimitConfig, store: Store, userId: string, now: real): (r: Option<RateLimitResult>)
    ensures r.Some? ==> !r.value.allowed && r.value.userId == userId && r.value.remainingSeconds >= 0
  {
    if userId == [] || !store.up then None
    else
      match Get(store, Key(config, userId), now)
      case None => None
      case Some(last) =>
        var elapsed := now - last;
        if elapsed >= config.defaultLimitSeconds as real then None
        else
          var limit := config.defaultLimitSeconds;
          Some(RateLimitResult(false, Trunc(limit as real - elapsed), last + limit as real, userId))
  }

  /** `health_check`: the store answers a ping. */
  predicate Healthy(store: Store) {
    store.up
  }

  // ---------------------------------------------------------------------
  // Properties
  // ---------------------------------------------------------------------

  /**
   * A live timestamp younger than the limit denies the request: the wait is
   * the truncated rest of the limit, the reset is the stamp plus the limit,
   * and nothing is written.
   */
  lemma DeniedExactly(config: RateLimitConfig, store: Store, userId: string, limit: Option<int>, now: real, last: real)
    requires userId != [] && store.up
    requires Get(store, Key(config, userId), now) == Some(last)
    requires now - last < EffectiveLimit(config, limit) as real
    ensures var lim := EffectiveLimit(config, limit) as real;
      Check(config, store, userId, limit, now)
        == Ok((RateLimitResult(false, Trunc(lim - (now - last)), last + lim, userId), store))
  {
  }

  /**
   * Once a request is allowed and recorded, every later request of the same
   * user within the limit is denied, with the wait counted from the recorded
   * request, and the store keeps the recorded timestamp.
   */
  lemma DeniedWithinWindow(config: RateLimitConfig, store: Store, userId: string, limit: Option<int>, t0: real, t1: real)
    requires userId != [] && store.up
    requires EffectiveLimit(config, limit) > 0
    requires Check(config, store, userId, limit, t0).Ok?
    requires t0 <= t1 < t0 + EffectiveLimit(config, limit) as real
    ensures var after := Check(config, store, userId, limit, t0).value.1;
      var second := Check(config, after, userId, limit, t1);
      var lim := EffectiveLimit(config, limit);
      && (Check(config, store, userId, limit, t0).value.0.allowed ==> Get(after, Key(config, userId), t0) == Some(t0))
      && (Check(config, store, userId, limit, t0).value.0.allowed ==>
            && second.Ok? && !second.value.0.allowed
            && second.value.1 == after
            && second.value.0.resetTime == t0 + lim as real
            && 0 <= second.value.0.remainingSeconds <= lim)
  {
    var key := Key(config, userId);
    var first := Check(config, store, userId, limit, t0).value;
    if first.0.allowed {
      var lim := EffectiveLimit(config, limit);
      assert first.1.entries[key] == Entry(t0, t0 + lim as real);
      assert Get(first.1, key, t1) == Some(t0);
    }
  }

  /** A request the limit window has passed is allowed again. */
  lemma AllowedAfterWindow(config: RateLimitConfig, store: Store, userId: string, limit: Option<int>, now: real)
    requires userId != []
    requires forall last :: Get(store, Key(config, userId), now) == Some(last) ==>
      now - last >= EffectiveLimit(config, limit) as real
    ensures Check(config, store, userId, limit, now).Ok?
    ensures Check(config, store, userId, limit, now).value.0.allowed
  {
  }

  /** After a reset the user's next request is allowed. */
  lemma AllowedAfterReset(config: RateLimitConfig, store: Store, userId: string, limit: Option<int>, now: real)
    requires userId != []
    ensures var cleared := Reset(config, store, userId, now).1;
      Check(config, cleared, userId, limit, now).Ok? && Check(config, cleared, userId, limit, now).value.0.allowed
  {
  }

  /** A store that is down lets every request through. */
  lemma FailsOpen(config: RateLimitConfig, store: Store, userId: string, limit: Option<int>, now: real)
    requires userId != [] && !store.up
    ensures Check(config, store, userId, limit, now) ==
      Ok((FailOpen(userId, EffectiveLimit(config, limit), now), store))
  {
  }

  /**
   * The status query reports exactly the denial a check with the default
   * limit would give at the same moment, and never changes the store.
   */
  lemma StatusMatchesCheck(config: RateLimitConfig, store: Store, userId: string, now: real)
    requires userId != []
    ensures var c := Check(config, store, userId, None, now);
      && (Status(config, store, userId, now).Some? <==> c.Ok? && !c.value.0.allowed)
      && (Status(config, store, userId, now).Some? ==> Status(config, store, userId, now).value == c.value.0)
  {
  }

  /** A denial never asks for more than the limit while the clock has not gone back. */
  lemma DeniedWaitBounded(config: RateLimitConfig, store: Store, userId: string, limit: Option<int>, now: real)
    requires userId != []
    requires forall last :: Get(store, Key(config, userId), now) == Some(last) ==> last <= now
    ensures var c := Check(config, store, userId, limit, now);
      !c.value.0.allowed ==> c.value.0.remainingSeconds <= EffectiveLimit(config, limit)
  {
  }

  /**
   * Truncating the wait can tell a denied user to wait zero seconds: half a
   * second before the window closes the request is still refused.
   */
  lemma DeniedWithZeroWait(config: RateLimitConfig)
    ensures var store := Store(map[Key(config, "u") := Entry(0.0, 60.0)], true);
      var c := Check(config, store, "u", Some(60), 59.5);
      c.Ok? && !c.value.0.allowed && c.value.0.remainingSeconds == 0
  {
    var store := Store(map[Key(config, "u") := Entry(0.0, 60.0)], true);
    assert Get(store, Key(config, "u"), 59.5) == Some(0.0);
  }
}

=== FILE: storacha_rag.dfy ===
/**
 * The lightweight retrieval class `StorachaRAG`: text cleaning, a
 * word-set (Jaccard) similarity, keyword scoring, ranking of documents for
 * a question, loading pages with a size threshold and the checks a query
 * makes before asking the language model. Fetching pages, stripping their
 * HTML and calling the model are parameters of the model.
 */
module StorachaRag {
  import opened Wrappers
  import opened Text

  // ---------------------------------------------------------------------
  // Cleaning
  // ---------------------------------------------------------------------

  /** Stripped lines longer than ten characters, in order. */
  function LongLines(lines: seq<string>): (r: seq<string>)
    ensures |r| <= |lines|
    ensures forall i :: 0 <= i < |r| ==> |r[i]| > 10
  {
    if lines == [] then []
    else
      var line := Strip(lines[0]);
      (if |line| > 10 then [line] else []) + LongLines(lines[1..])
  }

  /**
   * `clean_text`: every whitespace run becomes one space after stripping
   * the ends, then lines of at most ten characters are dropped.
   */
  function CleanText(text: string): string {
    Join(LongLines(SplitOn(Collapse(text), '\n')), ['\n'])
  }

  /**
   * Collapsing whitespace leaves no newline to split on, so the line
   * filter sees one line: the result is the collapsed text when it is
   * longer than ten characters and empty otherwise.
   */
  lemma CleanTextSpec(text: string)
    ensures var c := Collapse(text);
      CleanText(text) == (if |c| > 10 then c else [])
    ensures '\n' !in CleanText(text)
    ensures SingleSpaced(CleanText(text))
    ensures CleanText(text) != [] ==> Visible(CleanText(text)) == Visible(text)
  {
    var c := Collapse(text);
    CollapseSpec(text);
    SingleSpacedHasNoNewline(c);
    SplitOnWithout(c, '\n');
    if c != [] {
      StripOfTrimmed(c);
    }
    assert [c][1..] == [];
    assert LongLines([c]) == (if |c| > 10 then [c] else []);
  }

  /** Scraped pages are cut to this many characters. */
  const MaxPageChars: nat := 8000

  /**
   * `scrape_url`: the cleaned text cut to 8000 characters, or empty when
   * fetching raises (`None`). `extracted` is the page text after the tags
   * and entities are removed.
   */
  function ScrapeUrl(extracted: Option<string>): (r: string)
    ensures extracted.None? ==> r == []
    ensures |r| <= MaxPageChars
    ensures extracted.Some? ==> StartsWith(CleanText(extracted.value), r)
    ensures extracted.Some? ==>
      |r| == if |CleanText(extracted.value)| <= MaxPageChars then |CleanText(extracted.value)| else MaxPageChars
  {
    match extracted
    case None => []
    case Some(text) => Take(CleanText(text), MaxPageChars)
  }

  // ---------------------------------------------------------------------
  // Similarity and scoring
  // ---------------------------------------------------------------------

  /** `set(text.lower().split())`. */
  function WordSet(text: string): set<string> {
    set w | w in Words(Lower(text))
  }

  /** The Jaccard index of two word sets; zero when either is empty. */
  function Jaccard(a: set<string>, b: set<string>): (r: real)
    ensures 0.0 <= r <= 1.0
    ensures a == {} || b == {} ==> r == 0.0
  {
    if a == {} || b == {} then 0.0
    else
      assert |a * b| <= |a + b| by { IntersectionWithinUnion(a, b); }
      (|a * b| as real) / (|a + b| as real)
  }

  /** `simple_similarity`. */
  function Similarity(text1: string, text2: string): (r: real)
    ensures 0.0 <= r <= 1.0
  {
    Jaccard(WordSet(text1), WordSet(text2))
  }

  lemma IntersectionWithinUnion(a: set<string>, b: set<string>)
    ensures |a * b| <= |a + b|
    ensures |a * b| == |a + b| ==> a == b
  {
    if |a * b| == |a + b| {
      assert |a + b| + |a * b| == |a| + |b|;
      assert |a - b| + |b - a| + |a * b| == |a + b|;
      assert a - b == {} && b - a == {};
      assert forall x :: x in a ==> x in b;
      assert forall x :: x in b ==> x in a;
    }
  }

  /** The index is one exactly for equal non-empty sets. */
  lemma JaccardOne(a: set<string>, b: set<string>)
    ensures Jaccard(a, b) == 1.0 <==> a == b != {}
  {
    if a != {} && b != {} {
      IntersectionWithinUnion(a, b);
      var n := |a * b| as real;
      var u := |a + b| as real;
      assert u > 0.0;
      assert Jaccard(a, b) == n / u;
      if n / u == 1.0 {
        assert n == (n / u) * u;
      }
      if a == b {
        assert a * b == a && a + b == a;
      }
    }
  }

  /** The similarity is symmetric, one exactly for equal non-empty word sets, and zero without words. */
  lemma SimilaritySpec(text1: string, text2: string)
    ensures Similarity(text1, text2) == Similarity(text2, text1)
    ensures WordSet(text1) == {} || WordSet(text2) == {} ==> Similarity(text1, text2) == 0.0
    ensures Similarity(text1, text2) == 1.0 <==> WordSet(text1) == WordSet(text2) != {}
  {
    var a := WordSet(text1);
    var b := WordSet(text2);
    assert a * b == b * a && a + b == b + a;
    JaccardOne(a, b);
  }

  /** How many of the words occur in `content`, lower-cased, counting repeats. */
  function Hits(words: seq<string>, contentLower: string): (n: nat)
    ensures n <= |words|
  {
    if words == [] then 0
    else (if Contains(contentLower, Lower(words[0])) then 1 else 0) + Hits(words[1..], contentLower)
  }

  /** Counting is additive over the question's words. */
  lemma {:induction false} HitsAppend(a: seq<string>, b: seq<string>, contentLower: string)
    ensures Hits(a + b, contentLower) == Hits(a, contentLower) + Hits(b, contentLower)
    decreases |a|
  {
    if a != [] {
      assert (a + b)[0] == a[0];
      assert (a + b)[1..] == a[1..] + b;
      HitsAppend(a[1..], b, contentLower);
    } else {
      assert a + b == b;
    }
  }

  /** Every word that occurs counts: all occurring gives the full count, none occurring gives zero. */
  lemma {:induction false} HitsExtremes(words: seq<string>, contentLower: string)
    ensures (forall i :: 0 <= i < |words| ==> Contains(contentLower, Lower(words[i]))) ==> Hits(words, contentLower) == |words|
    ensures (forall i :: 0 <= i < |words| ==> !Contains(contentLower, Lower(words[i]))) ==> Hits(words, contentLower) == 0
    decreases |words|
  {
    if words != [] {
      HitsExtremes(words[1..], contentLower);
      assert forall i :: 1 <= i < |words| ==> words[1..][i - 1] == words[i];
    }
  }

  /** The keyword score: the question's words whose lower-case form occurs in the lower-cased content. */
  function KeywordScore(query: string, content: string): nat {
    Hits(Words(query), Lower(content))
  }

  /** The total score: keyword hits plus ten times the similarity. */
  function Score(query: string, content: string): (r: real)
    ensures r >= KeywordScore(query, content) as real && r <= KeywordScore(query, content) as real + 10.0
    ensures r > 0.0 <==> KeywordScore(query, content) > 0 || Similarity(query, content) > 0.0
  {
    KeywordScore(query, content) as real + Similarity(query, content) * 10.0
  }

  // ---------------------------------------------------------------------
  // Ranking
  // ---------------------------------------------------------------------

  datatype Doc = Doc(content: string, source: string, preview: string)

  datatype Scored = Scored(content: string, source: string, score: real)

  /** Content handed to the model is cut to this many characters. */
  const MaxContextChars: nat := 3000

  /** The entry built for one document: its content cut to the limit, its source and its score. */
  function ScoredOf(d: Doc, query: string): Scored {
    Scored(Take(d.content, MaxContextChars), d.source, Score(query, d.content))
  }

  /** The documents with a positive score, content cut, in document order. */
  function ScoredDocs(docs: seq<Doc>, query: string): (r: seq<Scored>)
    ensures |r| <= |docs|
    ensures forall x :: x in r ==> x.score > 0.0 && |x.content| <= MaxContextChars
  {
    if docs == [] then []
    else
      var d := docs[0];
      (if Score(query, d.content) > 0.0 then [ScoredOf(d, query)] else []) + ScoredDocs(docs[1..], query)
  }

  /**
   * The candidates are exactly the positively scored documents: each
   * entry is the cut entry of some document with a positive score, and
   * every document with a positive score has its entry among them.
   */
  lemma ScoredDocsExactly(docs: seq<Doc>, query: string)
    ensures forall i :: 0 <= i < |docs| && Score(query, docs[i].content) > 0.0 ==>
      ScoredOf(docs[i], query) in ScoredDocs(docs, query)
    ensures forall x :: x in ScoredDocs(docs, query) ==> ScoredFrom(x, docs, query)
  {
    forall i | 0 <= i < |docs| && Score(query, docs[i].content) > 0.0
      ensures ScoredOf(docs[i], query) in ScoredDocs(docs, query)
    {
      PositiveIsScored(docs, query, i);
    }
    ScoredComeFromDocs(docs, query);
  }

  /** `x` is the entry of some document of `docs` with a positive score. */
  ghost predicate ScoredFrom(x: Scored, docs: seq<Doc>, query: string) {
    exists i :: 0 <= i < |docs| && Score(query, docs[i].content) > 0.0 && x == ScoredOf(docs[i], query)
  }

  lemma {:induction false} PositiveIsScored(docs: seq<Doc>, query: string, i: nat)
    requires i < |docs| && Score(query, docs[i].content) > 0.0
    ensures ScoredOf(docs[i], query) in ScoredDocs(docs, query)
    decreases i
  {
    var head := if Score(query, docs[0].content) > 0.0 then [ScoredOf(docs[0], query)] else [];
    assert ScoredDocs(docs, query) == head + ScoredDocs(docs[1..], query);
    if i > 0 {
      assert docs[1..][i - 1] == docs[i];
      PositiveIsScored(docs[1..], query, i - 1);
    }
  }

  lemma {:induction false} ScoredComeFromDocs(docs: seq<Doc>, query: string)
    ensures forall x :: x in ScoredDocs(docs, query) ==> ScoredFrom(x, docs, query)
    decreases |docs|
  {
    if docs != [] {
      var rest := docs[1..];
      ScoredComeFromDocs(rest, query);
      var head := if Score(query, docs[0].content) > 0.0 then [ScoredOf(docs[0], query)] else [];
      assert ScoredDocs(docs, query) == head + ScoredDocs(rest, query);
      forall x | x in ScoredDocs(docs, query) ensures ScoredFrom(x, docs, query) {
        if x in head {
          assert Score(query, docs[0].content) > 0.0 && x == ScoredOf(docs[0], query);
        } else {
          assert ScoredFrom(x, rest, query);
          var j :| 0 <= j < |rest| && Score(query, rest[j].content) > 0.0 && x == ScoredOf(rest[j], query);
          assert rest[j] == docs[j + 1];
        }
      }
    }
  }

  /** Non-increasing by `key`. */
  predicate SortedBy<T>(s: seq<T>, key: T -> real) {
    forall i, j :: 0 <= i < j < |s| ==> key(s[i]) >= key(s[j])
  }

  /** Place `x` before the first entry whose key is no greater, which keeps equal keys in order. */
  function Insert<T>(x: T, s: seq<T>, key: T -> real): (r: seq<T>)
    requires SortedBy(s, key)
    ensures SortedBy(r, key)
    ensures |r| == |s| + 1
    ensures r[0] == x || (s != [] && r[0] == s[0])
  {
    if s == [] then [x]
    else if key(s[0]) <= key(x) then
      ConsSorted(x, s, key);
      [x] + s
    else
      var rest := Insert(x, s[1..], key);
      ConsSorted(s[0], rest, key);
      [s[0]] + rest
  }

  /** Insertion adds `x` and loses nothing. */
  lemma {:induction false} InsertPermutes<T>(x: T, s: seq<T>, key: T -> real)
    requires SortedBy(s, key)
    ensures multiset(Insert(x, s, key)) == multiset(s) + multiset{x}
    decreases |s|
  {
    if s == [] {
    } else if key(s[0]) <= key(x) {
      assert Insert(x, s, key) == [x] + s;
    } else {
      var rest := Insert(x, s[1..], key);
      InsertPermutes(x, s[1..], key);
      assert Insert(x, s, key) == [s[0]] + rest;
      assert s == [s[0]] + s[1..];
      assert multiset(s) == multiset{s[0]} + multiset(s[1..]);
      assert multiset([s[0]] + rest) == multiset{s[0]} + multiset(rest);
    }
  }

  /** An entry whose key is at least the head's can go in front of a sorted sequence. */
  lemma ConsSorted<T>(a: T, t: seq<T>, key: T -> real)
    requires SortedBy(t, key) && (t == [] || key(a) >= key(t[0]))
    ensures SortedBy([a] + t, key)
  {
    var r := [a] + t;
    forall i, j | 0 <= i < j < |r|
      ensures key(r[i]) >= key(r[j])
    {
      assert r[j] == t[j - 1];
      if i > 0 {
        assert r[i] == t[i - 1];
      } else if j > 1 {
        assert key(t[0]) >= key(t[j - 1]);
      }
    }
  }

  /** `sort(key=..., reverse=True)`: non-increasing keys, the same entries. */
  function SortBy<T>(s: seq<T>, key: T -> real): (r: seq<T>)
    ensures SortedBy(r, key)
    ensures multiset(r) == multiset(s)
  {
    if s == [] then []
    else
      assert s == [s[0]] + s[1..];
      InsertPermutes(s[0], SortBy(s[1..], key), key);
      Insert(s[0], SortBy(s[1..], key), key)
  }

  function ScoreOf(s: Scored): real {
    s.score
  }

  /** `sorted(s, key=key, reverse=True)[:n]`: the first `n` entries by non-increasing key. */
  function Ranked<T>(s: seq<T>, key: T -> real, n: int): (r: seq<T>)
    ensures 0 <= n ==> |r| == if n <= |s| then n else |s|
    ensures SortedBy(r, key)
    ensures multiset(r) <= multiset(s)
    ensures forall x :: x in r ==> x in s
  {
    var sorted := SortBy(s, key);
    assert |sorted| == |multiset(sorted)| == |s|;
    var r := Take(sorted, n);
    PrefixMultiset(sorted, |r|);
    assert forall x :: x in r ==> x in multiset(r);
    r
  }

  /**
   * The ranking keeps the top entries: nothing it leaves out has a higher
   * key than anything it keeps.
   */
  lemma RankedIsTop<T>(s: seq<T>, key: T -> real, n: int)
    ensures var r := Ranked(s, key, n);
      forall x, y :: y in r && x in multiset(s) - multiset(r) ==> key(y) >= key(x)
  {
    var sorted := SortBy(s, key);
    var r := Ranked(s, key, n);
    assert r == Take(sorted, n);
    var k := |r|;
    assert sorted == r + sorted[k..];
    assert multiset(s) - multiset(r) == multiset(sorted[k..]);
    forall x, y | y in r && x in multiset(s) - multiset(r) ensures key(y) >= key(x) {
      var i :| 0 <= i < k && r[i] == y;
      assert x in sorted[k..];
      var j :| 0 <= j < |sorted| - k && sorted[k..][j] == x;
      assert sorted[i] == y && sorted[k + j] == x;
    }
  }

  /** `find_relevant_content`: the best `maxDocs` positively scored documents, best first. */
  function FindRelevant(docs: seq<Doc>, query: string, maxDocs: int): (r: seq<Scored>)
    ensures docs == [] ==> r == []
    ensures 0 <= maxDocs ==>
      |r| == if maxDocs <= |ScoredDocs(docs, query)| then maxDocs else |ScoredDocs(docs, query)|
    ensures SortedBy(r, ScoreOf)
    ensures forall x :: x in r ==> x.score > 0.0 && |x.content| <= MaxContextChars
    ensures multiset(r) <= multiset(ScoredDocs(docs, query))
  {
    if docs == [] then [] else Ranked(ScoredDocs(docs, query), ScoreOf, maxDocs)
  }

  /** No positively scored document left out scores higher than one returned. */
  lemma FindRelevantIsTop(docs: seq<Doc>, query: string, maxDocs: int)
    ensures var r := FindRelevant(docs, query, maxDocs);
      forall x, y :: y in r && x in multiset(ScoredDocs(docs, query)) - multiset(r) ==> y.score >= x.score
  {
    if docs != [] {
      RankedIsTop(ScoredDocs(docs, query), ScoreOf, maxDocs);
    }
  }

  /** A positively scored document that is not returned scores no higher than any document returned. */
  lemma LeftOutScoresNoHigher(docs: seq<Doc>, query: string, maxDocs: int, i: int)
    requires 0 <= i < |docs| && Score(query, docs[i].content) > 0.0
    requires ScoredOf(docs[i], query) !in FindRelevant(docs, query, maxDocs)
    ensures forall y :: y in FindRelevant(docs, query, maxDocs) ==> y.score >= Score(query, docs[i].content)
  {
    var r := FindRelevant(docs, query, maxDocs);
    var x := ScoredOf(docs[i], query);
    ScoredDocsExactly(docs, query);
    FindRelevantIsTop(docs, query, maxDocs);
    assert x in multiset(ScoredDocs(docs, query)) - multiset(r);
  }

  lemma PrefixMultiset<T>(s: seq<T>, k: nat)
    requires k <= |s|
    ensures multiset(s[..k]) <= multiset(s)
  {
    assert s == s[..k] + s[k..];
  }

  /** With the default of two, a non-empty result holds the best-scoring relevant document first. */
  lemma BestComesFirst(docs: seq<Doc>, query: string)
    requires FindRelevant(docs, query, 2) != []
    ensures forall x :: x in ScoredDocs(docs, query) ==> FindRelevant(docs, query, 2)[0].score >= x.score
  {
    var scored := ScoredDocs(docs, query);
    var sorted := SortBy(scored, ScoreOf);
    var best := FindRelevant(docs, query, 2);
    assert best == Take(sorted, 2);
    assert best[0] == sorted[0];
    forall x | x in scored ensures sorted[0].score >= x.score {
      assert x in multiset(sorted);
      var j :| 0 <= j < |sorted| && sorted[j] == x;
      if j > 0 {
        assert ScoreOf(sorted[0]) >= ScoreOf(sorted[j]);
      }
    }
  }

  // ---------------------------------------------------------------------
  // Loading and querying
  // ---------------------------------------------------------------------

  /** Pages need more characters than this to be kept. */
  const MinPageChars: nat := 100

  /** The URLs whose scraped text is long enough, in order. */
  function KeptUrls(urls: seq<string>, contents: string -> string): (r: seq<string>)
    ensures |r| <= |urls|
    ensures forall i :: 0 <= i < |r| ==> |contents(r[i])| > MinPageChars
  {
    if urls == [] then []
    else (if |contents(urls[0])| > MinPageChars then [urls[0]] else []) + KeptUrls(urls[1..], contents)
  }

  /** A URL is kept exactly when its page is long enough. */
  lemma {:induction false} KeptUrlsExactly(urls: seq<string>, contents: string -> string)
    ensures forall u :: u in KeptUrls(urls, contents) <==> u in urls && |contents(u)| > MinPageChars
    decreases |urls|
  {
    if urls != [] {
      KeptUrlsExactly(urls[1..], contents);
      assert urls == [urls[0]] + urls[1..];
    }
  }

  function DocOf(url: string, content: string): Doc {
    Doc(content, url, Take(content, 200) + Ellipsis)
  }

  /**
   * `load_documents`: the previous documents are discarded and each URL
   * whose scraped text is longer than 100 characters becomes a document
   * with a preview of its first 200 characters and "...".
   */
  function LoadDocuments(urls: seq<string>, contents: string -> string): (docs: seq<Doc>)
    ensures |docs| == |KeptUrls(urls, contents)| <= |urls|
    ensures forall i :: 0 <= i < |docs| ==>
      && docs[i].source == KeptUrls(urls, contents)[i]
      && docs[i].content == contents(docs[i].source)
      && |docs[i].content| > MinPageChars
  {
    var kept := KeptUrls(urls, contents);
    seq(|kept|, i requires 0 <= i < |kept| => DocOf(kept[i], contents(kept[i])))
  }

  /** Each preview is the first 200 characters of the page followed by "...". */
  lemma PreviewShape(urls: seq<string>, contents: string -> string, i: nat)
    requires i < |LoadDocuments(urls, contents)|
    ensures var d := LoadDocuments(urls, contents)[i];
      && 3 <= |d.preview| <= 203
      && StartsWith(d.content, d.preview[..|d.preview| - 3])
      && d.preview[|d.preview| - 3..] == Ellipsis
      && (|d.content| >= 200 ==> |d.preview| == 203)
  {
  }

  /** What `query` does: a fixed reply, or the relevant documents sent to the model. */
  datatype QueryOutcome = NoDocumentsLoaded | NothingRelevant | AskModel(context: seq<Scored>)

  /** `query`: no model call without documents or without a relevant one. */
  function Query(docs: seq<Doc>, question: string): (r: QueryOutcome)
    ensures docs == [] <==> r == NoDocumentsLoaded
    ensures r.NothingRelevant? <==> docs != [] && FindRelevant(docs, question, 2) == []
    ensures r.AskModel? ==> 1 <= |r.context| <= 2 && r.context == FindRelevant(docs, question, 2)
  {
    if docs == [] then NoDocumentsLoaded
    else
      var relevant := FindRelevant(docs, question, 2);
      if relevant == [] then NothingRelevant else AskModel(relevant)
  }

  /** A question sharing no word with any document, and no keyword hit, reaches no model. */
  lemma IrrelevantQuestionAsksNothing(docs: seq<Doc>, question: string)
    requires docs != []
    requires forall i :: 0 <= i < |docs| ==> Score(question, docs[i].content) <= 0.0
    ensures Query(docs, question) == NothingRelevant
  {
    NoneScored(docs, question);
  }

  lemma {:induction false} NoneScored(docs: seq<Doc>, question: string)
    requires forall i :: 0 <= i < |docs| ==> Score(question, docs[i].content) <= 0.0
    ensures ScoredDocs(docs, question) == []
    decreases |docs|
  {
    if docs != [] {
      assert forall i :: 1 <= i < |docs| ==> docs[1..][i - 1] == docs[i];
      NoneScored(docs[1..], question);
    }
  }
}

=== FILE: text.dfy ===
/**
 * String helpers with the meaning Python's `str` methods give them:
 * whitespace as `str.isspace` defines it, `strip`, `split()` with no
 * separator, `join`, prefix slicing `s[:n]`, `startswith`, `in` on strings
 * and ASCII case mapping. Every other module builds on these.
 */
module Text {

  /** Characters for which Python's `str.isspace()` holds. */
  const SpaceChars: set<char> := {
    ' ', '\t', '\n', '\U{b}', '\U{c}', '\r', '\U{1c}', '\U{1d}', '\U{1e}', '\U{1f}',
    '\U{85}', '\U{a0}', '\U{1680}', '\U{2000}', '\U{2001}', '\U{2002}', '\U{2003}',
    '\U{2004}', '\U{2005}', '\U{2006}', '\U{2007}', '\U{2008}', '\U{2009}', '\U{200a}',
    '\U{2028}', '\U{2029}', '\U{202f}', '\U{205f}', '\U{3000}'
  }

  predicate IsSpace(c: char) {
    c in SpaceChars
  }

  /** Digits, letters and the ASCII punctuation the models use are not whitespace. */
  lemma PrintableNotSpace(c: char)
    requires '!' <= c <= '~'
    ensures !IsSpace(c)
  {
  }

  predicate AllSpace(s: string) {
    forall i :: 0 <= i < |s| ==> IsSpace(s[i])
  }

  predicate NoSpace(s: string) {
    forall i :: 0 <= i < |s| ==> !IsSpace(s[i])
  }

  predicate IsAsciiAlnum(c: char) {
    ('a' <= c <= 'z') || ('A' <= c <= 'Z') || ('0' <= c <= '9')
  }

  predicate IsAsciiDigit(c: char) {
    '0' <= c <= '9'
  }

  /** Python `s.lstrip()`. */
  function LStrip(s: string): (r: string)
    ensures |r| <= |s| && r == s[|s| - |r|..]
    ensures r == [] || !IsSpace(r[0])
    ensures AllSpace(s[..|s| - |r|])
  {
    if s == [] || !IsSpace(s[0]) then s
    else
      var r := LStrip(s[1..]);
      LStripStep(s, r);
      r
  }

  /** Stripping past a leading space keeps the suffix and all-space prefix shape. */
  lemma LStripStep(s: string, r: string)
    requires s != [] && IsSpace(s[0])
    requires |r| <= |s| - 1 && r == s[1..][|s| - 1 - |r|..]
    requires AllSpace(s[1..][..|s| - 1 - |r|])
    ensures r == s[|s| - |r|..]
    ensures AllSpace(s[..|s| - |r|])
  {
    var k := |s| - |r|;
    forall i | 0 <= i < k ensures IsSpace(s[..k][i]) {
      if i > 0 {
        assert s[..k][i] == s[1..][..k - 1][i - 1];
      }
    }
  }

  /** Python `s.rstrip()`. */
  function RStrip(s: string): (r: string)
    ensures |r| <= |s| && r == s[..|r|]
    ensures r == [] || !IsSpace(r[|r| - 1])
    ensures AllSpace(s[|r|..])
  {
    if s == [] || !IsSpace(s[|s| - 1]) then s else RStrip(s[..|s| - 1])
  }

  /** Python `s.strip()`. */
  function Strip(s: string): (r: string)
    ensures |r| <= |s|
    ensures r == [] || (!IsSpace(r[0]) && !IsSpace(r[|r| - 1]))
    ensures r == [] <==> AllSpace(s)
  {
    var t := RStrip(s);
    var r := LStrip(t);
    StripEnds(s, t, r);
    r
  }

  /** Stripping cuts an all-space head and an all-space tail off `s`, and nothing else. */
  lemma StripIsSlice(s: string)
    ensures var r := Strip(s);
      exists i :: 0 <= i <= |s| - |r| && r == s[i..i + |r|] && AllSpace(s[..i]) && AllSpace(s[i + |r|..])
  {
    var t := RStrip(s);
    var r := LStrip(t);
    StripSlice(s, t, r);
    SliceWitness(s, r, |t| - |r|);
  }

  lemma SliceWitness(s: string, r: string, j: nat)
    requires j + |r| <= |s| && r == s[j..j + |r|] && AllSpace(s[..j]) && AllSpace(s[j + |r|..])
    ensures exists i :: 0 <= i <= |s| - |r| && r == s[i..i + |r|] && AllSpace(s[..i]) && AllSpace(s[i + |r|..])
  {
  }

  /** The stripped text sits between an all-space head and an all-space tail of `s`. */
  lemma StripSlice(s: string, t: string, r: string)
    requires |t| <= |s| && t == s[..|t|] && AllSpace(s[|t|..])
    requires |r| <= |t| && r == t[|t| - |r|..] && AllSpace(t[..|t| - |r|])
    ensures r == s[|t| - |r|..|t|] && AllSpace(s[..|t| - |r|])
  {
    var j := |t| - |r|;
    forall k | 0 <= k < j ensures IsSpace(s[..j][k]) {
      assert s[..j][k] == t[..j][k];
    }
  }

  /** The stripped text is empty exactly for all-space `s`, and otherwise ends in non-space characters. */
  lemma StripEnds(s: string, t: string, r: string)
    requires |t| <= |s| && t == s[..|t|] && AllSpace(s[|t|..]) && (t == [] || !IsSpace(t[|t| - 1]))
    requires |r| <= |t| && r == t[|t| - |r|..] && AllSpace(t[..|t| - |r|]) && (r == [] || !IsSpace(r[0]))
    ensures r == [] <==> AllSpace(s)
    ensures r != [] ==> !IsSpace(r[|r| - 1])
  {
    if r == [] {
      assert t[..|t|] == t;
      assert t == [];
      assert s[|t|..] == s;
    } else {
      var j := |t| - |r|;
      assert r[|r| - 1] == t[|t| - 1];
      assert r[0] == t[j] == s[j];
    }
  }

  /** Text already trimmed is its own strip. */
  lemma StripOfTrimmed(s: string)
    requires s != [] && !IsSpace(s[0]) && !IsSpace(s[|s| - 1])
    ensures Strip(s) == s
  {
  }

  /** The longest prefix of `s` without whitespace. */
  function WordPrefix(s: string): (w: string)
    ensures |w| <= |s| && w == s[..|w|] && NoSpace(w)
    ensures |w| == |s| || IsSpace(s[|w|])
    ensures s != [] && !IsSpace(s[0]) ==> w != []
  {
    if s == [] || IsSpace(s[0]) then [] else [s[0]] + WordPrefix(s[1..])
  }

  /** Python `s.split()`: the maximal runs of non-whitespace, in order. */
  function Words(s: string): (ws: seq<string>)
    ensures forall k :: 0 <= k < |ws| ==> IsWord(ws[k])
    decreases |s|
  {
    if s == [] then []
    else if IsSpace(s[0]) then Words(s[1..])
    else
      var w := WordPrefix(s);
      [w] + Words(s[|w|..])
  }

  /** A word of `split()`: non-empty, no whitespace. */
  predicate IsWord(w: string) {
    w != [] && NoSpace(w)
  }

  /** Python `sep.join(ws)`. */
  function Join(ws: seq<string>, sep: string): string {
    if ws == [] then []
    else if |ws| == 1 then ws[0]
    else ws[0] + sep + Join(ws[1..], sep)
  }

  /** Python `' '.join(s.split())`: whitespace runs become one space, ends trimmed. */
  function Collapse(s: string): string {
    Join(Words(s), " ")
  }

  /** The non-whitespace characters of `s`, in order. */
  function Visible(s: string): string {
    if s == [] then []
    else (if IsSpace(s[0]) then [] else [s[0]]) + Visible(s[1..])
  }

  /** Text whose only whitespace is single ' ' characters strictly inside it. */
  predicate SingleSpaced(r: string) {
    && (r == [] || (!IsSpace(r[0]) && !IsSpace(r[|r| - 1])))
    && forall i :: 0 <= i < |r| && IsSpace(r[i]) ==> r[i] == ' ' && i + 1 < |r| && !IsSpace(r[i + 1])
  }

  /** Python prefix slice `s[:n]`, negative `n` counting from the end. */
  function Take<T>(s: seq<T>, n: int): (r: seq<T>)
    ensures |r| <= |s| && r == s[..|r|]
    ensures 0 <= n ==> |r| == if n <= |s| then n else |s|
    ensures n < 0 ==> |r| == if |s| + n >= 0 then |s| + n else 0
  {
    if n >= 0 then (if n <= |s| then s[..n] else s)
    else (if |s| + n >= 0 then s[..|s| + n] else [])
  }

  predicate StartsWith(s: string, p: string) {
    |p| <= |s| && s[..|p|] == p
  }

  /** The "..." appended to shortened text. */
  const Ellipsis: string := "..."

  /** A URL with an `http://` or `https://` scheme prefix. */
  predicate HttpUrl(url: string) {
    StartsWith(url, "http://") || StartsWith(url, "https://")
  }

  /** Index of the first `c` in `s`, or `|s|` when there is none (`str.find` without the -1). */
  function IndexOf(s: string, c: char): (k: nat)
    ensures k <= |s|
    ensures forall i :: 0 <= i < k ==> s[i] != c
    ensures k < |s| ==> s[k] == c
  {
    if s == [] || s[0] == c then 0 else 1 + IndexOf(s[1..], c)
  }

  /** Python `s.split(c)` for a one-character separator: the pieces between separators, empty ones kept. */
  function SplitOn(s: string, c: char): (r: seq<string>)
    ensures r != []
    ensures forall i :: 0 <= i < |r| ==> c !in r[i]
    decreases |s|
  {
    var k := IndexOf(s, c);
    if k == |s| then [s] else [s[..k]] + SplitOn(s[k + 1..], c)
  }

  /** `sub` occurs in `s` starting at index `i`. */
  predicate OccursAt(s: string, sub: string, i: int) {
    0 <= i <= |s| - |sub| && s[i..i + |sub|] == sub
  }

  /** Python `sub in s`. */
  predicate Contains(s: string, sub: string) {
    exists i :: 0 <= i <= |s| - |sub| && OccursAt(s, sub, i)
  }

  /** Python `c.lower()` on ASCII letters. */
  function LowerChar(c: char): char {
    if 'A' <= c <= 'Z' then (c as int + 32) as char else c
  }

  function UpperChar(c: char): char {
    if 'a' <= c <= 'z' then (c as int - 32) as char else c
  }

  function Lower(s: string): (r: string)
    ensures |r| == |s| && forall i :: 0 <= i < |s| ==> r[i] == LowerChar(s[i])
  {
    if s == [] then [] else [LowerChar(s[0])] + Lower(s[1..])
  }

  function Upper(s: string): (r: string)
    ensures |r| == |s| && forall i :: 0 <= i < |s| ==> r[i] == UpperChar(s[i])
  {
    if s == [] then [] else [UpperChar(s[0])] + Upper(s[1..])
  }

  predicate IsAsciiLetter(c: char) {
    ('a' <= c <= 'z') || ('A' <= c <= 'Z')
  }

  /** The character `s.title()` puts at `i`: lower-cased after a letter, upper-cased otherwise. */
  function TitleAt(s: string, i: nat): char
    requires i < |s|
  {
    if i > 0 && IsAsciiLetter(s[i - 1]) then LowerChar(s[i]) else UpperChar(s[i])
  }

  /** Python `s.title()` on ASCII, built left to right. */
  function Title(s: string): (r: string)
    ensures |r| == |s|
    ensures forall i :: 0 <= i < |s| ==> r[i] == TitleAt(s, i)
  {
    if s == [] then []
    else
      var init := s[..|s| - 1];
      var t := Title(init);
      var r := t + [TitleAt(s, |s| - 1)];
      forall j | 0 <= j < |s| ensures r[j] == TitleAt(s, j) {
        if j < |init| {
          assert r[j] == t[j] == TitleAt(init, j);
          assert init[j] == s[j];
          assert j > 0 ==> init[j - 1] == s[j - 1];
        }
      }
      r
  }

  predicate TitleShaped(s: string) {
    forall i :: 0 < i < |s| && IsAsciiLetter(s[i - 1]) ==> !('A' <= s[i] <= 'Z')
  }

  lemma TitleIsShaped(s: string)
    ensures TitleShaped(Title(s))
  {
    var r := Title(s);
    forall i | 0 < i < |r| && IsAsciiLetter(r[i - 1]) ensures !('A' <= r[i] <= 'Z') {
      CaseKeepsLetters(s[i - 1]);
      CaseKeepsLetters(s[i]);
    }
  }

  /** Case mapping turns letters into letters and leaves every other character alone. */
  lemma CaseKeepsLetters(c: char)
    ensures IsAsciiLetter(LowerChar(c)) <==> IsAsciiLetter(c)
    ensures IsAsciiLetter(UpperChar(c)) <==> IsAsciiLetter(c)
    ensures !('A' <= LowerChar(c) <= 'Z')
  {
  }

  // ---------------------------------------------------------------------
  // Properties of split and join
  // ---------------------------------------------------------------------

  lemma {:induction false} VisibleAppend(a: string, b: string)
    ensures Visible(a + b) == Visible(a) + Visible(b)
    decreases |a|
  {
    if a == [] {
      assert a + b == b;
    } else {
      var h := if IsSpace(a[0]) then [] else [a[0]];
      assert (a + b)[0] == a[0] && (a + b)[1..] == a[1..] + b;
      assert Visible(a + b) == h + Visible(a[1..] + b);
      VisibleAppend(a[1..], b);
      assert h + (Visible(a[1..]) + Visible(b)) == (h + Visible(a[1..])) + Visible(b);
    }
  }

  lemma {:induction false} VisibleOfSpaces(s: string)
    requires AllSpace(s)
    ensures Visible(s) == []
    decreases |s|
  {
    if s != [] {
      VisibleOfSpaces(s[1..]);
    }
  }

  lemma {:induction false} VisibleOfWord(s: string)
    requires NoSpace(s)
    ensures Visible(s) == s
    decreases |s|
  {
    if s != [] {
      VisibleOfWord(s[1..]);
    }
  }

  /** Concatenation of a list of strings. */
  function Concat(ws: seq<string>): string {
    if ws == [] then [] else ws[0] + Concat(ws[1..])
  }

  /** Splitting keeps every non-whitespace character, in order. */
  lemma {:induction false} WordsKeepVisible(s: string)
    ensures Concat(Words(s)) == Visible(s)
    decreases |s|
  {
    if s != [] && IsSpace(s[0]) {
      WordsKeepVisible(s[1..]);
    } else if s != [] {
      var w := WordPrefix(s);
      var rest := s[|w|..];
      SplitAt(s, |w|);
      VisibleAppend(w, rest);
      VisibleOfWord(w);
      WordsKeepVisible(rest);
      ConcatCons(w, Words(rest));
    }
  }

  /**
   * The number of word starts in `s`: positions holding a visible character
   * that is the first of the text or follows whitespace. `afterSpace` says
   * whether the position before `s` counts as a start of text or whitespace.
   */
  function WordStarts(s: string, afterSpace: bool): nat
    decreases |s|
  {
    if s == [] then 0
    else (if afterSpace && !IsSpace(s[0]) then 1 else 0) + WordStarts(s[1..], IsSpace(s[0]))
  }

  /** Splitting gives one word per word start. */
  lemma {:induction false} WordsCountStarts(s: string)
    ensures |Words(s)| == WordStarts(s, true)
    decreases |s|
  {
    if s != [] && IsSpace(s[0]) {
      WordsCountStarts(s[1..]);
    } else if s != [] {
      var w := WordPrefix(s);
      WordStartsInWord(s);
      WordsCountStarts(s[|w|..]);
    }
  }

  /** Inside a word no start is counted until the word's end. */
  lemma {:induction false} WordStartsInWord(s: string)
    ensures WordStarts(s, false) == WordStarts(s[|WordPrefix(s)|..], true)
    decreases |s|
  {
    if s != [] && !IsSpace(s[0]) {
      WordStartsInWord(s[1..]);
      assert s[|WordPrefix(s)|..] == s[1..][|WordPrefix(s[1..])|..];
    }
  }

  /** Joining whitespace-free words with " " adds no visible character. */
  lemma {:induction false} JoinKeepsVisible(ws: seq<string>)
    requires forall k :: 0 <= k < |ws| ==> NoSpace(ws[k])
    ensures Visible(Join(ws, " ")) == Concat(ws)
    decreases |ws|
  {
    if |ws| == 1 {
      VisibleOfWord(ws[0]);
      assert Concat(ws) == ws[0] + Concat([]);
    } else if |ws| > 1 {
      JoinKeepsVisible(ws[1..]);
      VisibleAppend(ws[0] + " ", Join(ws[1..], " "));
      VisibleAppend(ws[0], " ");
      VisibleOfWord(ws[0]);
      assert Visible(" ") == [];
    }
  }

  lemma {:induction false} JoinSingleSpaced(ws: seq<string>)
    requires forall k :: 0 <= k < |ws| ==> IsWord(ws[k])
    ensures SingleSpaced(Join(ws, " "))
    decreases |ws|
  {
    if |ws| > 1 {
      JoinSingleSpaced(ws[1..]);
      var tail := Join(ws[1..], " ");
      var r := ws[0] + " " + tail;
      assert tail != [] by { assert |Join(ws[1..], " ")| >= |ws[1]| by { JoinHeadPrefix(ws[1..]); } }
      forall i | 0 <= i < |r| && IsSpace(r[i])
        ensures r[i] == ' ' && i + 1 < |r| && !IsSpace(r[i + 1])
      {
        if i == |ws[0]| {
          assert r[i + 1] == tail[0];
        } else if i > |ws[0]| {
          assert r[i] == tail[i - |ws[0]| - 1];
          assert i + 1 < |r| ==> r[i + 1] == tail[i - |ws[0]|];
        }
      }
      assert r[|r| - 1] == tail[|tail| - 1];
    }
  }

  lemma {:induction false} JoinHeadPrefix(ws: seq<string>)
    requires ws != []
    ensures |Join(ws, " ")| >= |ws[0]| && Join(ws, " ")[..|ws[0]|] == ws[0]
  {
    if |ws| > 1 {
      assert Join(ws, " ") == ws[0] + (" " + Join(ws[1..], " "));
    }
  }

  /**
   * `Collapse` is the whitespace normalisation `' '.join(s.split())`: the
   * result keeps exactly the visible characters of `s`, in order, is empty
   * exactly when `s` is all whitespace, and its only whitespace is single
   * spaces between words.
   */
  lemma CollapseSpec(s: string)
    ensures Visible(Collapse(s)) == Visible(s)
    ensures SingleSpaced(Collapse(s))
    ensures Collapse(s) == [] <==> AllSpace(s)
  {
    var ws := Words(s);
    WordsKeepVisible(s);
    JoinKeepsVisible(ws);
    JoinSingleSpaced(ws);
    if Collapse(s) == [] {
      if ws != [] { JoinHeadPrefix(ws); }
      if !AllSpace(s) {
        var i :| 0 <= i < |s| && !IsSpace(s[i]);
        VisibleSplitsAt(s, i);
      }
    } else if AllSpace(s) {
      VisibleOfSpaces(s);
    }
  }

  lemma VisibleSplitsAt(s: string, i: int)
    requires 0 <= i < |s| && !IsSpace(s[i])
    ensures Visible(s) != []
  {
    assert s == s[..i] + s[i..];
    VisibleAppend(s[..i], s[i..]);
  }

  /** Joining any leading run of the words of `s` with single spaces never exceeds `|s|`. */
  lemma {:induction false} JoinWordsNoLonger(s: string, n: nat)
    requires n <= |Words(s)|
    ensures |Join(Words(s)[..n], " ")| <= |s|
    decreases |s|
  {
    if s != [] && IsSpace(s[0]) {
      JoinWordsNoLonger(s[1..], n);
    } else if n > 0 {
      var w := WordPrefix(s);
      var rest := s[|w|..];
      var wr := Words(rest);
      assert Words(s) == [w] + wr;
      if n > 1 {
        assert rest != [] && IsSpace(rest[0]);
        assert wr == Words(rest[1..]);
        JoinWordsNoLonger(rest[1..], n - 1);
        PrefixOfCons(w, wr, n - 1);
        JoinCons(w, wr[..n - 1], " ");
      } else {
        assert Words(s)[..n] == [w];
      }
    }
  }

  /** Splitting words joined with single spaces gives the words back. */
  lemma {:induction false} WordsOfJoin(ws: seq<string>)
    requires forall k :: 0 <= k < |ws| ==> IsWord(ws[k])
    ensures Words(Join(ws, " ")) == ws
    decreases |ws|
  {
    if |ws| == 1 {
      WordPrefixOf(ws[0], []);
      assert ws[0] + [] == ws[0];
      assert ws[0][|ws[0]|..] == [];
    } else if |ws| > 1 {
      WordsOfJoin(ws[1..]);
      WordsOfWordThen(ws[0], Join(ws[1..], " "));
      assert Join(ws, " ") == ws[0] + (" " + Join(ws[1..], " "));
      assert [ws[0]] + ws[1..] == ws;
    }
  }

  lemma WordsOfWordThen(w: string, rest: string)
    requires IsWord(w)
    ensures Words(w + (" " + rest)) == [w] + Words(rest)
  {
    var s := w + (" " + rest);
    WordPrefixOf(w, " " + rest);
    assert s[0] == w[0];
    assert s[|w|..] == " " + rest;
    assert (" " + rest)[1..] == rest;
  }

  lemma {:induction false} WordPrefixOf(w: string, tail: string)
    requires NoSpace(w)
    requires tail == [] || IsSpace(tail[0])
    ensures WordPrefix(w + tail) == w
    decreases |w|
  {
    if w != [] {
      WordPrefixOf(w[1..], tail);
      assert (w + tail)[1..] == w[1..] + tail;
    } else {
      assert w + tail == tail;
    }
  }

  lemma JoinCons(w: string, xs: seq<string>, sep: string)
    requires xs != []
    ensures Join([w] + xs, sep) == w + sep + Join(xs, sep)
  {
    assert ([w] + xs)[1..] == xs;
  }

  lemma PrefixOfCons<T>(x: T, xs: seq<T>, k: nat)
    requires k <= |xs|
    ensures ([x] + xs)[..k + 1] == [x] + xs[..k]
  {
  }

  lemma ConcatCons(w: string, xs: seq<string>)
    ensures Concat([w] + xs) == w + Concat(xs)
  {
    assert ([w] + xs)[1..] == xs;
  }

  /** Joining the pieces with the separator gives back the text. */
  lemma {:induction false} JoinSplitOn(s: string, c: char)
    ensures Join(SplitOn(s, c), [c]) == s
    decreases |s|
  {
    var k := IndexOf(s, c);
    if k < |s| {
      var rest := SplitOn(s[k + 1..], c);
      JoinSplitOn(s[k + 1..], c);
      assert SplitOn(s, c) == [s[..k]] + rest;
      JoinCons(s[..k], rest, [c]);
      assert s == s[..k] + [c] + s[k + 1..];
    }
  }

  /** Text without the separator splits into itself alone. */
  lemma SplitOnWithout(s: string, c: char)
    requires c !in s
    ensures SplitOn(s, c) == [s]
  {
    assert forall i :: 0 <= i < |s| ==> s[i] != c;
  }

  /** The first separator of `a + [c] + b` sits right after `a` when `a` has none. */
  lemma IndexOfAfter(a: string, c: char, b: string)
    requires c !in a
    ensures IndexOf(a + [c] + b, c) == |a|
  {
    var s := a + [c] + b;
    var k := IndexOf(s, c);
    assert s[|a|] == c;
    assert forall i :: 0 <= i < |a| ==> s[i] == a[i];
  }

  /** Splitting a join of separator-free pieces gives back the pieces. */
  lemma {:induction false} SplitOnJoin(ls: seq<string>, c: char)
    requires ls != []
    requires forall i :: 0 <= i < |ls| ==> c !in ls[i]
    ensures SplitOn(Join(ls, [c]), c) == ls
    decreases |ls|
  {
    if |ls| > 1 {
      var a := ls[0];
      var b := Join(ls[1..], [c]);
      var s := a + [c] + b;
      assert Join(ls, [c]) == s;
      IndexOfAfter(a, c, b);
      assert s[..|a|] == a && s[|a| + 1..] == b;
      assert SplitOn(s, c) == [a] + SplitOn(b, c);
      SplitOnJoin(ls[1..], c);
      assert ls == [a] + ls[1..];
    } else {
      assert Join(ls, [c]) == ls[0];
      SplitOnWithout(ls[0], c);
    }
  }

  /** Stripping removes characters and adds none. */
  lemma StripOmits(s: string, c: char)
    requires c !in s
    ensures c !in Strip(s)
  {
    var t := RStrip(s);
    var r := LStrip(t);
    assert forall i :: 0 <= i < |t| ==> t[i] == s[i];
    assert forall i :: 0 <= i < |r| ==> r[i] == t[|t| - |r| + i];
    assert Strip(s) == r;
  }

  /** Single-spaced text holds no newline. */
  lemma SingleSpacedHasNoNewline(r: string)
    requires SingleSpaced(r)
    ensures '\n' !in r
  {
    if '\n' in r {
      var i :| 0 <= i < |r| && r[i] == '\n';
      assert IsSpace(r[i]);
    }
  }

  lemma SplitAt<T>(s: seq<T>, k: nat)
    requires k <= |s|
    ensures s == s[..k] + s[k..]
  {
  }
}

=== FILE: user_mapper.dfy ===
/**
 * Identities across the web interface and Discord, and the unified id that
 * keys the shared rate limit.
 */
module UserMapper {
  import opened Text
  import opened Wrappers
  import RateLimiter

  /** A user as one platform knows them, with the id the rate limiter is keyed by. */
  datatype UserIdentity = UserIdentity(
    platform: string,
    platformUserId: string,
    unifiedUserId: string,
    userType: string)

  const Authenticated: string := "authenticated"
  const Anonymous: string := "anonymous"

  /** The part of the unified id that records whether the user signed in. */
  function TypeTag(userType: string): string {
    if userType == Authenticated then "auth" else "anon"
  }

  /** `get_unified_user_id`: `auth:P:ID` for authenticated users, `anon:P:ID` for anyone else. */
  function UnifiedUserId(platform: string, platformUserId: string, userType: string): (r: string)
    ensures |r| == 5 + |platform| + 1 + |platformUserId|
    ensures r[..5] == (if userType == Authenticated then "auth:" else "anon:")
    ensures r[5..5 + |platform|] == platform && r[5 + |platform|] == ':'
    ensures r[6 + |platform|..] == platformUserId
  {
    TypeTag(userType) + ":" + platform + ":" + platformUserId
  }

  /** An HTTP request as the identity mapping sees it. */
  datatype WebRequest = WebRequest(
    headers: map<string, string>,
    session: map<string, string>,
    remoteAddr: string)

  /** `value.split(',')[0]`: everything before the first comma. */
  function FirstField(value: string): (r: string)
    ensures |r| <= |value| && r == value[..|r|]
    ensures forall i :: 0 <= i < |r| ==> r[i] != ','
    ensures |r| == |value| || value[|r|] == ','
  {
    if value == [] || value[0] == ',' then [] else [value[0]] + FirstField(value[1..])
  }

  /**
   * The address an anonymous web user is known by: the first entry of
   * `X-Forwarded-For`, else `X-Real-IP`, else the peer address, else "unknown".
   */
  function RealIp(request: WebRequest): (r: string)
    ensures r != []
    ensures var forwarded := Strip(FirstField(MapGet(request.headers, "X-Forwarded-For", "")));
      && (forwarded != [] ==> r == forwarded)
      && (forwarded == [] && MapGet(request.headers, "X-Real-IP", "") != [] ==> r == request.headers["X-Real-IP"])
      && (forwarded == [] && MapGet(request.headers, "X-Real-IP", "") == [] && request.remoteAddr != [] ==>
            r == request.remoteAddr)
      && (forwarded == [] && MapGet(request.headers, "X-Real-IP", "") == [] && request.remoteAddr == [] ==>
            r == "unknown")
  {
    var forwarded := Strip(FirstField(MapGet(request.headers, "X-Forwarded-For", "")));
    var realIp := MapGet(request.headers, "X-Real-IP", "");
    if forwarded != [] then forwarded
    else if realIp != [] then realIp
    else if request.remoteAddr != [] then request.remoteAddr
    else "unknown"
  }

  /**
   * `create_web_user_identity`: a non-empty `X-User-ID` header, then a
   * `user_id` in the session, identify an authenticated user; anyone else is
   * anonymous under their address. Session values are given already passed
   * through `str()`.
   */
  function WebIdentity(request: WebRequest): (r: UserIdentity)
    ensures r.platform == "web"
    ensures MapGet(request.headers, "X-User-ID", "") != [] ==>
      r.userType == Authenticated && r.platformUserId == request.headers["X-User-ID"]
    ensures MapGet(request.headers, "X-User-ID", "") == [] && "user_id" in request.session ==>
      r.userType == Authenticated && r.platformUserId == request.session["user_id"]
    ensures MapGet(request.headers, "X-User-ID", "") == [] && "user_id" !in request.session ==>
      r.userType == Anonymous && r.platformUserId == RealIp(request)
    ensures r.unifiedUserId == UnifiedUserId("web", r.platformUserId, r.userType)
  {
    var header := MapGet(request.headers, "X-User-ID", "");
    if header != [] then
      UserIdentity("web", header, UnifiedUserId("web", header, Authenticated), Authenticated)
    else if "user_id" in request.session then
      var id := request.session["user_id"];
      UserIdentity("web", id, UnifiedUserId("web", id, Authenticated), Authenticated)
    else
      var ip := RealIp(request);
      UserIdentity("web", ip, UnifiedUserId("web", ip, Anonymous), Anonymous)
  }

  /** `create_discord_user_identity`: Discord users always count as authenticated. */
  function DiscordIdentity(discordUserId: string): (r: UserIdentity)
    ensures r.platform == "discord" && r.platformUserId == discordUserId
    ensures r.userType == Authenticated
    ensures r.unifiedUserId == "auth:discord:" + discordUserId
  {
    UserIdentity("discord", discordUserId, UnifiedUserId("discord", discordUserId, Authenticated), Authenticated)
  }

  /** `can_share_rate_limit`. */
  predicate CanShareRateLimit(a: UserIdentity, b: UserIdentity) {
    a.unifiedUserId == b.unifiedUserId
  }

  /** `get_rate_limit_key`: the unified id, unchanged. */
  function RateLimitKey(identity: UserIdentity): string {
    identity.unifiedUserId
  }

  // ---------------------------------------------------------------------
  // Properties
  // ---------------------------------------------------------------------

  /**
   * On platforms without ':' in their name, the unified id determines the
   * platform, the platform id and whether the user signed in.
   */
  lemma UnifiedInjective(p1: string, id1: string, t1: string, p2: string, id2: string, t2: string)
    requires forall i :: 0 <= i < |p1| ==> p1[i] != ':'
    requires forall i :: 0 <= i < |p2| ==> p2[i] != ':'
    requires UnifiedUserId(p1, id1, t1) == UnifiedUserId(p2, id2, t2)
    ensures p1 == p2 && id1 == id2 && (t1 == Authenticated <==> t2 == Authenticated)
  {
    var u := UnifiedUserId(p1, id1, t1);
    assert u[..5] == UnifiedUserId(p2, id2, t2)[..5];
    assert |p1| == |p2| by {
      if |p1| < |p2| {
        assert false;
      } else if |p2| < |p1| {
        assert false;
      }
    }
    assert p1 == u[5..5 + |p1|];
  }

  /** Distinct Discord users never share a limit. */
  lemma DiscordKeysDistinct(a: string, b: string)
    requires a != b
    ensures RateLimitKey(DiscordIdentity(a)) != RateLimitKey(DiscordIdentity(b))
  {
    if RateLimitKey(DiscordIdentity(a)) == RateLimitKey(DiscordIdentity(b)) {
      UnifiedInjective("discord", a, Authenticated, "discord", b, Authenticated);
    }
  }

  /** A web identity never shares a limit with a Discord identity, whatever the ids. */
  lemma WebAndDiscordDistinct(request: WebRequest, discordUserId: string)
    ensures !CanShareRateLimit(WebIdentity(request), DiscordIdentity(discordUserId))
  {
    var w := WebIdentity(request);
    var d := DiscordIdentity(discordUserId);
    if w.unifiedUserId == d.unifiedUserId {
      UnifiedInjective("web", w.platformUserId, w.userType, "discord", discordUserId, Authenticated);
    }
  }

  /** Anonymous web users share a limit exactly when their addresses agree. */
  lemma AnonymousKeyedByAddress(r1: WebRequest, r2: WebRequest)
    requires MapGet(r1.headers, "X-User-ID", "") == [] && "user_id" !in r1.session
    requires MapGet(r2.headers, "X-User-ID", "") == [] && "user_id" !in r2.session
    ensures CanShareRateLimit(WebIdentity(r1), WebIdentity(r2)) <==> RealIp(r1) == RealIp(r2)
  {
    if CanShareRateLimit(WebIdentity(r1), WebIdentity(r2)) {
      UnifiedInjective("web", RealIp(r1), Anonymous, "web", RealIp(r2), Anonymous);
    }
  }

  /**
   * The limiter's sanitiser turns ':' into '_', but the keys of a web user
   * and a Discord user still differ: the platform names differ right after
   * the type tag.
   */
  lemma SanitizedKeysDistinct(config: RateLimiter.RateLimitConfig, request: WebRequest, discordUserId: string)
    ensures RateLimiter.Key(config, RateLimitKey(WebIdentity(request))) !=
            RateLimiter.Key(config, RateLimitKey(DiscordIdentity(discordUserId)))
  {
    var w := RateLimitKey(WebIdentity(request));
    var d := RateLimitKey(DiscordIdentity(discordUserId));
    var n := |config.keyPrefix| + 1;
    assert w[5] == 'w' && d[5] == 'd';
    assert RateLimiter.Sanitize(w)[5] != RateLimiter.Sanitize(d)[5];
    assert RateLimiter.Key(config, w)[n + 5] == RateLimiter.Sanitize(w)[5];
    assert RateLimiter.Key(config, d)[n + 5] == RateLimiter.Sanitize(d)[5];
  }

  /** Every identity yields a non-empty key, so the limiter never rejects it as empty. */
  lemma KeysNonEmpty(request: WebRequest, discordUserId: string)
    ensures RateLimitKey(WebIdentity(request)) != []
    ensures RateLimitKey(DiscordIdentity(discordUserId)) != []
  {
  }
}

=== FILE: wrappers.dfy ===
/** Optional values and results with an error, used for Python's `None` and raised errors. */
module Wrappers {

  datatype Option<+T> = None | Some(value: T) {
    function GetOr(default: T): T {
      match this
      case Some(v) => v
      case None => default
    }
  }

  datatype Result<+T, +E> = Ok(value: T) | Err(error: E)

  /** Python `d.get(key, default)` on a dictionary. */
  function MapGet<K, V>(m: map<K, V>, key: K, default: V): V {
    if key in m then m[key] else default
  }
}
